=== FILE: README.md ===
# Medical appointment system — a Dafny model

This project models the core of a clinic's appointment system. The backend
is a Python/SQLite service layer; the front end is a React application.

The backend half covers:

- **Booking.** The clash test of `TurnoService` and its three-check
  validation with a fixed error order. Also `create`, `update` and `delete`
  on the appointment book.
- **Availability.** The weekly windows of `HorarioAtencionService`:
  weekday validation, the containment test, the default week and the
  replace-all edit.
- **Reminders.** The sweep that flags appointments due within a day and
  mails whoever opted in.
- **Consultations.** At most one consultation per appointment, with its
  per-date and per-patient selectors.
- **Uniqueness rules** of the patient, doctor and user-role services.
- **Authentication.** The login check chain and the password change.

The front-end half covers:

- **Slot grid.** The patient's weekly slot grid: its classifier and its
  selection state machine.
- **Calendars.** The week calendar's working-hour shading and event cells,
  and the master grid of `dateUtils.js`.
- **Availability editor.** The admin's schedule editor, which allows one
  window per weekday.
- **Admin agenda.** The monthly agenda: month filter, grouping by date, and
  cancel.
- **Forms.** Every validation rule and schema, and the regular expressions
  they use.
- **Mappers.** The backend-to-front-end field renaming.
- **Search panels.** The four admin search panels.

Timestamps are integer minutes. Day 0 is a Monday, so the backend's weekday
(Monday = 0) is `day % 7`, while `Date.getDay()` (Sunday = 0) is
`(day + 1) % 7` (`Clock`). Tables are maps from id to row, together with
the next AUTOINCREMENT id. The user table and the user-role table are
sequences, because the code reads "the first matching row".

Each of these becomes a parameter:

- `now`
- the seconds and milliseconds of the week calendar's two clock reads
- the patient's and the doctor's reminder opt-ins, and the e-mail sender
- password verification and hashing
- role lookup by name
- `toLowerCase`, `localeCompare` and `parseInt`
- date parsing in the birth-date rule
- the fresh id of the schedule editor
- the schedule editor's field rules, which the code imports under a name the validations module does not export (see Findings)

Where the code and its documentation disagree, the model follows the code:

- **Cancelled appointments block.** A cancelled appointment still blocks
  its slot in the backend clash test, because the test reads every stored
  row whatever its status. The patient's grid shows such a slot as free.
- **Inclusive windows.** The reminder window `[now, now + 1 day]` includes
  both ends (SQL `BETWEEN`). The availability windows include both bounds
  too.
- **Half-open shading.** The week calendar shades working hours half-open,
  and only the first config of a weekday counts.
- **No start-before-end check.** Nothing checks that a booking or a window
  starts before it ends. `update` never re-validates.
- **Telephone message.** The telephone message says "10-13 números" while
  the pattern accepts 10 to 15 digits, spaces and dashes.
- **No buttons on the last day.** The slot grid renders no buttons for the
  week's last column.

## Model

| member | source | states |
|---|---|---|
| Clock.BackendWeekday | backend/services/horario_atencion_service.py:196-197 | the backend weekday of a timestamp lies in 0..6 |
| Clock.JsWeekday | frontend/src/components/ui/WeekCalendar.jsx:32 | the front-end weekday of a day lies in 0..6 |
| Clock.WeekdayNumberings | frontend/src/utils/constants.js:18 | the front-end weekday of any timestamp is the backend weekday plus one, mod 7 |
| Clock.LabelOrder | frontend/src/components/ui/WeekCalendar.jsx:36 | comparing zero-padded "HH:mm" labels as strings agrees with comparing their minutes, strictly and non-strictly |
| Clock.StartsAtMinute | frontend/src/components/ui/WeekCalendar.jsx:39-46 | a timestamp falls in the cell labelled with minute m of a day iff it is exactly that minute of that day |
| Clock.ParseFormat | frontend/src/utils/dateUtils.js:90-94 | formatting a time of day as "HH:mm" and parsing it back gives the same minute |
| Clock.FormatParse | frontend/src/utils/dateUtils.js:90-94 | parsing a well-formed "HH:mm" label and formatting it back gives the same label |
| Constants.RoleKeys | frontend/src/utils/constants.js:1-5 | the role map has exactly the keys Admin, Doctor and Patient |
| Constants.WeekdayNames | frontend/src/utils/constants.js:18 | seven names, index 0 is "Domingo"; the backend weekday w is named by index (w + 1) mod 7 |
| Text.NatToString | frontend/src/pages/Admin/AdminSchedule.jsx:108 | the decimal form of a count is a non-empty string of digits |
| Text.ParseNatToString | frontend/src/components/features/filterPanel/admin/AdminPatientFilterPanel.jsx:81 | reading the decimal form back gives the number |
| Text.NatToStringInjective | frontend/src/components/features/filterPanel/admin/AdminPatientFilterPanel.jsx:81 | different counts are written differently |
| Text.Trim | frontend/src/validations/shiftSchemas.js:12 | the trimmed text is no longer than the input, has no white space at either end, and is empty iff the input is all white space |
| Appointments.CountClashes | backend/services/turno_service.py:18-36 | the count is positive iff some stored row of that doctor (or patient) meets one of the three overlap clauses |
| Appointments.ClashIsOverlap | backend/services/turno_service.py:26-30 | for a stored appointment that starts before it ends, the three clauses are exactly half-open interval overlap |
| Appointments.NoClashNoOverlap | backend/services/turno_service.py:26-30 | when no clause holds the intervals do not overlap, whatever the stored row's bounds |
| Appointments.BackToBack | backend/services/turno_service.py:26-30 | an appointment that ends where the new one starts, or starts where it ends, does not block it |
| Appointments.DegenerateRowBlocks | backend/services/turno_service.py:26-30 | a stored row whose end precedes its start still blocks a booking that covers its start |
| Appointments.Validate | backend/services/turno_service.py:39-81 | a request is valid iff it lies in the doctor's hours and clashes with neither the doctor's nor the patient's appointments; only those three errors occur |
| Appointments.ValidateOrder | backend/services/turno_service.py:72-79 | outside-hours is reported before a doctor clash, and a doctor clash before a patient clash |
| Appointments.AnyStatusBlocks | backend/services/turno_service.py:20-36 | a stored appointment of the doctor blocks an overlapping request whatever its status, cancelled included |
| Appointments.Create | backend/services/turno_service.py:196-227 | creation succeeds iff validation passes and the doctor has no appointment at the same start; it adds exactly the request under a fresh id and keeps every other row; a rejection reports the validation error |
| Appointments.DuplicateStartNeedsEmptyBooking | backend/services/turno_service.py:207-227 | the unique-index error can only reach a request whose end is not after its start |
| Appointments.CreateKeepsNoDoubleBooking | backend/services/turno_service.py:196-223 | a successful creation keeps the book free of overlapping appointments of one doctor or one patient |
| Appointments.Update | backend/services/turno_service.py:229-256 | an unknown id gives no result and no change; an empty patch is an error; a patch that would give the row the doctor and start of another row is refused by the unique index; otherwise each given column takes its value, each omitted one keeps it, and no other row changes |
| Appointments.CreateKeepsStartsUnique | backend/services/turno_service.py:207-227 | a successful creation keeps every doctor's starts distinct, as the unique index on (doctor, start) demands |
| Appointments.UpdateKeepsStartsUnique | backend/services/turno_service.py:229-256 | a successful update keeps every doctor's starts distinct |
| Appointments.UpdateCanDoubleBook | backend/services/turno_service.py:229-256 | update does not validate, so it can move an appointment to overlap another of the same doctor at a different start |
| Appointments.UpdateOntoTakenStartFails | backend/services/turno_service.py:229-256 | moving an appointment onto the start of another of the same doctor is refused with the index error |
| Appointments.Delete | backend/services/turno_service.py:258-271 | reports whether the id existed, removes exactly that row and changes nothing for an unknown id |
| Appointments.DeleteKeepsNoDoubleBooking | backend/services/turno_service.py:258-271 | deleting keeps the book free of double bookings |
| Availability.Create | backend/services/horario_atencion_service.py:102-134 | an unknown doctor is reported before a weekday outside 0..6; otherwise the window is stored unchanged under a fresh id |
| Availability.Update | backend/services/horario_atencion_service.py:136-174 | unknown id gives no result; a weekday outside 0..6 is reported before an empty patch; any other patch succeeds, writing each given field, keeping each omitted one and the doctor, and leaving other rows and the next id alone |
| Availability.UpdateKeepsOtherDoctors | backend/services/horario_atencion_service.py:136-174 | an update keeps the catalogue valid and never changes whether another doctor can take a booking |
| Availability.Delete | backend/services/horario_atencion_service.py:176-189 | reports whether the id existed and removes exactly that row |
| Availability.ScanWindows | backend/services/horario_atencion_service.py:204-225 | the scan answers true iff some returned window admits the booking |
| Availability.EndDateIgnored | backend/services/horario_atencion_service.py:196-223 | only the end's time of day is compared, so moving the end by whole days changes nothing |
| Availability.EmptyWeekdayNeverAvailable | backend/services/horario_atencion_service.py:204-225 | a weekday with no window of the doctor is never available |
| Availability.BoundsInclusive | backend/services/horario_atencion_service.py:223 | a booking that fills a window exactly is inside it: both bounds are inclusive |
| Availability.MoreWindowsNeverExclude | backend/services/horario_atencion_service.py:212-225 | adding windows never turns an in-hours booking into an out-of-hours one |
| Availability.CreateAcceptsEmptyWindow | backend/services/horario_atencion_service.py:110-124 | a window whose start is after its end is accepted |
| Availability.Appended | backend/services/horario_atencion_service.py:239-243 | rows inserted in order from a base id get consecutive ids, one per window |
| Availability.InsertRows | backend/services/horario_atencion_service.py:239-244 | inserting keeps every existing row and adds exactly the windows under fresh ids |
| Availability.DefaultsCoverWorkweek | backend/services/horario_atencion_service.py:227-247 | after seeding, a new doctor is available exactly Monday to Friday between 09:00 and 17:00 |
| Availability.FirstRejected | backend/services/horario_atencion_service.py:262-264 | the index of the first window that `create` would refuse: all before it are valid |
| Availability.CreateEachInsertsPrefix | backend/services/horario_atencion_service.py:262-264 | the create loop stores exactly the windows before the first refused one, and succeeds iff none is refused |
| Availability.ReplaceUnknownDoctor | backend/services/horario_atencion_service.py:254-256 | an unknown doctor is an error and changes nothing |
| Availability.ReplaceOutcome | backend/services/horario_atencion_service.py:254-266 | other doctors' rows are untouched, and the doctor keeps exactly the windows before the first refused one |
| Availability.ReplaceKeepsOthers | backend/services/horario_atencion_service.py:259 | another doctor's window survives a replace unchanged, whatever the outcome |
| Availability.ReplaceExactly | backend/services/horario_atencion_service.py:249-266 | with every supplied window valid, the doctor's windows afterwards are exactly the supplied list |
| Reminders.Sweep | backend/services/turno_service.py:273-310 | flags exactly the pending, unflagged appointments starting in [now, now + 1 day]; returns their count; mails exactly the opted-in parties of those appointments; changes nothing else |
| Reminders.FlagsNeverReset | backend/services/turno_service.py:282 | an appointment already flagged is left exactly as it was |
| Reminders.SweepTwice | backend/services/turno_service.py:276-310 | a second sweep at the same `now` flags nothing and returns zero |
| Reminders.NoPendingStatusNoReminders | backend/services/turno_service.py:278-280 | without a 'Pendiente' status row nothing is ever due |
| Reminders.WindowInclusive | backend/services/turno_service.py:281 | an appointment starting exactly at `now` or exactly one day later is flagged |
| Reminders.SweepKeepsNoDoubleBooking | backend/services/turno_service.py:308 | the sweep changes only the flag, so the book stays free of double bookings |
| Reminders.NotifyParties | backend/services/turno_service.py:294-306 | the mails attempted for one appointment are exactly those for the parties that opted in |
| Reminders.RunSweep | backend/services/turno_service.py:290-310 | the loop over the selected rows ends in the declarative sweep's book, count and mails |
| Reminders.SweepResult | backend/services/turno_service.py:290-310 | a book, count and mail list with the loop's per-row effects is the sweep's outcome |
| Reminders.FlagWriteIsUpdate | backend/services/turno_service.py:308 | on a book that satisfies the unique index, the flag write is `update` with the single reminder column, and it succeeds |
| Reminders.SweepAsWritten | backend/services/turno_service.py:290-315 | as written, the sweep fails and changes nothing whenever some appointment is due |
| Reminders.SweepAsWrittenFails | backend/services/turno_service.py:294 | an appointment due in one hour makes the as-written sweep fail while the corrected sweep flags it |
| Reminders.SweepAsWrittenAgreesWhenIdle | backend/services/turno_service.py:290-310 | when nothing is due both versions return zero and leave the book alone |
| Consultations.Create | backend/services/consulta_service.py:95-128 | an unknown appointment is reported first, then one already recorded; otherwise exactly the consultation is added under a fresh id |
| Consultations.CreateKeepsOnePerAppointment | backend/services/consulta_service.py:103-106 | creation keeps at most one consultation per appointment |
| Consultations.SecondCreateFails | backend/services/consulta_service.py:104-106 | after a successful create, another create for the same appointment fails |
| Consultations.Update | backend/services/consulta_service.py:130-163 | unknown id gives no result; an all-empty patch is an error; any other patch succeeds, writing each given text field and keeping each omitted one, the appointment and the date |
| Consultations.UpdateKeepsOnePerAppointment | backend/services/consulta_service.py:140-156 | an update never moves a consultation to another appointment |
| Consultations.Delete | backend/services/consulta_service.py:165-178 | reports whether the id existed, removes exactly that row and changes nothing for an unknown id |
| Consultations.DeleteFreesAppointment | backend/services/consulta_service.py:165-174 | after deleting its consultation an appointment can be recorded again |
| Consultations.IdsOn | backend/services/consulta_service.py:78-93 | the ids listed for a date are exactly the consultations dated that day |
| Consultations.ByPatient | backend/services/consulta_service.py:180-198 | every id listed for a patient is a stored consultation |
| Consultations.ByPatientPartitions | backend/services/consulta_service.py:182-187 | a consultation is listed for a patient iff its appointment exists and belongs to that patient |
| Consultations.PatientsOn | backend/services/consulta_service.py:60-76 | the patients listed for a date are distinct and are exactly those with a consultation on that day |
| Patients.Create | backend/services/paciente_service.py:90-140 | a taken DNI is reported first; the membership pair is checked only when both values are present; otherwise the patient is added under a fresh id |
| Patients.CreateKeepsUnique | backend/services/paciente_service.py:95-113 | creation keeps DNIs unique and complete memberships unique |
| Patients.IncompleteMembershipNotChecked | backend/services/paciente_service.py:104 | two patients may share a social work when one of them lacks a membership number |
| Patients.Update | backend/services/paciente_service.py:142-186 | not-found first, then the empty-patch error; otherwise the DNI stays, other rows are untouched, each of the six fields the patch gives is written and each it omits keeps its value |
| Patients.UpdateKeepsDnisUnique | backend/services/paciente_service.py:159-162 | update never changes a DNI, so DNIs stay unique |
| Patients.UpdateCanDuplicateMembership | backend/services/paciente_service.py:159-176 | update does not repeat the membership check, so it can copy another patient's membership |
| Patients.GetById | backend/services/paciente_service.py:69-88 | a patient is returned iff the id exists; otherwise not-found |
| Patients.Delete | backend/services/paciente_service.py:188-210 | not-found for an unknown id; otherwise exactly that row goes |
| Patients.DeleteThenGetFails | backend/services/paciente_service.py:188-203 | a deleted patient is not found afterwards |
| Doctors.Create | backend/services/medico_service.py:114-160 | the DNI check comes before the licence check, and a user already linked to a doctor makes the insert fail; otherwise the doctor is added under a fresh id |
| Doctors.CreateKeepsUnique | backend/services/medico_service.py:120-134 | creation keeps DNIs, licences and linked users unique |
| Doctors.Update | backend/services/medico_service.py:163-216 | not-found first, then the empty-patch error; otherwise DNI, licence and user stay, other rows are untouched, and first name, last name, phone and specialty are each written when given and kept when omitted |
| Doctors.UpdateKeepsUnique | backend/services/medico_service.py:182-193 | DNI, licence and user are immutable, so they stay unique |
| Doctors.GetById | backend/services/medico_service.py:93-112 | a doctor is returned iff the id exists; otherwise not-found |
| Doctors.Delete | backend/services/medico_service.py:219-240 | not-found for an unknown id; otherwise exactly that row goes |
| Doctors.DeleteFreesDniAndLicence | backend/services/medico_service.py:219-234 | once a doctor is deleted, the DNI, licence and user can be registered again |
| Doctors.SecondDoctorForUserFails | backend/services/medico_service.py:136-160 | a second doctor for an already linked user fails, even with a fresh DNI and licence |
| UserRoles.Create | backend/services/usuario_rol_service.py:89-125 | unknown user first, then unknown role, then a pair already present; otherwise exactly that pair is appended |
| UserRoles.CreateKeepsDistinct | backend/services/usuario_rol_service.py:102-107 | creation keeps the pair table free of duplicates |
| UserRoles.SecondGrantFails | backend/services/usuario_rol_service.py:103-107 | granting the same pair twice fails the second time |
| UserRoles.Delete | backend/services/usuario_rol_service.py:127-144 | reports whether the pair was present; afterwards it is absent and every other pair remains, in order |
| UserRoles.ForUser | backend/services/usuario_rol_service.py:61-73 | the rows listed for a user are exactly that user's pairs |
| UserRoles.CreatedGrantListed | backend/services/usuario_rol_service.py:61-121 | a pair just granted is listed for its user |
| Auth.FindByEmail | backend/services/auth_service.py:21-25 | no row iff no user has the e-mail; otherwise a user with that e-mail |
| Auth.Login | backend/services/auth_service.py:19-63 | login succeeds iff the e-mail is known, the user is active, the password verifies, the role exists and is granted; the result is the user's id and the role's id |
| Auth.LoginErrorOrder | backend/services/auth_service.py:27-52 | errors come in the order inactive, wrong password, unknown role, role not granted |
| Auth.InactiveNeverLogsIn | backend/services/auth_service.py:32-33 | an inactive account never logs in, whatever the password or role |
| Auth.FindUnique | backend/services/auth_service.py:21-25 | with one user holding the e-mail, the lookup finds that user |
| Auth.ChangePassword | backend/services/auth_service.py:65-90 | an unknown user or wrong current password is an error; on success only that user's hash becomes the hash of the new password |
| Auth.FindById | backend/services/auth_service.py:66-73 | no row iff no user has the id; otherwise a user with that id |
| Auth.NewPasswordWorks | backend/services/auth_service.py:80-88 | after a successful change the new password verifies for that user |
| WeeklySlots.SlotLabel | frontend/src/components/features/schedule/WeeklySlots.jsx:6-12 | row i is labelled with the time i half hours after 09:00 |
| WeeklySlots.TimeSlotsAreHalfHours | frontend/src/components/features/schedule/WeeklySlots.jsx:6-12 | nineteen labels, the half hours from 09:00 to 18:00 |
| WeeklySlots.TimeSlotsIncrease | frontend/src/components/features/schedule/WeeklySlots.jsx:6-12 | the labels increase strictly as strings |
| WeeklySlots.WeekDays | frontend/src/components/features/schedule/WeeklySlots.jsx:28-31 | seven consecutive days starting the day after the selected week's first day |
| WeeklySlots.WeekStartsMonday | frontend/src/components/features/schedule/WeeklySlots.jsx:27-31 | for a week that starts on a Sunday the columns run Monday to Sunday |
| WeeklySlots.FindShift | frontend/src/components/features/schedule/WeeklySlots.jsx:51-55 | no shift found iff none starts in the cell; otherwise one that does |
| WeeklySlots.GetSlotInfo | frontend/src/components/features/schedule/WeeklySlots.jsx:34-121 | expired iff the cell is before `now`; on a later cell the doctor sees empty iff no shift starts there, else the first such shift with its status; the patient sees occupied iff the first shift there is not cancelled, otherwise selected iff the cell is the chosen one, otherwise available |
| WeeklySlots.Click | frontend/src/components/features/schedule/WeeklySlots.jsx:124-152 | the doctor's clicks and clicks on occupied or expired cells change nothing; any other click clears the selection when it is the clicked cell and selects the clicked cell otherwise |
| WeeklySlots.ExpiredWins | frontend/src/components/features/schedule/WeeklySlots.jsx:41-47 | a past cell is expired for every role, shift list and selection, and a click on it changes nothing |
| WeeklySlots.CancelledIsSelectable | frontend/src/components/features/schedule/WeeklySlots.jsx:96-120 | in the patient's view a cell whose only shifts are cancelled is available and a click selects it |
| WeeklySlots.FirstShiftDecides | frontend/src/components/features/schedule/WeeklySlots.jsx:51-55 | a cancelled shift listed before a pending one in the same cell leaves the cell available |
| WeeklySlots.SelectThenDeselect | frontend/src/components/features/schedule/WeeklySlots.jsx:138-151 | selecting a free cell and clicking it again leaves nothing selected |
| WeeklySlots.ClickMovesSelection | frontend/src/components/features/schedule/WeeklySlots.jsx:146-151 | a click on another available cell moves the selection there |
| WeeklySlots.AtMostOneSelected | frontend/src/components/features/schedule/WeeklySlots.jsx:104-113 | at most one cell of the grid shows as selected |
| WeeklySlots.DisabledClickIgnored | frontend/src/components/features/schedule/WeeklySlots.jsx:186 | a disabled button's click, were it delivered, would change nothing |
| WeeklySlots.Buttons | frontend/src/components/features/schedule/WeeklySlots.jsx:158-186 | the grid renders one button per label for the first six days and none for the last |
| WeekCalendar.WeekStart | frontend/src/components/ui/WeekCalendar.jsx:11 | the Monday on or before the day, less than a week before it |
| WeekCalendar.WeekDays | frontend/src/components/ui/WeekCalendar.jsx:11-12 | seven consecutive days from the Monday of the week, Monday to Sunday, including the day |
| WeekCalendar.TimeSlots | frontend/src/components/ui/WeekCalendar.jsx:5-27 | labels from 08:00 in 30-minute steps, strictly increasing; 24 of them before 20:00, plus a 25th "20:00" exactly when the first clock read is earlier within its minute than the second |
| WeekCalendar.FindConfig | frontend/src/components/ui/WeekCalendar.jsx:33 | no config iff none has the weekday; otherwise one that has it |
| WeekCalendar.FindFirstConfig | frontend/src/components/ui/WeekCalendar.jsx:33 | the config found is the first with the weekday |
| WeekCalendar.IsWorkingHour | frontend/src/components/ui/WeekCalendar.jsx:29-37 | with no configs every slot is working; with configs, a weekday with none is never working |
| WeekCalendar.WorkingHoursHalfOpen | frontend/src/components/ui/WeekCalendar.jsx:36 | for labelled times the string test is the minute test start <= m < end |
| WeekCalendar.FirstConfigOnly | frontend/src/components/ui/WeekCalendar.jsx:33-36 | a second config for the same weekday does not add working hours |
| WeekCalendar.FindEvent | frontend/src/components/ui/WeekCalendar.jsx:39-46 | no event iff none starts in the cell; otherwise one that does |
| WeekCalendar.CellAt | frontend/src/components/ui/WeekCalendar.jsx:63-105 | a cell shows an event iff one starts in it; otherwise it is a working cell iff the hour is working |
| WeekCalendar.EventShownIff | frontend/src/components/ui/WeekCalendar.jsx:39-46 | the cell of minute m shows an event iff some event starts at exactly that minute of that day |
| WeekCalendar.EventBeatsOffHours | frontend/src/components/ui/WeekCalendar.jsx:63-105 | an event outside the working hours is still shown |
| DateUtils.MinStart | frontend/src/utils/dateUtils.js:79-86 | the least start among the configs, which is one of them |
| DateUtils.MaxEnd | frontend/src/utils/dateUtils.js:80-86 | the greatest end among the configs, which is one of them |
| DateUtils.BoundsStep | frontend/src/utils/dateUtils.js:83-86 | one more config moves the bounds only by its own start and end |
| DateUtils.SeedLabels | frontend/src/utils/dateUtils.js:79-80 | the seeds "23:59" and "00:00" are the last and first minutes of the day |
| DateUtils.CompareStep | frontend/src/utils/dateUtils.js:83-86 | one string comparison per config keeps the labels of the least start and the greatest end seen so far |
| DateUtils.Bounds | frontend/src/utils/dateUtils.js:79-86 | the string search finds the labels of the least start and the greatest end |
| DateUtils.HalfHours | frontend/src/utils/dateUtils.js:88-96 | the half hours from the start while before the end, each label that of its minute; none when the end is not after the start, and the last one is within a half hour of the end |
| DateUtils.MasterGrid | frontend/src/utils/dateUtils.js:76-99 | no configs give no rows; otherwise the rows are the half hours from the least start while before the greatest end |
| DateUtils.DaysOptions | frontend/src/utils/dateUtils.js:101-104 | one option per weekday name, its value the index |
| DateUtils.DaysOptionsNameDays | frontend/src/utils/dateUtils.js:101-104 | option values are distinct, and the option of a `getDay` value names that day |
| SchedulePanel.AddSlot | frontend/src/components/features/adminDataManagement/edit/AdminDoctorSchedulePanel.jsx:76-112 | with a working validator: an invalid form or a taken weekday changes nothing; otherwise exactly one window is appended and the form is reset |
| SchedulePanel.AddSlotAsWritten | frontend/src/components/features/adminDataManagement/edit/AdminDoctorSchedulePanel.jsx:76-86 | with the schema binding undefined the handler fails before changing anything; with a bound schema it is `AddSlot` |
| SchedulePanel.AddSlotAsWrittenFails | frontend/src/components/features/adminDataManagement/edit/AdminDoctorSchedulePanel.jsx:76-108 | a well-formed window for a free weekday is never added as written, while the intended handler adds it |
| SchedulePanel.DeleteSlot | frontend/src/components/features/adminDataManagement/edit/AdminDoctorSchedulePanel.jsx:114-117 | every entry with the id goes and the others stay, in order |
| SchedulePanel.AddKeepsOnePerWeekday | frontend/src/components/features/adminDataManagement/edit/AdminDoctorSchedulePanel.jsx:91-107 | adding for a chosen weekday keeps one window per weekday |
| SchedulePanel.EmptyDayAddsSecondSunday | frontend/src/components/features/adminDataManagement/edit/AdminDoctorSchedulePanel.jsx:91-107 | with the weekday left empty the clash test finds nothing and a second Sunday window is added |
| SchedulePanel.SubsequenceKeepsOnePerWeekday | frontend/src/components/features/adminDataManagement/edit/AdminDoctorSchedulePanel.jsx:114-117 | any subsequence of a one-per-weekday list is one-per-weekday |
| SchedulePanel.DeleteKeepsOnePerWeekday | frontend/src/components/features/adminDataManagement/edit/AdminDoctorSchedulePanel.jsx:114-117 | deleting keeps one window per weekday |
| SchedulePanel.Column | frontend/src/components/features/adminDataManagement/edit/AdminDoctorSchedulePanel.jsx:251-252 | column d shows exactly the windows whose weekday is d |
| SchedulePanel.ColumnAtMostOne | frontend/src/components/features/adminDataManagement/edit/AdminDoctorSchedulePanel.jsx:251-252 | with one window per weekday, every column draws at most one window |
| AdminSchedule.InMonthByDay | frontend/src/pages/Admin/AdminSchedule.jsx:85-91 | a shift is kept iff its start date lies between the month's first and last days |
| AdminSchedule.OnDayMembers | frontend/src/pages/Admin/AdminSchedule.jsx:93-100 | a date's list holds exactly the shifts dated that day |
| AdminSchedule.OnDayEmpty | frontend/src/pages/Admin/AdminSchedule.jsx:93-100 | a date with no shift gets no entries |
| AdminSchedule.GroupIndex | frontend/src/pages/Admin/AdminSchedule.jsx:95 | the group of a date, or none iff no group has that date |
| AdminSchedule.GroupByDateGroups | frontend/src/pages/Admin/AdminSchedule.jsx:93-100 | each group holds exactly the shifts of its date, in list order, and dates are not repeated |
| AdminSchedule.GroupStep | frontend/src/pages/Admin/AdminSchedule.jsx:94-99 | one reduce step keeps each group equal to its date's shifts |
| AdminSchedule.GroupsPartition | frontend/src/pages/Admin/AdminSchedule.jsx:93-100 | a kept shift lies in exactly one group, the one of its date |
| AdminSchedule.EventOf | frontend/src/pages/Admin/AdminSchedule.jsx:102-115 | a group's event holds a permutation of its shifts sorted by start, titled with their count |
| AdminSchedule.MonthEvents | frontend/src/pages/Admin/AdminSchedule.jsx:64-115 | an admin with no doctor gets no events; each date has at most one event |
| AdminSchedule.MonthEventContents | frontend/src/pages/Admin/AdminSchedule.jsx:77-115 | an event lists exactly the selected doctor's (or the patient's) shifts of its date in the month |
| AdminSchedule.MonthEventsCover | frontend/src/pages/Admin/AdminSchedule.jsx:64-115 | every shift of the selected doctor (or the patient) dated in the month is listed by the event of its date |
| AdminSchedule.ConfirmCancel | frontend/src/pages/Admin/AdminSchedule.jsx:173-194 | exactly the chosen shift becomes 'Cancelado', in the open detail and in the day list; every other shift is unchanged |
| AdminSchedule.CancelIdempotent | frontend/src/pages/Admin/AdminSchedule.jsx:173-194 | cancelling twice is cancelling once, and a cancelled detail is no longer offered a cancel |
| AdminSchedule.RawDoctorEvents | frontend/src/pages/Admin/AdminSchedule.jsx:196-206 | no doctor gives no events; otherwise one event per shift of that doctor |
| AdminSchedule.RawDoctorEventsExact | frontend/src/pages/Admin/AdminSchedule.jsx:196-206 | every event comes from a shift of the doctor, and every such shift gives an event titled with the patient's name |
| Patterns.OldPatternsAreNarrower | frontend/src/utils/utilities.js:9-24 | every name and phone the older patterns accept, the newer ones accept |
| Patterns.NewerPatternsAreWider | frontend/src/utils/constants.js:9-16 | a one-letter name and a formatted phone pass only the newer patterns |
| Patterns.EmailShapeIff | frontend/src/utils/constants.js:12 | the e-mail pattern holds iff the text has no white space, one '@' after a non-empty local part, and a '.' inside the domain |
| Patterns.PasswordShape | frontend/src/utils/constants.js:15 | the password pattern holds iff there are eight or more non-space characters with a lower-case letter, an upper-case letter and a digit |
| Patterns.Digits | frontend/src/validations/adminSchemas.js:64-66 | the digits of a text, in order: only digits, a subsequence of the text, and every digit kept as often as it occurs |
| Patterns.DigitsIgnoreSeparator | frontend/src/validations/adminSchemas.js:64-66 | a non-digit between two parts does not change the digits |
| Patterns.CuitDigits | frontend/src/validations/adminSchemas.js:57-61 | a well-formed CUIT carries exactly eleven digits |
| Rules.Name | frontend/src/validations/commonRules.js:7-11 | empty is "required"; otherwise no message iff the name pattern holds |
| Rules.Dni | frontend/src/validations/commonRules.js:13-17 | empty is "required"; otherwise no message iff seven or eight digits |
| Rules.Telephone | frontend/src/validations/commonRules.js:19-23 | empty is "required"; otherwise no message iff 10 to 15 digits, spaces and dashes |
| Rules.Email | frontend/src/validations/commonRules.js:25-29 | empty is "required"; otherwise no message iff the e-mail pattern holds |
| Rules.EmailAccepts | frontend/src/validations/commonRules.js:25-29 | the e-mail rule accepts exactly the addresses of the stated shape |
| Rules.Password | frontend/src/validations/commonRules.js:31-36 | empty is "required"; otherwise no message iff the password pattern holds |
| Rules.PasswordAccepts | frontend/src/validations/commonRules.js:31-36 | the password rule accepts exactly eight or more non-space characters with a lower, an upper and a digit |
| Rules.SimpleRequired | frontend/src/validations/commonRules.js:38-41 | no message iff the value is non-empty; the message names the field |
| Rules.BirthDate | frontend/src/validations/commonRules.js:43-54 | empty is "required"; "future" iff the date parses and is after today; an unparsable date passes |
| Rules.BirthDateBoundary | frontend/src/validations/commonRules.js:49-52 | today is a valid birth date and tomorrow is not |
| Rules.RequiredComesFirst | frontend/src/validations/commonRules.js:7-36 | every format rule gives the "required" message, not the format one, for an empty value |
| Schemas.Lift | frontend/src/validations/adminSchemas.js:5-9 | a rule passes in a schema iff it gives no message, and fails with its message otherwise |
| Schemas.Medication | frontend/src/validations/adminSchemas.js:5-9 | instructions always pass; no field raises |
| Schemas.MedicationAccepts | frontend/src/validations/adminSchemas.js:5-9 | a medication form passes iff it names the drug and its dosage |
| Schemas.CreatePatient | frontend/src/validations/adminSchemas.js:12-36 | first name, DNI, telephone and e-mail are judged by the common name, DNI, telephone and e-mail rules and pass iff their patterns hold; the birth date by the common birth-date rule; the last-name rule raises; the membership and social-work rules each require the other |
| Schemas.PatientMembershipPair | frontend/src/validations/adminSchemas.js:22-35 | membership number and social work pass together iff both are set or both are empty |
| Schemas.CreateDoctor | frontend/src/validations/adminSchemas.js:39-48 | first name, DNI, telephone and e-mail are judged by the common rules and pass iff their patterns hold, so empty values fail; licence and specialty are required; the last-name rule raises |
| Schemas.CreateSocialWork | frontend/src/validations/adminSchemas.js:51-74 | name needs 3 characters, address 5; the CUIT must be NN-NNNNNNNN-N; the telephone needs 10 digits once separators go; the e-mail needs its shape |
| Schemas.SocialWorkPhoneIgnoresSeparators | frontend/src/validations/adminSchemas.js:62-67 | inserting a separator into a social work's telephone does not change its verdict |
| Schemas.CuitNeedsDashes | frontend/src/validations/adminSchemas.js:57-61 | a well-formed CUIT passes and the same digits without dashes do not |
| Schemas.CreateSpecialty | frontend/src/validations/adminSchemas.js:77-88 | name needs 3 characters and description 10 |
| Schemas.Reason | frontend/src/validations/shiftSchemas.js:11-15 | a reason passes iff it is not all white space and is at least five characters long, spaces included |
| Schemas.NewShift | frontend/src/validations/shiftSchemas.js:3-16 | specialty, doctor, date and time are only required; the reason follows its own rule |
| Schemas.Visible | frontend/src/components/features/schedule/NewMedicalShift.jsx:68 | the reason without its white space: no white space, a subsequence of the reason, and every other character kept as often as it occurs |
| Schemas.ConfirmableReasonPasses | frontend/src/components/features/schedule/NewMedicalShift.jsx:68 | any reason with five non-space characters passes the schema |
| Schemas.SpacedReasonPassesSchemaOnly | frontend/src/validations/shiftSchemas.js:13 | "a b c" passes the schema but not the confirm button's test |
| Schemas.Register | frontend/src/validations/authSchemas.js:5-21 | name, DNI, telephone and e-mail are judged by the common rules and pass iff their patterns hold; the birth date by the common birth-date rule; the confirmations pass iff they equal their targets; the password passes iff its pattern holds; no field raises |
| Schemas.ConfirmEmailFollowsEmail | frontend/src/validations/authSchemas.js:12-15 | a matching confirmation passes, and the e-mail passes iff it has the address shape |
| Schemas.Login | frontend/src/validations/authSchemas.js:24-34 | the e-mail follows its pattern; password and role are only required |
| Schemas.LoginAcceptsAnyPassword | frontend/src/validations/authSchemas.js:26-33 | a password the register form refuses passes the login form |
| Schemas.ForgotPassword | frontend/src/validations/authSchemas.js:37-39 | the forgot-password form is the e-mail rule alone |
| Schemas.ForgotIsLoginEmail | frontend/src/validations/authSchemas.js:37-39 | the forgot-password form judges the e-mail as the login form does |
| Schemas.Security | frontend/src/validations/authSchemas.js:42-52 | current password required; new password follows the pattern; confirmation equals the new password |
| Schemas.SecurityAccepts | frontend/src/validations/authSchemas.js:42-52 | a password change passes iff the current password is given, the new one has the pattern and the confirmation matches |
| Schemas.EditFields | frontend/src/validations/authSchemas.js:67-87 | telephone always; social work and membership number iff the role is Patient |
| Schemas.Edit | frontend/src/validations/authSchemas.js:55-87 | the telephone follows its rule; social work is required with a membership; the membership is required for a non-particular social work |
| Schemas.EditPatientMembership | frontend/src/validations/authSchemas.js:58-84 | for a patient, social work and membership pass together iff neither misses its partner |
| LegacySchemas.LegacyRegister | frontend/src/utils/utilities.js:26-79 | names follow the older letters-only pattern and the telephone the older 10-to-13-digit one; DNI, e-mail and password are judged by the common rules and pass iff their patterns hold; confirmations equal their targets; birth date as in the common rule; no field raises |
| LegacySchemas.LegacyRegisterIsStricter | frontend/src/utils/utilities.js:26-79 | whatever the older register form accepts the newer accepts; only name and telephone are judged differently |
| LegacySchemas.LegacyLogin | frontend/src/utils/utilities.js:81-96 | the e-mail needs its shape; password and role are only required |
| LegacySchemas.LoginSchemasAgree | frontend/src/utils/utilities.js:81-104 | the older and newer login and forgot-password forms agree |
| LegacySchemas.LegacyForgotPassword | frontend/src/utils/utilities.js:98-104 | passes iff the e-mail has the address shape |
| Mappers.Project | frontend/src/utils/mappers.js:6-10 | the renamed object's keys are exactly the targets |
| Mappers.ProjectLastWins | frontend/src/utils/mappers.js:30-37 | a target key holds its last entry's source value |
| Mappers.ProjectFields | frontend/src/utils/mappers.js:30-37 | with no target repeated, each target holds its source's value |
| Mappers.Invert | frontend/src/utils/mappers.js:30-37 | the renaming read backwards |
| Mappers.ProjectRoundTrip | frontend/src/utils/mappers.js:27-38 | renaming and renaming back recovers every source field |
| Mappers.MapSpecialty | frontend/src/utils/mappers.js:4-12 | {} for a missing item; otherwise exactly specialtyId, name and description from the backend fields |
| Mappers.MapSpecialtyOption | frontend/src/utils/mappers.js:15-22 | {} for a missing item; otherwise value and label from id and name |
| Mappers.MapSocialWork | frontend/src/utils/mappers.js:27-38 | {} for a missing item; otherwise all six fields renamed |
| Mappers.MapSocialWorkOption | frontend/src/utils/mappers.js:41-47 | {} for a missing item; otherwise value and label from id and name |
| Mappers.OptionsAgreeWithRecords | frontend/src/utils/mappers.js:15-47 | an option carries the id and name its full mapping carries |
| Mappers.SocialWorkRoundTrip | frontend/src/utils/mappers.js:27-38 | mapping a social work and renaming back gives its six backend fields |
| Mappers.SpecialtyRoundTrip | frontend/src/utils/mappers.js:4-12 | mapping a specialty and renaming back gives its three backend fields |
| FilterPanels.DoctorStages | frontend/src/components/features/filterPanel/admin/AdminDoctorFilterPanel.jsx:50-70 | the three filters applied in turn are one filter by all active tests |
| FilterPanels.SearchDoctors | frontend/src/components/features/filterPanel/admin/AdminDoctorFilterPanel.jsx:47-81 | the results are a permutation of the matching doctors, sorted by surname in the chosen direction, doctors of equal rank in list order (the sort is stable); empty filters give every doctor |
| FilterPanels.SearchDoctorsClick | frontend/src/components/features/filterPanel/admin/AdminDoctorFilterPanel.jsx:47-81 | keeps the filters, marks the search as run and holds exactly the doctor search: the matching doctors sorted by last name in the chosen direction |
| FilterPanels.ResetDoctors | frontend/src/components/features/filterPanel/admin/AdminDoctorFilterPanel.jsx:83-87 | initial filters, no results, no search yet |
| FilterPanels.ResetThenSearchFindsAllDoctors | frontend/src/components/features/filterPanel/admin/AdminDoctorFilterPanel.jsx:83-87 | a search right after a reset lists every doctor, A to Z |
| FilterPanels.PatientStages | frontend/src/components/features/filterPanel/admin/AdminPatientFilterPanel.jsx:58-72 | the three filters applied in turn are one filter by all active tests |
| FilterPanels.SearchPatients | frontend/src/components/features/filterPanel/admin/AdminPatientFilterPanel.jsx:55-79 | the results are a permutation of the matching patients, sorted by surname in the chosen direction, patients of equal rank in list order (the sort is stable); empty filters give every patient |
| FilterPanels.PatientMessage | frontend/src/components/features/filterPanel/admin/AdminPatientFilterPanel.jsx:81 | "no results" for zero, otherwise the count followed by the found text |
| FilterPanels.MessageTellsCount | frontend/src/components/features/filterPanel/admin/AdminPatientFilterPanel.jsx:81 | different counts give different messages |
| FilterPanels.MessageHead | frontend/src/components/features/filterPanel/admin/AdminPatientFilterPanel.jsx:81 | only the no-results message starts with 'N' |
| FilterPanels.SearchPatientsClick | frontend/src/components/features/filterPanel/admin/AdminPatientFilterPanel.jsx:55-82 | keeps the filters, holds exactly the patient search, the matching patients sorted by last name in the chosen direction, and a message with their count |
| FilterPanels.ResetPatients | frontend/src/components/features/filterPanel/admin/AdminPatientFilterPanel.jsx:84-88 | initial filters, no results, the initial message |
| FilterPanels.ResetThenSearchFindsAllPatients | frontend/src/components/features/filterPanel/admin/AdminPatientFilterPanel.jsx:84-88 | after a reset a search lists every patient and counts them |
| FilterPanels.SearchSocialWorks | frontend/src/components/features/filterPanel/admin/AdminSocialWorkFilterPanel.jsx:30-46 | the results are the matching entries in list order; empty filters give every entry |
| FilterPanels.SearchSocialWorksClick | frontend/src/components/features/filterPanel/admin/AdminSocialWorkFilterPanel.jsx:30-46 | keeps the filters, marks the search as run, and the results are exactly the social-work search, in list order |
| FilterPanels.ResetSocialWorks | frontend/src/components/features/filterPanel/admin/AdminSocialWorkFilterPanel.jsx:48-52 | initial filters, no results, no search yet |
| FilterPanels.ResetThenSearchFindsAllSocialWorks | frontend/src/components/features/filterPanel/admin/AdminSocialWorkFilterPanel.jsx:48-52 | after a reset a search lists every social work in list order |
| FilterPanels.SearchSpecialties | frontend/src/components/features/filterPanel/admin/AdminSpecialityFilterPanel.jsx:30-43 | the results are the entries whose name contains the filter, in list order; an empty filter gives every entry |
| FilterPanels.SearchSpecialtiesClick | frontend/src/components/features/filterPanel/admin/AdminSpecialityFilterPanel.jsx:30-43 | keeps the filter, marks the search as run, and the results are exactly the specialty search, in list order |
| FilterPanels.ResetSpecialties | frontend/src/components/features/filterPanel/admin/AdminSpecialityFilterPanel.jsx:45-49 | initial filter, no results, no search yet |
| FilterPanels.ResetThenSearchFindsAllSpecialties | frontend/src/components/features/filterPanel/admin/AdminSpecialityFilterPanel.jsx:45-49 | after a reset a search lists every specialty in list order |

## Left out

- SQLite plumbing (cursors, commit and rollback, IntegrityError mapping, the connection singleton, schema creation and seeding): tables are in-memory maps and sequences. The UNIQUE columns and indexes are modelled as errors where a service can reach them: the appointment index on (doctor, start) in `create` and `update`, the doctor's DNI, licence and user, the patient's DNI, the consultation's appointment and the user-role pair. Foreign keys are not modelled: the back end's connection never turns them on, so SQLite does not check them.
- The `_get_*_completo` response builders and the `get_all`/`get_by_id` list readers beyond the selectors above only assemble responses.
- The read-only appointment selectors (upcoming, history, agenda) assemble responses and decide nothing.
- The plain CRUD services (specialty, social work, role, appointment status, user, prescription) and the analytics counts have no rule beyond existence.
- SMTP e-mail, the background scheduler and its thread are external or concurrent. Sending is a parameter returning a boolean.
- WeekCalendar.TimeSlots: the two clock reads are assumed to fall on the same date and in the same UTC offset; a read pair that straddles midnight or a daylight-saving change is not modelled.
- Password hashing and verification are external. They are parameters, with only `verify(pw, hash(pw))` assumed where a lemma needs it.
- `recover_password` depends on a random temporary password and e-mail, both external.
- The role lookup `get_by_name` is not part of this model. Role names map to ids through a parameter.
- The status transitions `marcar_como_atendido` and `cancelar_turno_futuro_paciente` are not part of this model. Status stays an opaque id or name.
- `adminDoctorScheduleSchema` and `newAdminShiftSchema` do not exist: adminSchemas.js exports five schemas and shiftSchemas.js one, and neither name is among them. SchedulePanel.AddSlot models the editor with the validator it evidently intends, as an abstract `valid` predicate; the as-written failure is under Findings. `handleBlur`, which also indexes the missing schema, is not modelled.
- `commonRules.lastname` is not part of this model. The schemas that use it are modelled as raising (`Throws`) or as having no rule for that field.
- The mock data and the missing `mockDoctorAvailability`/`mockPatients` are fixture data. Shifts and events are parameters.
- `calculatePosition`, `getDateRange` and the report panels are floating-point geometry and UTC conversion.
- React rendering, routing, contexts, toasts, modals and the axios clients are UI and network layers.
- Reminders.Sweep: the patient's and the doctor's opt-ins are boolean parameters rather than a read of the patient's user record, and e-mail success does not affect the flag.
- Reminders.RunSweep: the rows arrive in any order the query returns. Only the set of selected ids is constrained.
- DateUtils.MasterGrid: it requires well-formed "HH:mm" times. Malformed text makes date-fns return an invalid date, which is not modelled.
- Rules.BirthDate: date parsing is the parameter `Env.dateOf`. The `split("-").map(Number)` arithmetic of month overflow is not modelled.
- Schemas.Edit: the loose `==` between a social-work id and `particularId` is modelled as equality of their texts.
- FilterPanels.SearchDoctors: `localeCompare` is an abstract integer rank, so no particular collation is modelled.
- FilterPanels.SearchDoctors: `toLowerCase` is an abstract function, with no Unicode case mapping.
- Strings are sequences of code points, while JavaScript's `.length` and a regular expression without the `u` flag count UTF-16 code units. The two agree for text without astral characters; the members below count characters and so differ on such text. Patterns made only of ASCII or Latin-1 classes (DNI, phone, name) reject astral characters under either reading.
- Schemas.CreateSocialWork: the 3- and 5-character minimums count code points.
- Schemas.CreateSpecialty: the 3- and 10-character minimums count code points.
- Schemas.Reason: the 5-character minimum counts code points.
- Patterns.PasswordShape: `{8,}` counts code points, so an astral character counts once rather than twice. The same holds for Rules.Password, Schemas.Register, Schemas.Security and LegacySchemas.LegacyRegister, which use this pattern.
- Availability.CreateEach: the intermediate result list of `editar_horarios_medico` is stated only as ids, not as response objects.

## Findings

| source | as written | input that shows it | evidently intended | confidence | as-written member | corrected member |
|---|---|---|---|---|---|---|
| backend/services/turno_service.py:294 | the sweep reads `p.usuario.recordatorios_activados` on the dictionary the patient service returns, so attribute access fails and the generic handler turns it into an error before any flag is written | one pending, unflagged appointment starting one hour after `now` | each due appointment is flagged, its opted-in parties mailed, and the count returned | not executed | Reminders.SweepAsWritten, Reminders.SweepAsWrittenFails | Reminders.Sweep, Reminders.RunSweep |
| frontend/src/components/features/adminDataManagement/edit/AdminDoctorSchedulePanel.jsx:17 | the editor imports `adminDoctorScheduleSchema`, which the validations module does not export, so the binding is undefined and `Object.keys` on it at line 80 throws before any window is added | a weekday and times for a weekday without a window, then "add" | the form is checked by the editor's field rules and a valid window is appended | not executed | SchedulePanel.AddSlotAsWritten, SchedulePanel.AddSlotAsWrittenFails | SchedulePanel.AddSlot, SchedulePanel.AddKeepsOnePerWeekday |

=== FILE: admin_schedule.dfy ===
/** The admin's monthly agenda: the month's shifts grouped into one
    all-day event per date, the cancel action of the detail panel, and the
    doctor's shifts as week-calendar events. The month's first and last
    day (`startOfMonth`, `endOfMonth`) are parameters. */
module AdminSchedule {
  import opened Wrappers
  import opened Clock
  import opened Seqs
  import opened Text
  import WeekCalendar

  /** A shift of the agenda's data: the fields the page reads. */
  datatype Shift = Shift(id: int, doctor: int, start: int, status: string, firstName: string, lastName: string)

  /** `isWithinInterval(start, { startOfDay(first), endOfDay(last) })` at
      minute resolution. */
  predicate InMonth(s: Shift, first: int, last: int) {
    At(first, 0) <= s.start <= At(last, MinutesPerDay - 1)
  }

  lemma InMonthByDay(s: Shift, first: int, last: int)
    ensures InMonth(s, first, last) <==> first <= Day(s.start) <= last
  {
  }

  /** The shifts of `xs` dated `day`, in order. */
  function OnDay(xs: seq<Shift>, day: int): seq<Shift>
  {
    if xs == [] then []
    else OnDay(xs[..|xs| - 1], day) + (if Day(xs[|xs| - 1].start) == day then [xs[|xs| - 1]] else [])
  }

  lemma {:induction false} OnDayMembers(xs: seq<Shift>, day: int)
    ensures forall s :: s in OnDay(xs, day) <==> s in xs && Day(s.start) == day
  {
    if xs != [] {
      OnDayMembers(xs[..|xs| - 1], day);
      assert xs == xs[..|xs| - 1] + [xs[|xs| - 1]];
    }
  }

  /** No shift of `xs` on that date: nothing is listed. */
  lemma {:induction false} OnDayEmpty(xs: seq<Shift>, day: int)
    requires forall i :: 0 <= i < |xs| ==> Day(xs[i].start) != day
    ensures OnDay(xs, day) == []
  {
    if xs != [] {
      OnDayEmpty(xs[..|xs| - 1], day);
    }
  }

  /** One date's shifts, as the `groupedByDate` accumulator holds them. */
  datatype Group = Group(day: int, shifts: seq<Shift>)

  /** The position of the date's group, or -1 when it has none. */
  function GroupIndex(groups: seq<Group>, day: int): (k: int)
    ensures -1 <= k < |groups|
    ensures k >= 0 ==> groups[k].day == day
    ensures k == -1 <==> forall i :: 0 <= i < |groups| ==> groups[i].day != day
  {
    if groups == [] then -1
    else if groups[|groups| - 1].day == day then |groups| - 1
    else GroupIndex(groups[..|groups| - 1], day)
  }

  /** The `reduce` step: append to the date's group, or open a new group
      after the existing ones (the key order of `Object.keys`). */
  function AddToGroups(groups: seq<Group>, x: Shift): seq<Group>
  {
    var k := GroupIndex(groups, Day(x.start));
    if k >= 0 then groups[k := Group(groups[k].day, groups[k].shifts + [x])]
    else groups + [Group(Day(x.start), [x])]
  }

  /** Each group holds exactly the shifts of its date, in list order; dates
      are not repeated; every shift's date has a group. */
  predicate GroupsOf(groups: seq<Group>, xs: seq<Shift>) {
    && (forall k :: 0 <= k < |groups| ==> groups[k].shifts == OnDay(xs, groups[k].day) && groups[k].shifts != [])
    && (forall i, j :: 0 <= i < j < |groups| ==> groups[i].day != groups[j].day)
    && (forall i :: 0 <= i < |xs| ==> exists k :: 0 <= k < |groups| && groups[k].day == Day(xs[i].start))
  }

  /** `filteredShifts.reduce(...)`. */
  function GroupByDate(xs: seq<Shift>): seq<Group>
  {
    if xs == [] then [] else AddToGroups(GroupByDate(xs[..|xs| - 1]), xs[|xs| - 1])
  }

  /** Each group holds exactly the shifts of its date, in list order, and no
      date has two groups. */
  lemma {:induction false} GroupByDateGroups(xs: seq<Shift>)
    ensures GroupsOf(GroupByDate(xs), xs)
  {
    if xs != [] {
      var init, x := xs[..|xs| - 1], xs[|xs| - 1];
      GroupByDateGroups(init);
      GroupStep(GroupByDate(init), init, x);
      assert init + [x] == xs;
    }
  }

  lemma {:induction false} GroupStep(groups: seq<Group>, xs: seq<Shift>, x: Shift)
    requires GroupsOf(groups, xs)
    ensures GroupsOf(AddToGroups(groups, x), xs + [x])
  {
    var ys := xs + [x];
    assert ys[..|ys| - 1] == xs && ys[|ys| - 1] == x;
    var d := Day(x.start);
    var at := GroupIndex(groups, d);
    var r := AddToGroups(groups, x);
    forall k | 0 <= k < |groups| ensures r[k].shifts == OnDay(ys, r[k].day) && r[k].shifts != [] {
      assert OnDay(ys, groups[k].day) == OnDay(xs, groups[k].day) + (if d == groups[k].day then [x] else []);
      if k != at {
        assert r[k] == groups[k];
      }
    }
    if at < 0 {
      forall i | 0 <= i < |xs| ensures Day(xs[i].start) != d {
        var k :| 0 <= k < |groups| && groups[k].day == Day(xs[i].start);
      }
      OnDayEmpty(xs, d);
      assert OnDay(ys, d) == OnDay(xs, d) + [x];
      assert r[|groups|] == Group(d, [x]);
    }
    forall i | 0 <= i < |ys| ensures exists k :: 0 <= k < |r| && r[k].day == Day(ys[i].start) {
      if i < |xs| {
        assert ys[i] == xs[i];
        var k :| 0 <= k < |groups| && groups[k].day == Day(xs[i].start);
        assert r[k].day == groups[k].day;
      } else if at >= 0 {
        assert r[at].day == d;
      } else {
        assert r[|groups|].day == d;
      }
    }
  }

  /** A kept shift lies in exactly one group: the one of its date. */
  lemma {:induction false} GroupsPartition(xs: seq<Shift>, s: Shift, k: int)
    requires s in xs && 0 <= k < |GroupByDate(xs)|
    ensures s in GroupByDate(xs)[k].shifts <==> GroupByDate(xs)[k].day == Day(s.start)
  {
    GroupByDateGroups(xs);
    OnDayMembers(xs, GroupByDate(xs)[k].day);
  }

  /** The all-day event of one date. */
  datatype DayEvent = DayEvent(day: int, title: string, resource: seq<Shift>)

  /** The event of a group: its shifts sorted by start, and
      "`<count>` Turnos" as the title. */
  function EventOf(g: Group): (e: DayEvent)
    ensures e.day == g.day && multiset(e.resource) == multiset(g.shifts)
    ensures SortedBy(e.resource, (s: Shift) => s.start, true)
    ensures e.title == NatToString(|g.shifts|) + " Turnos"
  {
    DayEvent(g.day, NatToString(|g.shifts|) + " Turnos", SortBy(g.shifts, (s: Shift) => s.start, true))
  }

  /** The shifts the page starts from: the admin's doctor's, or the
      patient's own. */
  function Source(role: string, doctor: Option<int>, doctorShifts: seq<Shift>, patientShifts: seq<Shift>): seq<Shift>
    requires !(role == "Admin" && doctor.None?)
  {
    if role == "Admin" then Filter(doctorShifts, (s: Shift) => s.doctor == doctor.value) else patientShifts
  }

  /** The source shifts inside the month. */
  function Kept(role: string, doctor: Option<int>, doctorShifts: seq<Shift>, patientShifts: seq<Shift>,
                first: int, last: int): seq<Shift>
    requires !(role == "Admin" && doctor.None?)
  {
    Filter(Source(role, doctor, doctorShifts, patientShifts), (s: Shift) => InMonth(s, first, last))
  }

  lemma KeptMembers(role: string, doctor: Option<int>, doctorShifts: seq<Shift>, patientShifts: seq<Shift>,
                    first: int, last: int, s: Shift)
    requires !(role == "Admin" && doctor.None?)
    ensures s in Kept(role, doctor, doctorShifts, patientShifts, first, last) <==>
      && first <= Day(s.start) <= last
      && (if role == "Admin" then s in doctorShifts && Some(s.doctor) == doctor else s in patientShifts)
  {
    InMonthByDay(s, first, last);
  }

  /** The calendar events of the month: none for an admin without a
      doctor; otherwise the admin's doctor's shifts, or the patient's own. */
  function MonthEvents(role: string, doctor: Option<int>, doctorShifts: seq<Shift>, patientShifts: seq<Shift>,
                       first: int, last: int): (events: seq<DayEvent>)
    ensures role == "Admin" && doctor.None? ==> events == []
    ensures forall k :: 0 <= k < |events| ==>
      SortedBy(events[k].resource, (s: Shift) => s.start, true) &&
      events[k].title == NatToString(|events[k].resource|) + " Turnos"
    ensures forall i, j :: 0 <= i < j < |events| ==> events[i].day != events[j].day
  {
    if role == "Admin" && doctor.None? then []
    else
      var kept := Kept(role, doctor, doctorShifts, patientShifts, first, last);
      GroupByDateGroups(kept);
      var groups := GroupByDate(kept);
      seq(|groups|, k requires 0 <= k < |groups| => EventOf(groups[k]))
  }

  /** A month event lists exactly the shifts of the selected doctor (or the
      patient) that start on that date, which lies in the month. */
  lemma {:induction false} MonthEventContents(role: string, doctor: Option<int>, doctorShifts: seq<Shift>,
                                              patientShifts: seq<Shift>, first: int, last: int, k: int, s: Shift)
    requires 0 <= k < |MonthEvents(role, doctor, doctorShifts, patientShifts, first, last)|
    ensures var e := MonthEvents(role, doctor, doctorShifts, patientShifts, first, last)[k];
      s in e.resource <==>
        && Day(s.start) == e.day && first <= e.day <= last
        && (if role == "Admin" then s in doctorShifts && Some(s.doctor) == doctor else s in patientShifts)
  {
    var kept := Kept(role, doctor, doctorShifts, patientShifts, first, last);
    GroupByDateGroups(kept);
    var g := GroupByDate(kept)[k];
    var e := MonthEvents(role, doctor, doctorShifts, patientShifts, first, last)[k];
    assert e == EventOf(g);
    assert s in e.resource <==> s in g.shifts by {
      assert s in multiset(e.resource) <==> s in multiset(g.shifts);
    }
    OnDayMembers(kept, g.day);
    var w := g.shifts[0];
    KeptMembers(role, doctor, doctorShifts, patientShifts, first, last, w);
    KeptMembers(role, doctor, doctorShifts, patientShifts, first, last, s);
  }

  /** Nothing in the month is lost: every shift of the selected doctor (or
      the patient) dated in the month is listed by the event of its date. */
  lemma {:induction false} MonthEventsCover(role: string, doctor: Option<int>, doctorShifts: seq<Shift>,
                                            patientShifts: seq<Shift>, first: int, last: int, s: Shift)
    requires first <= Day(s.start) <= last
    requires if role == "Admin" then s in doctorShifts && Some(s.doctor) == doctor else s in patientShifts
    ensures var events := MonthEvents(role, doctor, doctorShifts, patientShifts, first, last);
      exists k :: 0 <= k < |events| && events[k].day == Day(s.start) && s in events[k].resource
  {
    var events := MonthEvents(role, doctor, doctorShifts, patientShifts, first, last);
    var kept := Kept(role, doctor, doctorShifts, patientShifts, first, last);
    KeptMembers(role, doctor, doctorShifts, patientShifts, first, last, s);
    GroupByDateGroups(kept);
    var groups := GroupByDate(kept);
    var i :| 0 <= i < |kept| && kept[i] == s;
    var k :| 0 <= k < |groups| && groups[k].day == Day(kept[i].start);
    assert events[k] == EventOf(groups[k]);
    MonthEventContents(role, doctor, doctorShifts, patientShifts, first, last, k, s);
  }

  /** The detail panel's shift: its id and its status name. */
  datatype Detail = Detail(id: int, status: string)

  /** The cancel button is offered only for a pending shift. */
  predicate CancelOffered(d: Detail) {
    d.status == "Pendiente"
  }

  /** `confirmCancel`: the chosen shift becomes 'Cancelado' in the open
      detail and in the day's list; nothing else changes. */
  function ConfirmCancel(detail: Option<Detail>, dayShifts: seq<Shift>, target: int)
    : (r: (Option<Detail>, seq<Shift>))
    ensures detail.Some? && detail.value.id == target ==> r.0 == Some(Detail(target, "Cancelado"))
    ensures !(detail.Some? && detail.value.id == target) ==> r.0 == detail
    ensures |r.1| == |dayShifts|
    ensures forall i :: 0 <= i < |dayShifts| ==>
      if dayShifts[i].id == target then r.1[i] == dayShifts[i].(status := "Cancelado") else r.1[i] == dayShifts[i]
  {
    var d := if detail.Some? && detail.value.id == target then Some(detail.value.(status := "Cancelado")) else detail;
    (d, seq(|dayShifts|, i requires 0 <= i < |dayShifts| =>
      if dayShifts[i].id == target then dayShifts[i].(status := "Cancelado") else dayShifts[i]))
  }

  /** Cancelling twice is cancelling once, and a cancelled detail no longer
      offers the cancel action. */
  lemma CancelIdempotent(detail: Option<Detail>, dayShifts: seq<Shift>, target: int)
    ensures var (d1, l1) := ConfirmCancel(detail, dayShifts, target);
      ConfirmCancel(d1, l1, target) == (d1, l1)
    ensures var d1 := ConfirmCancel(detail, dayShifts, target).0;
      detail.Some? && detail.value.id == target ==> !CancelOffered(d1.value)
  {
    var (d1, l1) := ConfirmCancel(detail, dayShifts, target);
    var l2 := ConfirmCancel(d1, l1, target).1;
    assert l2 == l1;
  }

  /** `rawDoctorEvents`: the selected doctor's shifts as calendar events
      titled with the patient's name. */
  function RawDoctorEvents(doctor: Option<int>, shifts: seq<Shift>): (events: seq<WeekCalendar.Event>)
    ensures doctor.None? ==> events == []
    ensures doctor.Some? ==> |events| == |Filter(shifts, (s: Shift) => s.doctor == doctor.value)|
  {
    if doctor.None? then []
    else
      var mine := Filter(shifts, (s: Shift) => s.doctor == doctor.value);
      seq(|mine|, i requires 0 <= i < |mine| => WeekCalendar.Event(mine[i].start, mine[i].firstName + " " + mine[i].lastName))
  }

  /** Every event comes from one of the doctor's shifts, and every shift of
      the doctor gives an event at its start. */
  lemma RawDoctorEventsExact(doctor: int, shifts: seq<Shift>)
    ensures forall e :: e in RawDoctorEvents(Some(doctor), shifts) ==>
      exists s :: s in shifts && s.doctor == doctor && e == WeekCalendar.Event(s.start, s.firstName + " " + s.lastName)
    ensures forall s :: s in shifts && s.doctor == doctor ==>
      WeekCalendar.Event(s.start, s.firstName + " " + s.lastName) in RawDoctorEvents(Some(doctor), shifts)
  {
    var mine := Filter(shifts, (s: Shift) => s.doctor == doctor);
    var events := RawDoctorEvents(Some(doctor), shifts);
    forall s | s in shifts && s.doctor == doctor
      ensures WeekCalendar.Event(s.start, s.firstName + " " + s.lastName) in events
    {
      var i :| 0 <= i < |mine| && mine[i] == s;
      assert events[i] == WeekCalendar.Event(s.start, s.firstName + " " + s.lastName);
    }
  }
}

=== FILE: appointments.dfy ===
/** The appointment book of `TurnoService`: the clash test, the booking
    decision with its fixed error order, and `create` / `update` / `delete`
    on the `Turno` table. */
module Appointments {
  import opened Wrappers
  import opened Clock
  import Availability

  /** A `Turno` row. `status` is an `id_estado_turno`; its meaning is opaque
      here. `start` and `end` are timestamps in minutes. */
  datatype Appointment = Appointment(
    start: int, end: int, status: int, patient: int, doctor: int,
    reason: Option<string>, reminded: bool)

  /** The table: rows by `id_turno`, and the next AUTOINCREMENT id. */
  datatype Store = Store(rows: map<int, Appointment>, nextId: int) {
    predicate Valid() {
      forall id :: id in rows ==> id < nextId
    }
  }

  /** A `TurnoCreate` payload. */
  datatype Request = Request(start: int, end: int, status: int, patient: int, doctor: int, reason: Option<string>)

  function Party(a: Appointment, isDoctor: bool): int {
    if isDoctor then a.doctor else a.patient
  }

  /** The three OR-ed clauses of `_hay_solapamiento_turnos`, comparing a
      stored appointment with the proposed `[start, end]`. */
  predicate Clashes(ex: Appointment, start: int, end: int) {
    || (ex.start < end && ex.end > start)
    || (ex.start >= start && ex.start < end)
    || (ex.end > start && ex.end <= end)
  }

  /** Reference definition: two intervals overlap on a half-open reading. */
  predicate Overlap(aStart: int, aEnd: int, bStart: int, bEnd: int) {
    aStart < bEnd && bStart < aEnd
  }

  /** `COUNT(*) > 0`: some stored appointment of this doctor (or patient),
      whatever its status, clashes. */
  predicate HasClash(s: Store, person: int, isDoctor: bool, start: int, end: int) {
    exists id :: id in s.rows && Party(s.rows[id], isDoctor) == person && Clashes(s.rows[id], start, end)
  }

  /** The `COUNT(*)` query as a scan over the table's rows. */
  method CountClashes(rows: seq<Appointment>, person: int, isDoctor: bool, start: int, end: int) returns (count: nat)
    ensures count <= |rows|
    ensures count > 0 <==> exists i :: 0 <= i < |rows| && Party(rows[i], isDoctor) == person && Clashes(rows[i], start, end)
  {
    count := 0;
    var i := 0;
    while i < |rows|
      invariant 0 <= i <= |rows|
      invariant count <= i
      invariant count > 0 <==> exists j :: 0 <= j < i && Party(rows[j], isDoctor) == person && Clashes(rows[j], start, end)
    {
      var a := rows[i];
      var person' := if isDoctor then a.doctor else a.patient;
      if person' == person && ((a.start < end && a.end > start) || (a.start >= start && a.start < end) || (a.end > start && a.end <= end)) {
        count := count + 1;
      }
      i := i + 1;
    }
  }

  /** For a stored appointment with start < end, the three clauses say
      exactly "the intervals overlap, half-open". */
  lemma ClashIsOverlap(ex: Appointment, start: int, end: int)
    requires ex.start < ex.end
    ensures Clashes(ex, start, end) <==> Overlap(ex.start, ex.end, start, end)
  {
  }

  /** The first clause alone is the half-open overlap, so with no clash
      there is no overlap, even for degenerate stored rows. */
  lemma NoClashNoOverlap(ex: Appointment, start: int, end: int)
    requires !Clashes(ex, start, end)
    ensures !Overlap(ex.start, ex.end, start, end)
  {
  }

  /** Back-to-back appointments, on either side, do not clash. */
  lemma BackToBack(ex: Appointment, start: int, end: int)
    requires ex.start < ex.end
    requires ex.end == start || ex.start == end
    ensures !Clashes(ex, start, end)
  {
  }

  /** A stored row whose end precedes its start still clashes when its
      start falls inside the proposed booking, although it overlaps nothing. */
  lemma DegenerateRowBlocks()
    ensures var ex := Appointment(600, 500, 1, 1, 1, None, false);
      Clashes(ex, 540, 660) && !Overlap(ex.start, ex.end, 540, 660)
  {
  }

  datatype Rejection =
    | OutsideHours       // "no está dentro del horario de atención"
    | DoctorBusy         // "El medico tiene otro turno en el mismo horario"
    | PatientBusy        // "El paciente tiene otro turno en el mismo horario"
    | DuplicateStart     // the unique index on (id_medico, fecha_hora_inicio)
    | NoFieldsToUpdate

  /** `_es_turno_valido`: all three checks are computed, then reported in a
      fixed order. */
  function Validate(s: Store, hours: Availability.Catalog, r: Request): (res: Result<(), Rejection>)
    ensures res.Ok? <==>
      && Availability.WithinHours(hours, r.doctor, r.start, r.end)
      && !HasClash(s, r.doctor, true, r.start, r.end)
      && !HasClash(s, r.patient, false, r.start, r.end)
    ensures res.Err? ==> res.error in {OutsideHours, DoctorBusy, PatientBusy}
  {
    var inHours := Availability.WithinHours(hours, r.doctor, r.start, r.end);
    var doctorBusy := HasClash(s, r.doctor, true, r.start, r.end);
    var patientBusy := HasClash(s, r.patient, false, r.start, r.end);
    if !inHours then Err(OutsideHours)
    else if doctorBusy then Err(DoctorBusy)
    else if patientBusy then Err(PatientBusy)
    else Ok(())
  }

  /** The error order: outside hours wins over any clash, and a doctor
      clash wins over a patient clash. */
  lemma ValidateOrder(s: Store, hours: Availability.Catalog, r: Request)
    ensures !Availability.WithinHours(hours, r.doctor, r.start, r.end) ==> Validate(s, hours, r) == Err(OutsideHours)
    ensures Availability.WithinHours(hours, r.doctor, r.start, r.end) && HasClash(s, r.doctor, true, r.start, r.end) ==>
      Validate(s, hours, r) == Err(DoctorBusy)
    ensures Validate(s, hours, r) == Err(PatientBusy) ==>
      HasClash(s, r.patient, false, r.start, r.end) && !HasClash(s, r.doctor, true, r.start, r.end)
  {
  }

  /** A stored appointment of the doctor blocks an overlapping booking
      whatever its status, a cancelled one included. */
  lemma AnyStatusBlocks(s: Store, hours: Availability.Catalog, r: Request, id: int)
    requires id in s.rows && s.rows[id].doctor == r.doctor
    requires Overlap(s.rows[id].start, s.rows[id].end, r.start, r.end)
    ensures Validate(s, hours, r).Err?
  {
    assert Clashes(s.rows[id], r.start, r.end);
  }

  function ToRow(r: Request): Appointment {
    Appointment(r.start, r.end, r.status, r.patient, r.doctor, r.reason, false)
  }

  predicate StartTaken(s: Store, doctor: int, start: int) {
    exists id :: id in s.rows && s.rows[id].doctor == doctor && s.rows[id].start == start
  }

  /** `create`: validation runs twice on the same store, so the second run
      always repeats the first and is folded into it here; the INSERT can
      still hit the unique index on (doctor, start), which is reported as an
      error with nothing written. */
  function Create(s: Store, hours: Availability.Catalog, r: Request): (res: Result<(Store, int), Rejection>)
    requires s.Valid()
    ensures res.Ok? <==> Validate(s, hours, r).Ok? && !StartTaken(s, r.doctor, r.start)
    ensures Validate(s, hours, r).Err? ==> res == Err(Validate(s, hours, r).error)
    ensures res.Ok? ==> var (s', id) := res.value;
      && s'.Valid()
      && id !in s.rows
      && s'.rows == s.rows[id := ToRow(r)]
  {
    var check := Validate(s, hours, r);
    if check.Err? then Err(check.error)
    else if StartTaken(s, r.doctor, r.start) then Err(DuplicateStart)
    else Ok((Store(s.rows[s.nextId := ToRow(r)], s.nextId + 1), s.nextId))
  }

  /** The unique index can only fire for a booking whose end is not after
      its start: otherwise the clash test already rejects it. */
  lemma {:induction false} DuplicateStartNeedsEmptyBooking(s: Store, hours: Availability.Catalog, r: Request)
    requires s.Valid()
    requires Create(s, hours, r) == Err(DuplicateStart)
    ensures r.end <= r.start
  {
    var id :| id in s.rows && s.rows[id].doctor == r.doctor && s.rows[id].start == r.start;
    assert !(Party(s.rows[id], true) == r.doctor && Clashes(s.rows[id], r.start, r.end));
  }

  /** No two stored appointments of the same doctor, nor of the same
      patient, overlap. */
  predicate NoDoubleBooking(s: Store) {
    forall i, j :: i in s.rows && j in s.rows && i != j ==>
      var a, b := s.rows[i], s.rows[j];
      (a.doctor == b.doctor || a.patient == b.patient) ==> !Overlap(a.start, a.end, b.start, b.end)
  }

  /** A successful `create` keeps the book free of double bookings. */
  lemma {:induction false} CreateKeepsNoDoubleBooking(s: Store, hours: Availability.Catalog, r: Request)
    requires s.Valid() && NoDoubleBooking(s)
    requires Create(s, hours, r).Ok?
    ensures NoDoubleBooking(Create(s, hours, r).value.0)
  {
    var (s', id) := Create(s, hours, r).value;
    forall i, j | i in s'.rows && j in s'.rows && i != j
      ensures var a, b := s'.rows[i], s'.rows[j];
        (a.doctor == b.doctor || a.patient == b.patient) ==> !Overlap(a.start, a.end, b.start, b.end)
    {
      var a, b := s'.rows[i], s'.rows[j];
      if i == id && (a.doctor == b.doctor || a.patient == b.patient) {
        if a.doctor == b.doctor {
          assert !(Party(s.rows[j], true) == r.doctor && Clashes(s.rows[j], r.start, r.end));
        } else {
          assert !(Party(s.rows[j], false) == r.patient && Clashes(s.rows[j], r.start, r.end));
        }
      } else if j == id && (a.doctor == b.doctor || a.patient == b.patient) {
        if a.doctor == b.doctor {
          assert !(Party(s.rows[i], true) == r.doctor && Clashes(s.rows[i], r.start, r.end));
        } else {
          assert !(Party(s.rows[i], false) == r.patient && Clashes(s.rows[i], r.start, r.end));
        }
      }
    }
  }

  /** The columns an `update` dict may name; an absent key is `None`. */
  datatype Patch = Patch(
    start: Option<int>, end: Option<int>, status: Option<int>, patient: Option<int>,
    doctor: Option<int>, reason: Option<Option<string>>, reminded: Option<bool>)

  const EmptyPatch := Patch(None, None, None, None, None, None, None)

  function Patched(a: Appointment, p: Patch): Appointment {
    Appointment(
      p.start.GetOr(a.start), p.end.GetOr(a.end), p.status.GetOr(a.status),
      p.patient.GetOr(a.patient), p.doctor.GetOr(a.doctor), p.reason.GetOr(a.reason),
      p.reminded.GetOr(a.reminded))
  }

  /** Some row other than `id` belongs to `doctor` and starts at `start`:
      writing that pair into row `id` would hit the unique index. */
  predicate StartTakenByOther(s: Store, id: int, doctor: int, start: int) {
    exists k :: k in s.rows && k != id && s.rows[k].doctor == doctor && s.rows[k].start == start
  }

  /** `update`: `Ok(None)` for an unknown id, an error for an empty dict,
      otherwise the given columns are written without any slot check; the
      UPDATE fails on the unique index on (doctor, start) when the patched
      row would share both with another row, and nothing is written. */
  function Update(s: Store, id: int, p: Patch): (res: Result<Option<Store>, Rejection>)
    ensures id !in s.rows ==> res == Ok(None)
    ensures id in s.rows && p == EmptyPatch ==> res == Err(NoFieldsToUpdate)
    ensures id in s.rows && p != EmptyPatch ==>
      && (res.Ok? <==> !StartTakenByOther(s, id, p.doctor.GetOr(s.rows[id].doctor), p.start.GetOr(s.rows[id].start)))
      && (res.Ok? ==> res.value.Some?)
      && (res.Err? ==> res.error == DuplicateStart)
    ensures res.Ok? && res.value.Some? ==> var s' := res.value.value;
      && id in s.rows
      && s'.nextId == s.nextId
      && s'.rows.Keys == s.rows.Keys
      && (forall k :: k in s.rows && k != id ==> s'.rows[k] == s.rows[k])
      && (p.start.Some? ==> s'.rows[id].start == p.start.value)
      && (p.start.None? ==> s'.rows[id].start == s.rows[id].start)
      && (p.end.Some? ==> s'.rows[id].end == p.end.value)
      && (p.end.None? ==> s'.rows[id].end == s.rows[id].end)
      && (p.status.Some? ==> s'.rows[id].status == p.status.value)
      && (p.status.None? ==> s'.rows[id].status == s.rows[id].status)
      && (p.patient.Some? ==> s'.rows[id].patient == p.patient.value)
      && (p.patient.None? ==> s'.rows[id].patient == s.rows[id].patient)
      && (p.doctor.Some? ==> s'.rows[id].doctor == p.doctor.value)
      && (p.doctor.None? ==> s'.rows[id].doctor == s.rows[id].doctor)
      && (p.reason.Some? ==> s'.rows[id].reason == p.reason.value)
      && (p.reason.None? ==> s'.rows[id].reason == s.rows[id].reason)
      && (p.reminded.Some? ==> s'.rows[id].reminded == p.reminded.value)
      && (p.reminded.None? ==> s'.rows[id].reminded == s.rows[id].reminded)
  {
    if id !in s.rows then Ok(None)
    else if p == EmptyPatch then Err(NoFieldsToUpdate)
    else
      var a := Patched(s.rows[id], p);
      if StartTakenByOther(s, id, a.doctor, a.start) then Err(DuplicateStart)
      else Ok(Some(Store(s.rows[id := a], s.nextId)))
  }

  /** The unique index on (id_medico, fecha_hora_inicio): no two rows of
      one doctor start at the same minute. */
  predicate StartsUnique(s: Store) {
    forall i, j :: i in s.rows && j in s.rows && i != j && s.rows[i].doctor == s.rows[j].doctor ==>
      s.rows[i].start != s.rows[j].start
  }

  /** A successful `create` keeps the index satisfied. */
  lemma {:induction false} CreateKeepsStartsUnique(s: Store, hours: Availability.Catalog, r: Request)
    requires s.Valid() && StartsUnique(s)
    requires Create(s, hours, r).Ok?
    ensures StartsUnique(Create(s, hours, r).value.0)
  {
    var (s', id) := Create(s, hours, r).value;
    forall i, j | i in s'.rows && j in s'.rows && i != j && s'.rows[i].doctor == s'.rows[j].doctor
      ensures s'.rows[i].start != s'.rows[j].start
    {
      if i == id {
        assert !(s.rows[j].doctor == r.doctor && s.rows[j].start == r.start);
      } else if j == id {
        assert !(s.rows[i].doctor == r.doctor && s.rows[i].start == r.start);
      }
    }
  }

  /** A successful `update` keeps the index satisfied, whatever it moves. */
  lemma {:induction false} UpdateKeepsStartsUnique(s: Store, id: int, p: Patch)
    requires StartsUnique(s)
    requires Update(s, id, p).Ok? && Update(s, id, p).value.Some?
    ensures StartsUnique(Update(s, id, p).value.value)
  {
    var s' := Update(s, id, p).value.value;
    var a := s'.rows[id];
    forall i, j | i in s'.rows && j in s'.rows && i != j && s'.rows[i].doctor == s'.rows[j].doctor
      ensures s'.rows[i].start != s'.rows[j].start
    {
      if i == id {
        assert !(s.rows[j].doctor == a.doctor && s.rows[j].start == a.start);
      } else if j == id {
        assert !(s.rows[i].doctor == a.doctor && s.rows[i].start == a.start);
      }
    }
  }

  /** `update` never re-validates: moving one booking so that it overlaps
      another of the same doctor, at a different start, is accepted and
      breaks `NoDoubleBooking`. */
  lemma UpdateCanDoubleBook()
    ensures var a := Appointment(540, 570, 1, 1, 7, None, false);
      var b := Appointment(600, 630, 1, 2, 7, None, false);
      var s := Store(map[1 := a, 2 := b], 3);
      var res := Update(s, 2, EmptyPatch.(start := Some(550), end := Some(580)));
      && s.Valid() && NoDoubleBooking(s) && StartsUnique(s)
      && res.Ok? && res.value.Some? && !NoDoubleBooking(res.value.value)
  {
    var a := Appointment(540, 570, 1, 1, 7, None, false);
    var b := Appointment(600, 630, 1, 2, 7, None, false);
    var s := Store(map[1 := a, 2 := b], 3);
    assert !StartTakenByOther(s, 2, 7, 550);
    var s' := Update(s, 2, EmptyPatch.(start := Some(550), end := Some(580))).value.value;
    assert s'.rows[1] == a && s'.rows[2].start == 550 && s'.rows[2].end == 580 && s'.rows[2].doctor == 7;
  }

  /** Moving a booking onto the start of another booking of the same doctor
      is refused by the index and leaves the book as it was. */
  lemma UpdateOntoTakenStartFails()
    ensures var a := Appointment(540, 570, 1, 1, 7, None, false);
      var b := Appointment(600, 630, 1, 2, 7, None, false);
      var s := Store(map[1 := a, 2 := b], 3);
      Update(s, 2, EmptyPatch.(start := Some(540), end := Some(570))) == Err(DuplicateStart)
  {
    var a := Appointment(540, 570, 1, 1, 7, None, false);
    var b := Appointment(600, 630, 1, 2, 7, None, false);
    var s := Store(map[1 := a, 2 := b], 3);
    assert s.rows[1].doctor == 7 && s.rows[1].start == 540;
  }

  /** `delete`: `false` and no change for an unknown id, else exactly that
      row goes. */
  function Delete(s: Store, id: int): (r: (Store, bool))
    ensures r.1 <==> id in s.rows
    ensures r.0.rows.Keys == s.rows.Keys - {id}
    ensures forall k :: k in r.0.rows ==> r.0.rows[k] == s.rows[k]
    ensures !r.1 ==> r.0 == s
  {
    if id !in s.rows then (s, false)
    else (Store(s.rows - {id}, s.nextId), true)
  }

  /** Removing rows can only remove double bookings. */
  lemma DeleteKeepsNoDoubleBooking(s: Store, id: int)
    requires NoDoubleBooking(s)
    ensures NoDoubleBooking(Delete(s, id).0)
  {
  }
}

=== FILE: auth.dfy ===
/** `AuthService`: the login check chain and the password change. Password
    hashing and verification (bcrypt) are abstract parameters. */
module Auth {
  import opened Wrappers
  import UserRoles

  /** The columns of a `Usuario` row that the service reads. */
  datatype User = User(id: int, email: string, hash: string, active: bool)

  datatype LoginError =
    | UnknownEmail(email: string)
    | Inactive
    | WrongPassword
    | UnknownRole(name: string)
    | RoleNotAssigned(name: string)

  /** `SELECT ... WHERE email = ?` with `fetchone`: the first matching row. */
  function FindByEmail(users: seq<User>, email: string): (r: Option<User>)
    ensures r.None? <==> forall i :: 0 <= i < |users| ==> users[i].email != email
    ensures r.Some? ==> r.value in users && r.value.email == email
  {
    if users == [] then None
    else if users[0].email == email then Some(users[0])
    else FindByEmail(users[1..], email)
  }

  /** `login`: the five checks in order; the result is (id_usuario, id_rol).
      `roleIds` stands for the role service's lookup by name. */
  function Login(users: seq<User>, roleIds: map<string, int>, grants: seq<UserRoles.Grant>,
                 verify: (string, string) -> bool, email: string, password: string, role: string)
    : (r: Result<(int, int), LoginError>)
    ensures FindByEmail(users, email).None? ==> r == Err(UnknownEmail(email))
    ensures r.Ok? <==>
      && FindByEmail(users, email).Some?
      && FindByEmail(users, email).value.active
      && verify(password, FindByEmail(users, email).value.hash)
      && role in roleIds
      && UserRoles.Grant(FindByEmail(users, email).value.id, roleIds[role]) in grants
    ensures r.Ok? ==> r.value == (FindByEmail(users, email).value.id, roleIds[role])
  {
    match FindByEmail(users, email)
    case None => Err(UnknownEmail(email))
    case Some(u) =>
      if !u.active then Err(Inactive)
      else if !verify(password, u.hash) then Err(WrongPassword)
      else if role !in roleIds then Err(UnknownRole(role))
      else if UserRoles.Grant(u.id, roleIds[role]) !in grants then Err(RoleNotAssigned(role))
      else Ok((u.id, roleIds[role]))
  }

  /** The order of the errors: an inactive account is reported before the
      password is even checked, and a wrong password before the role. */
  lemma LoginErrorOrder(users: seq<User>, roleIds: map<string, int>, grants: seq<UserRoles.Grant>,
                        verify: (string, string) -> bool, email: string, password: string, role: string)
    requires FindByEmail(users, email).Some?
    ensures var u := FindByEmail(users, email).value;
      var r := Login(users, roleIds, grants, verify, email, password, role);
      && (!u.active ==> r == Err(Inactive))
      && (u.active && !verify(password, u.hash) ==> r == Err(WrongPassword))
      && (u.active && verify(password, u.hash) && role !in roleIds ==> r == Err(UnknownRole(role)))
  {
  }

  /** An inactive account can never log in, whatever password or role. */
  lemma InactiveNeverLogsIn(users: seq<User>, roleIds: map<string, int>, grants: seq<UserRoles.Grant>,
                            verify: (string, string) -> bool, email: string, password: string, role: string, i: int)
    requires 0 <= i < |users| && users[i].email == email && !users[i].active
    requires forall j :: 0 <= j < |users| && j != i ==> users[j].email != email
    ensures Login(users, roleIds, grants, verify, email, password, role) == Err(Inactive)
  {
    assert FindByEmail(users, email) == Some(users[i]) by {
      FindUnique(users, email, i);
    }
  }

  lemma {:induction false} FindUnique(users: seq<User>, email: string, i: int)
    requires 0 <= i < |users| && users[i].email == email
    requires forall j :: 0 <= j < |users| && j != i ==> users[j].email != email
    ensures FindByEmail(users, email) == Some(users[i])
  {
    if i > 0 {
      FindUnique(users[1..], email, i - 1);
    }
  }

  datatype PasswordError = UserNotFound | WrongCurrentPassword

  /** `change_password`: unknown user, then the current password; on
      success only that user's hash changes. */
  function ChangePassword(users: seq<User>, id: int, current: string, newPassword: string,
                          verify: (string, string) -> bool, hash: string -> string)
    : (r: Result<seq<User>, PasswordError>)
    ensures (forall i :: 0 <= i < |users| ==> users[i].id != id) ==> r == Err(UserNotFound)
    ensures FindById(users, id).Some? && !verify(current, FindById(users, id).value.hash) ==>
      r == Err(WrongCurrentPassword)
    ensures r.Ok? <==> FindById(users, id).Some? && verify(current, FindById(users, id).value.hash)
    ensures r.Ok? ==> |r.value| == |users|
    ensures r.Ok? ==> forall i :: 0 <= i < |users| ==>
      r.value[i] == (if users[i].id == id then users[i].(hash := hash(newPassword)) else users[i])
    decreases |users|
  {
    match FindById(users, id)
    case None => Err(UserNotFound)
    case Some(u) =>
      if !verify(current, u.hash) then Err(WrongCurrentPassword)
      else Ok(seq(|users|, i requires 0 <= i < |users| => if users[i].id == id then users[i].(hash := hash(newPassword)) else users[i]))
  }

  function FindById(users: seq<User>, id: int): (r: Option<User>)
    ensures r.None? <==> forall i :: 0 <= i < |users| ==> users[i].id != id
    ensures r.Some? ==> r.value in users && r.value.id == id
  {
    if users == [] then None
    else if users[0].id == id then Some(users[0])
    else FindById(users[1..], id)
  }

  /** After a successful change the new password verifies, for a
      verifier that accepts what the hash was made from. */
  lemma {:induction false} NewPasswordWorks(users: seq<User>, id: int, current: string, newPassword: string,
                                            verify: (string, string) -> bool, hash: string -> string)
    requires forall pw :: verify(pw, hash(pw))
    requires ChangePassword(users, id, current, newPassword, verify, hash).Ok?
    ensures var users' := ChangePassword(users, id, current, newPassword, verify, hash).value;
      FindById(users', id).Some? && verify(newPassword, FindById(users', id).value.hash)
  {
    var users' := ChangePassword(users, id, current, newPassword, verify, hash).value;
    var u := FindById(users, id).value;
    var k :| 0 <= k < |users| && users[k] == u;
    assert users'[k].id == id;
    var v := FindById(users', id).value;
    var m :| 0 <= m < |users'| && users'[m] == v;
    assert users'[m] == users[m].(hash := hash(newPassword));
  }
}

=== FILE: availability.dfy ===
/** The availability catalogue of `HorarioAtencionService`: each doctor's
    recurring weekly working windows, the containment test a booking must
    pass, the default Monday-to-Friday seed and the bulk replace. */
module Availability {
  import opened Wrappers
  import opened Clock

  /** A `HorarioAtencion` row. `weekday` uses the backend numbering
      (0 = Monday); `start` and `end` are minutes since midnight ("HH:MM"). */
  datatype Window = Window(doctor: int, weekday: int, start: int, end: int, slotMinutes: int)

  /** The table: rows by `id_horario_atencion`, and the next AUTOINCREMENT id. */
  datatype Catalog = Catalog(rows: map<int, Window>, nextId: int) {
    /** AUTOINCREMENT never hands out an id already used. */
    predicate Valid() {
      forall id :: id in rows ==> id < nextId
    }
  }

  datatype Error = UnknownDoctor(id: int) | InvalidWeekday(day: int) | NoFieldsToUpdate

  predicate ValidWeekday(d: int) {
    0 <= d <= 6
  }

  /** `create`: the doctor must exist, then the weekday must be in 0..6;
      `hora_inicio < hora_fin` is not checked. */
  function Create(c: Catalog, doctors: set<int>, w: Window): (r: Result<(Catalog, int), Error>)
    requires c.Valid()
    ensures w.doctor !in doctors ==> r == Err(UnknownDoctor(w.doctor))
    ensures w.doctor in doctors && !ValidWeekday(w.weekday) ==> r == Err(InvalidWeekday(w.weekday))
    ensures r.Ok? <==> w.doctor in doctors && ValidWeekday(w.weekday)
    ensures r.Ok? ==> var (c', id) := r.value;
      && id !in c.rows && c'.Valid()
      && c'.rows.Keys == c.rows.Keys + {id}
      && c'.rows[id] == w
      && (forall k :: k in c.rows ==> c'.rows[k] == c.rows[k])
  {
    if w.doctor !in doctors then Err(UnknownDoctor(w.doctor))
    else if !ValidWeekday(w.weekday) then Err(InvalidWeekday(w.weekday))
    else Ok((Catalog(c.rows[c.nextId := w], c.nextId + 1), c.nextId))
  }

  /** `HorarioAtencionUpdate`: every field optional. */
  datatype WindowPatch = WindowPatch(weekday: Option<int>, start: Option<int>, end: Option<int>, slotMinutes: Option<int>)

  function Patched(w: Window, p: WindowPatch): Window {
    Window(w.doctor, p.weekday.GetOr(w.weekday), p.start.GetOr(w.start), p.end.GetOr(w.end), p.slotMinutes.GetOr(w.slotMinutes))
  }

  /** `update`: `Ok(None)` for an unknown id; a weekday outside 0..6 or an
      empty patch is rejected; otherwise the given fields are written. */
  function Update(c: Catalog, id: int, p: WindowPatch): (r: Result<Option<Catalog>, Error>)
    ensures id !in c.rows ==> r == Ok(None)
    ensures id in c.rows && p.weekday.Some? && !ValidWeekday(p.weekday.value) ==>
      r == Err(InvalidWeekday(p.weekday.value))
    ensures id in c.rows && p == WindowPatch(None, None, None, None) ==> r == Err(NoFieldsToUpdate)
    ensures id in c.rows && p != WindowPatch(None, None, None, None) && (p.weekday.Some? ==> ValidWeekday(p.weekday.value)) ==>
      r.Ok? && r.value.Some?
    ensures r.Ok? && r.value.Some? ==> var c' := r.value.value;
      && id in c.rows
      && (p.weekday.Some? ==> ValidWeekday(p.weekday.value))
      && c'.nextId == c.nextId
      && c'.rows.Keys == c.rows.Keys
      && (forall k :: k in c.rows && k != id ==> c'.rows[k] == c.rows[k])
      && c'.rows[id].doctor == c.rows[id].doctor
      && (p.weekday.Some? ==> c'.rows[id].weekday == p.weekday.value)
      && (p.weekday.None? ==> c'.rows[id].weekday == c.rows[id].weekday)
      && (p.start.Some? ==> c'.rows[id].start == p.start.value)
      && (p.start.None? ==> c'.rows[id].start == c.rows[id].start)
      && (p.end.Some? ==> c'.rows[id].end == p.end.value)
      && (p.end.None? ==> c'.rows[id].end == c.rows[id].end)
      && (p.slotMinutes.Some? ==> c'.rows[id].slotMinutes == p.slotMinutes.value)
      && (p.slotMinutes.None? ==> c'.rows[id].slotMinutes == c.rows[id].slotMinutes)
  {
    if id !in c.rows then Ok(None)
    else if p.weekday.Some? && !ValidWeekday(p.weekday.value) then Err(InvalidWeekday(p.weekday.value))
    else if p == WindowPatch(None, None, None, None) then Err(NoFieldsToUpdate)
    else Ok(Some(Catalog(c.rows[id := Patched(c.rows[id], p)], c.nextId)))
  }

  /** An update keeps the window with its doctor, so no other doctor's
      availability changes, and the catalogue stays `Valid`. */
  lemma {:induction false} UpdateKeepsOtherDoctors(c: Catalog, id: int, p: WindowPatch, doctor: int, start: int, end: int)
    requires Update(c, id, p).Ok? && Update(c, id, p).value.Some?
    requires doctor != c.rows[id].doctor
    ensures c.Valid() ==> Update(c, id, p).value.value.Valid()
    ensures WithinHours(Update(c, id, p).value.value, doctor, start, end) <==> WithinHours(c, doctor, start, end)
  {
    var c' := Update(c, id, p).value.value;
    if WithinHours(c', doctor, start, end) {
      var k :| k in c'.rows && Admits(c'.rows[k], doctor, start, end);
      assert k != id && c.rows[k] == c'.rows[k];
    }
    if WithinHours(c, doctor, start, end) {
      var k :| k in c.rows && Admits(c.rows[k], doctor, start, end);
      assert k != id && c'.rows[k] == c.rows[k];
    }
  }

  /** `delete`: `false` and no change for an unknown id. */
  function Delete(c: Catalog, id: int): (r: (Catalog, bool))
    ensures r.1 <==> id in c.rows
    ensures r.0.rows.Keys == c.rows.Keys - {id}
    ensures forall k :: k in r.0.rows ==> r.0.rows[k] == c.rows[k]
  {
    (Catalog(c.rows - {id}, c.nextId), id in c.rows)
  }

  /** One window admits a booking: same doctor, the weekday of the START
      timestamp, and both bounds inclusive. The end's date is never read. */
  predicate Admits(w: Window, doctor: int, start: int, end: int) {
    && w.doctor == doctor
    && w.weekday == BackendWeekday(start)
    && w.start <= MinuteOfDay(start)
    && w.end >= MinuteOfDay(end)
  }

  /** `esta_dentro_de_horario`. */
  predicate WithinHours(c: Catalog, doctor: int, start: int, end: int) {
    exists id :: id in c.rows && Admits(c.rows[id], doctor, start, end)
  }

  /** The loop of `esta_dentro_de_horario` over the rows the query returned
      (those of the doctor on the start's weekday): true at the first window
      that contains the booking. */
  method ScanWindows(rows: seq<Window>, doctor: int, start: int, end: int) returns (found: bool)
    ensures found <==> exists i :: 0 <= i < |rows| && Admits(rows[i], doctor, start, end)
  {
    var i := 0;
    while i < |rows|
      invariant 0 <= i <= |rows|
      invariant forall j :: 0 <= j < i ==> !Admits(rows[j], doctor, start, end)
    {
      var w := rows[i];
      if w.doctor == doctor && w.weekday == BackendWeekday(start) && w.start <= MinuteOfDay(start) && w.end >= MinuteOfDay(end) {
        return true;
      }
      i := i + 1;
    }
    return false;
  }

  /** Only the time of day of the end is compared: moving the end by whole
      days changes nothing. */
  lemma EndDateIgnored(c: Catalog, doctor: int, start: int, end: int, days: int)
    ensures WithinHours(c, doctor, start, end) <==> WithinHours(c, doctor, start, end + days * MinutesPerDay)
  {
    assert MinuteOfDay(end + days * MinutesPerDay) == MinuteOfDay(end) by {
      AtSplits(Day(end) + days, MinuteOfDay(end));
    }
  }

  /** A weekday without windows for the doctor is never available. */
  lemma EmptyWeekdayNeverAvailable(c: Catalog, doctor: int, start: int, end: int)
    requires forall id :: id in c.rows && c.rows[id].doctor == doctor ==> c.rows[id].weekday != BackendWeekday(start)
    ensures !WithinHours(c, doctor, start, end)
  {
  }

  /** Both bounds are inclusive: a booking filling a window exactly is inside. */
  lemma {:induction false} BoundsInclusive(c: Catalog, id: int, day: int)
    requires id in c.rows
    requires var w := c.rows[id]; 0 <= w.start < MinutesPerDay && 0 <= w.end < MinutesPerDay && day % 7 == w.weekday
    ensures WithinHours(c, c.rows[id].doctor, At(day, c.rows[id].start), At(day, c.rows[id].end))
  {
    var w := c.rows[id];
    AtSplits(day, w.start);
    AtSplits(day, w.end);
    assert Admits(w, w.doctor, At(day, w.start), At(day, w.end));
  }

  /** The test is existential: more windows never exclude a booking. */
  lemma {:induction false} MoreWindowsNeverExclude(c: Catalog, c': Catalog, doctor: int, start: int, end: int)
    requires forall id :: id in c.rows ==> id in c'.rows && c'.rows[id] == c.rows[id]
    requires WithinHours(c, doctor, start, end)
    ensures WithinHours(c', doctor, start, end)
  {
    var id :| id in c.rows && Admits(c.rows[id], doctor, start, end);
    assert id in c'.rows && Admits(c'.rows[id], doctor, start, end);
  }

  /** A window whose start is not before its end is still accepted. */
  lemma CreateAcceptsEmptyWindow(c: Catalog, doctors: set<int>, doctor: int)
    requires c.Valid() && doctor in doctors
    ensures Create(c, doctors, Window(doctor, 0, 600, 540, 30)).Ok?
  {
  }

  const DefaultStart: int := 9 * 60
  const DefaultEnd: int := 17 * 60
  const DefaultSlot: int := 30

  /** `crear_horarios_default_para_medico`'s five rows. */
  function DefaultWindows(doctor: int): seq<Window> {
    seq(5, d => Window(doctor, d, DefaultStart, DefaultEnd, DefaultSlot))
  }

  /** The rows `ws` receive when inserted in order from id `base` on. */
  function Appended(base: int, ws: seq<Window>): (m: map<int, Window>)
    ensures forall k :: k in m <==> base <= k < base + |ws|
    ensures forall i :: 0 <= i < |ws| ==> m[base + i] == ws[i]
    decreases |ws|
  {
    if ws == [] then map[]
    else
      var rest := Appended(base + 1, ws[1..]);
      rest[base := ws[0]]
  }

  /** Inserts the rows of `ws` in order under fresh ids, with no checks. */
  function InsertRows(c: Catalog, ws: seq<Window>): (r: Catalog)
    requires c.Valid()
    ensures r.Valid() && r.nextId == c.nextId + |ws|
    ensures r.rows == c.rows + Appended(c.nextId, ws)
    decreases |ws|
  {
    if ws == [] then c
    else
      AppendedStep(c.rows, c.nextId, ws);
      InsertRows(Catalog(c.rows[c.nextId := ws[0]], c.nextId + 1), ws[1..])
  }

  /** Inserting the first window, then the rest, is inserting them all. */
  lemma AppendedStep(rows: map<int, Window>, base: int, ws: seq<Window>)
    requires ws != []
    ensures rows[base := ws[0]] + Appended(base + 1, ws[1..]) == rows + Appended(base, ws)
  {
    var left, right := rows[base := ws[0]] + Appended(base + 1, ws[1..]), rows + Appended(base, ws);
    assert left.Keys == right.Keys;
    forall k | k in left ensures left[k] == right[k] {
      if base < k < base + |ws| {
        assert ws[1..][k - base - 1] == ws[k - base];
      }
    }
  }

  /** `crear_horarios_default_para_medico` inserts rows directly. */
  function CreateDefaults(c: Catalog, doctor: int): (r: Catalog)
    requires c.Valid()
    ensures r.Valid()
  {
    InsertRows(c, DefaultWindows(doctor))
  }

  /** After seeding, a new doctor works Monday to Friday from 09:00 to 17:00
      and a booking on Saturday or Sunday is never inside the defaults. */
  lemma {:induction false} DefaultsCoverWorkweek(c: Catalog, doctor: int, day: int, from: int, to: int)
    requires c.Valid()
    requires 0 <= from < MinutesPerDay && 0 <= to < MinutesPerDay
    requires forall id :: id in c.rows ==> c.rows[id].doctor != doctor
    ensures var c' := CreateDefaults(c, doctor);
      WithinHours(c', doctor, At(day, from), At(day, to)) <==>
        (day % 7 < 5 && DefaultStart <= MinuteOfDay(At(day, from)) && MinuteOfDay(At(day, to)) <= DefaultEnd)
  {
    var c' := CreateDefaults(c, doctor);
    var s := At(day, from);
    AtSplits(day, from);
    AtSplits(day, to);
    if day % 7 < 5 && DefaultStart <= MinuteOfDay(s) && MinuteOfDay(At(day, to)) <= DefaultEnd {
      var k := c.nextId + day % 7;
      assert k in c'.rows && c'.rows[k] == DefaultWindows(doctor)[day % 7];
      assert Admits(c'.rows[k], doctor, s, At(day, to));
    }
    if WithinHours(c', doctor, s, At(day, to)) {
      var id :| id in c'.rows && Admits(c'.rows[id], doctor, s, At(day, to));
      assert id !in c.rows;
      var i := id - c.nextId;
      assert c'.rows[id] == DefaultWindows(doctor)[i];
    }
  }

  /** Rows of `c` that do not belong to `doctor`. */
  function OthersRows(c: Catalog, doctor: int): map<int, Window> {
    map id | id in c.rows && c.rows[id].doctor != doctor :: c.rows[id]
  }

  /** The inserting loop of `editar_horarios_medico`: `create` one by one,
      stopping at the first rejection; earlier inserts stay committed. */
  function CreateEach(c: Catalog, doctors: set<int>, ws: seq<Window>): (r: (Catalog, Result<seq<int>, Error>))
    requires c.Valid()
    ensures r.0.Valid()
    decreases |ws|
  {
    if ws == [] then (c, Ok([]))
    else match Create(c, doctors, ws[0])
      case Err(e) => (c, Err(e))
      case Ok((c1, id)) =>
        var (c2, rest) := CreateEach(c1, doctors, ws[1..]);
        (c2, if rest.Ok? then Ok([id] + rest.value) else rest)
  }

  /** The index of the first window `create` would reject, or `|ws|`. */
  function FirstRejected(doctors: set<int>, ws: seq<Window>): (k: nat)
    ensures k <= |ws|
    ensures forall i :: 0 <= i < k ==> ws[i].doctor in doctors && ValidWeekday(ws[i].weekday)
    ensures k < |ws| ==> !(ws[k].doctor in doctors && ValidWeekday(ws[k].weekday))
    decreases |ws|
  {
    if ws == [] then 0
    else if ws[0].doctor in doctors && ValidWeekday(ws[0].weekday) then 1 + FirstRejected(doctors, ws[1..])
    else 0
  }

  lemma {:induction false} CreateEachInsertsPrefix(c: Catalog, doctors: set<int>, ws: seq<Window>)
    requires c.Valid()
    ensures var k := FirstRejected(doctors, ws);
      && CreateEach(c, doctors, ws).0 == InsertRows(c, ws[..k])
      && (CreateEach(c, doctors, ws).1.Ok? <==> k == |ws|)
    decreases |ws|
  {
    var k := FirstRejected(doctors, ws);
    if ws == [] {
      assert ws[..k] == [];
    } else if ws[0].doctor in doctors && ValidWeekday(ws[0].weekday) {
      var c1 := Catalog(c.rows[c.nextId := ws[0]], c.nextId + 1);
      assert Create(c, doctors, ws[0]) == Ok((c1, c.nextId));
      CreateEachInsertsPrefix(c1, doctors, ws[1..]);
      assert k == 1 + FirstRejected(doctors, ws[1..]);
      var pre := ws[..k];
      assert pre != [] && pre[0] == ws[0] && pre[1..] == ws[1..][..k - 1];
      assert InsertRows(c, pre) == InsertRows(c1, pre[1..]);
    } else {
      assert k == 0 && ws[..k] == [];
    }
  }

  /** `editar_horarios_medico`: unknown doctor is an error with no change;
      otherwise the doctor's rows are deleted (and committed) and each new
      window is created in order. */
  function ReplaceWindows(c: Catalog, doctors: set<int>, doctor: int, ws: seq<Window>): (r: (Catalog, Result<seq<int>, Error>))
    requires c.Valid()
    ensures r.0.Valid()
  {
    if doctor !in doctors then (c, Err(UnknownDoctor(doctor)))
    else CreateEach(Catalog(OthersRows(c, doctor), c.nextId), doctors, ws)
  }

  /** An unknown doctor changes nothing. */
  lemma ReplaceUnknownDoctor(c: Catalog, doctors: set<int>, doctor: int, ws: seq<Window>)
    requires c.Valid() && doctor !in doctors
    ensures ReplaceWindows(c, doctors, doctor, ws) == (c, Err(UnknownDoctor(doctor)))
  {
  }

  /** Whatever happens, the rows of other doctors are untouched; the
      replaced doctor keeps exactly the windows inserted before the first
      rejected one (all of them when none is rejected). */
  lemma {:induction false} ReplaceOutcome(c: Catalog, doctors: set<int>, doctor: int, ws: seq<Window>)
    requires c.Valid() && doctor in doctors
    ensures var (c', res) := ReplaceWindows(c, doctors, doctor, ws);
      var k := FirstRejected(doctors, ws);
      && (res.Ok? <==> k == |ws|)
      && c'.rows == OthersRows(c, doctor) + Appended(c.nextId, ws[..k])
  {
    CreateEachInsertsPrefix(Catalog(OthersRows(c, doctor), c.nextId), doctors, ws);
  }

  /** Other doctors' windows survive a replace unchanged, whatever its outcome. */
  lemma {:induction false} ReplaceKeepsOthers(c: Catalog, doctors: set<int>, doctor: int, ws: seq<Window>, id: int)
    requires c.Valid() && doctor in doctors
    requires id in c.rows && c.rows[id].doctor != doctor
    ensures var c' := ReplaceWindows(c, doctors, doctor, ws).0;
      id in c'.rows && c'.rows[id] == c.rows[id]
  {
    ReplaceOutcome(c, doctors, doctor, ws);
    var k := FirstRejected(doctors, ws);
    assert id < c.nextId;
    assert id !in Appended(c.nextId, ws[..k]);
  }

  /** When every supplied window is for this doctor and valid, the doctor's
      windows afterwards are exactly the supplied list, under fresh ids. */
  lemma {:induction false} ReplaceExactly(c: Catalog, doctors: set<int>, doctor: int, ws: seq<Window>)
    requires c.Valid() && doctor in doctors
    requires forall i :: 0 <= i < |ws| ==> ws[i].doctor == doctor && ValidWeekday(ws[i].weekday)
    ensures var (c', res) := ReplaceWindows(c, doctors, doctor, ws);
      && res.Ok?
      && (forall id :: id in c'.rows && c'.rows[id].doctor == doctor <==> c.nextId <= id < c.nextId + |ws|)
      && (forall i :: 0 <= i < |ws| ==> c'.rows[c.nextId + i] == ws[i])
  {
    ReplaceOutcome(c, doctors, doctor, ws);
    var k := FirstRejected(doctors, ws);
    assert k == |ws|;
    assert ws[..k] == ws;
    var c' := ReplaceWindows(c, doctors, doctor, ws).0;
    forall id | id in c'.rows && c'.rows[id].doctor == doctor
      ensures c.nextId <= id < c.nextId + |ws|
    {
      assert id !in OthersRows(c, doctor);
    }
    forall id | c.nextId <= id < c.nextId + |ws|
      ensures id in c'.rows && c'.rows[id].doctor == doctor
    {
      assert ws[id - c.nextId].doctor == doctor;
    }
  }
}

=== FILE: clock.dfy ===
/** Naive local timestamps as integer minutes. Day 0 is a Monday, so the
    backend's `datetime.weekday()` (Monday = 0) and the front end's
    `Date.getDay()` (Sunday = 0) are both derived from the day number.
    "HH:mm" labels are five-character strings whose lexicographic order is
    the one JavaScript's `<` on strings uses. */
module Clock {

  const MinutesPerDay: int := 1440
  const MinutesPerHour: int := 60

  /** The calendar day of a timestamp (`date(t)` in SQLite, `isSameDay` in date-fns). */
  function Day(t: int): int {
    t / MinutesPerDay
  }

  /** The time of day of a timestamp, in minutes since midnight (`t.time()`). */
  function MinuteOfDay(t: int): (m: int)
    ensures 0 <= m < MinutesPerDay
    ensures t == Day(t) * MinutesPerDay + m
  {
    t % MinutesPerDay
  }

  function At(day: int, minute: int): int {
    day * MinutesPerDay + minute
  }

  lemma AtSplits(day: int, minute: int)
    requires 0 <= minute < MinutesPerDay
    ensures Day(At(day, minute)) == day && MinuteOfDay(At(day, minute)) == minute
  {
  }

  /** Python's `datetime.weekday()`: 0 = Monday ... 6 = Sunday. */
  function BackendWeekday(t: int): (w: int)
    ensures 0 <= w < 7
  {
    Day(t) % 7
  }

  /** date-fns `getDay`: 0 = Sunday ... 6 = Saturday. */
  function JsWeekday(day: int): (w: int)
    ensures 0 <= w < 7
  {
    (day + 1) % 7
  }

  /** The two weekday numberings name the same day one apart. */
  lemma WeekdayNumberings(t: int)
    ensures JsWeekday(Day(t)) == (BackendWeekday(t) + 1) % 7
  {
  }

  type Label = s: string | |s| == 5 witness "00:00"

  function Digit(d: int): char
    requires 0 <= d < 10
  {
    ('0' as int + d) as char
  }

  /** date-fns `format(t, "HH:mm")` of a time of day. */
  function HhMm(m: int): Label
    requires 0 <= m < MinutesPerDay
  {
    var h := m / MinutesPerHour;
    var mm := m % MinutesPerHour;
    [Digit(h / 10), Digit(h % 10), ':', Digit(mm / 10), Digit(mm % 10)]
  }

  /** JavaScript's `a < b` on strings (code-unit lexicographic order). */
  predicate StrLess(a: string, b: string)
    decreases |a|
  {
    if a == [] then b != []
    else if b == [] then false
    else if a[0] != b[0] then a[0] < b[0]
    else StrLess(a[1..], b[1..])
  }

  /** `a <= b` on strings. */
  predicate StrLessEq(a: string, b: string) {
    a == b || StrLess(a, b)
  }

  lemma DigitOrder(x: int, y: int)
    requires 0 <= x < 10 && 0 <= y < 10
    ensures Digit(x) < Digit(y) <==> x < y
    ensures Digit(x) == Digit(y) <==> x == y
  {
  }

  lemma StrLessCons(a: string, b: string)
    requires |a| == |b| > 0
    ensures StrLess(a, b) <==> a[0] < b[0] || (a[0] == b[0] && StrLess(a[1..], b[1..]))
  {
  }

  /** Zero-padded labels compare as strings exactly as the minutes compare. */
  lemma {:induction false} LabelOrder(m: int, n: int)
    requires 0 <= m < MinutesPerDay && 0 <= n < MinutesPerDay
    ensures StrLess(HhMm(m), HhMm(n)) <==> m < n
    ensures HhMm(m) == HhMm(n) <==> m == n
  {
    var a, b := HhMm(m), HhMm(n);
    var h1, h2 := m / 60, n / 60;
    var u1, u2 := m % 60, n % 60;
    var d0, d1, d3, d4 := h1 / 10, h1 % 10, u1 / 10, u1 % 10;
    var e0, e1, e3, e4 := h2 / 10, h2 % 10, u2 / 10, u2 % 10;
    DigitOrder(d0, e0);
    DigitOrder(d1, e1);
    DigitOrder(d3, e3);
    DigitOrder(d4, e4);
    assert m == 600 * d0 + 60 * d1 + 10 * d3 + d4;
    assert n == 600 * e0 + 60 * e1 + 10 * e3 + e4;
    assert d3 < 6 && e3 < 6;
    StrLessCons(a, b);
    StrLessCons(a[1..], b[1..]);
    StrLessCons(a[2..], b[2..]);
    StrLessCons(a[3..], b[3..]);
    StrLessCons(a[4..], b[4..]);
    assert a[1..][1..] == a[2..] && b[1..][1..] == b[2..];
    assert a[2..][1..] == a[3..] && b[2..][1..] == b[3..];
    assert a[3..][1..] == a[4..] && b[3..][1..] == b[4..];
    assert a[4..][1..] == [] && b[4..][1..] == [];
    assert StrLess(a, b) <==> d0 < e0 || (d0 == e0 && (d1 < e1 || (d1 == e1 && (d3 < e3 || (d3 == e3 && d4 < e4)))));
    if a == b {
      assert a[0] == b[0] && a[1] == b[1] && a[3] == b[3] && a[4] == b[4];
    }
  }

  /** A timestamp falls in the grid cell of `day` labelled `time`: same
      calendar day and the same `format(t, "HH:mm")`. */
  predicate StartsAt(t: int, day: int, time: string) {
    Day(t) == day && HhMm(MinuteOfDay(t)) == time
  }

  /** A cell labelled with minute `m` holds exactly the timestamps at that minute. */
  lemma StartsAtMinute(t: int, day: int, m: int)
    requires 0 <= m < MinutesPerDay
    ensures StartsAt(t, day, HhMm(m)) <==> t == At(day, m)
  {
    LabelOrder(MinuteOfDay(t), m);
  }

  predicate IsDigitChar(c: char) {
    '0' <= c <= '9'
  }

  function DigitValue(c: char): int {
    c as int - '0' as int
  }

  /** A well-formed "HH:mm" label of a time of day. */
  predicate IsTime(s: string) {
    && |s| == 5 && s[2] == ':'
    && IsDigitChar(s[0]) && IsDigitChar(s[1]) && IsDigitChar(s[3]) && IsDigitChar(s[4])
    && DigitValue(s[0]) * 10 + DigitValue(s[1]) < 24
    && DigitValue(s[3]) * 10 + DigitValue(s[4]) < 60
  }

  /** date-fns `parse(s, "HH:mm", ...)` of a well-formed label, as minutes. */
  function ParseHhMm(s: string): (m: int)
    requires IsTime(s)
    ensures 0 <= m < MinutesPerDay
  {
    (DigitValue(s[0]) * 10 + DigitValue(s[1])) * MinutesPerHour + DigitValue(s[3]) * 10 + DigitValue(s[4])
  }

  lemma DigitRoundTrip(d: int)
    requires 0 <= d < 10
    ensures IsDigitChar(Digit(d)) && DigitValue(Digit(d)) == d
  {
  }

  lemma CharRoundTrip(c: char)
    requires IsDigitChar(c)
    ensures Digit(DigitValue(c)) == c
  {
  }

  /** Formatting a time of day and parsing it back gives the same minute. */
  lemma {:induction false} ParseFormat(m: int)
    requires 0 <= m < MinutesPerDay
    ensures IsTime(HhMm(m)) && ParseHhMm(HhMm(m)) == m
  {
    var h, u := m / MinutesPerHour, m % MinutesPerHour;
    DigitRoundTrip(h / 10);
    DigitRoundTrip(h % 10);
    DigitRoundTrip(u / 10);
    DigitRoundTrip(u % 10);
  }

  /** Parsing a well-formed label and formatting it back gives the same label. */
  lemma {:induction false} FormatParse(s: string)
    requires IsTime(s)
    ensures HhMm(ParseHhMm(s)) == s
  {
    var m := ParseHhMm(s);
    var h := DigitValue(s[0]) * 10 + DigitValue(s[1]);
    var u := DigitValue(s[3]) * 10 + DigitValue(s[4]);
    assert m / MinutesPerHour == h && m % MinutesPerHour == u;
    assert h / 10 == DigitValue(s[0]) && h % 10 == DigitValue(s[1]);
    assert u / 10 == DigitValue(s[3]) && u % 10 == DigitValue(s[4]);
    CharRoundTrip(s[0]);
    CharRoundTrip(s[1]);
    CharRoundTrip(s[3]);
    CharRoundTrip(s[4]);
    var t := HhMm(m);
    assert t[0] == s[0] && t[1] == s[1] && t[2] == s[2] && t[3] == s[3] && t[4] == s[4];
  }
}

=== FILE: constants.dfy ===
/** The front end's shared constants: role display names and the weekday
    names indexed like `Date.getDay()` (0 = Sunday). The regular
    expressions are in `Patterns`. */
module Constants {
  import opened Clock

  /** `ROLES`: role key to display name. */
  const Roles: map<string, string> := map[
    "Admin" := "Secretarío/a",
    "Doctor" := "Médico/a",
    "Patient" := "Paciente"
  ]

  /** The three role keys the routes and schemas compare against. */
  lemma RoleKeys()
    ensures Roles.Keys == {"Admin", "Doctor", "Patient"}
    ensures Roles["Patient"] == "Paciente"
  {
  }

  /** `WEEKDAYS`. */
  const Weekdays: seq<string> := ["Domingo", "Lunes", "Martes", "Miercoles", "Jueves", "Viernes", "Sabado"]

  /** `WEEKDAYS[getDay(d)]` names the day: day 0 of the clock is a Monday,
      and the backend's weekday `w` (0 = Monday) is `WEEKDAYS[(w + 1) % 7]`. */
  lemma WeekdayNames(t: int)
    ensures |Weekdays| == 7
    ensures Weekdays[JsWeekday(0)] == "Lunes" && Weekdays[0] == "Domingo"
    ensures Weekdays[JsWeekday(Day(t))] == Weekdays[(BackendWeekday(t) + 1) % 7]
  {
    WeekdayNumberings(t);
  }
}

=== FILE: consultations.dfy ===
/** `ConsultaService`: the record of an attended appointment. At most one
    consultation exists per appointment. */
module Consultations {
  import opened Wrappers
  import opened Clock
  import opened Seqs
  import Appointments

  /** A `Consulta` row; `at` is `fecha_consulta` as a timestamp. */
  datatype Consultation = Consultation(
    appointment: int, at: int,
    diagnosis: Option<string>, privateNotes: Option<string>, treatment: Option<string>)

  datatype Book = Book(rows: map<int, Consultation>, nextId: int) {
    predicate Valid() {
      forall id :: id in rows ==> id < nextId
    }
  }

  datatype Error = NoSuchAppointment(id: int) | AlreadyRecorded(id: int) | NoFieldsToUpdate

  predicate Recorded(b: Book, appointment: int) {
    exists id :: id in b.rows && b.rows[id].appointment == appointment
  }

  /** The `UNIQUE` on `id_turno`: no two consultations share an appointment. */
  predicate OnePerAppointment(b: Book) {
    forall i, j :: i in b.rows && j in b.rows && i != j ==> b.rows[i].appointment != b.rows[j].appointment
  }

  /** `create`: the appointment must exist, then must not be recorded yet. */
  function Create(b: Book, appointments: set<int>, c: Consultation): (r: Result<(Book, int), Error>)
    requires b.Valid()
    ensures c.appointment !in appointments ==> r == Err(NoSuchAppointment(c.appointment))
    ensures c.appointment in appointments && Recorded(b, c.appointment) ==> r == Err(AlreadyRecorded(c.appointment))
    ensures r.Ok? <==> c.appointment in appointments && !Recorded(b, c.appointment)
    ensures r.Ok? ==> var (b', id) := r.value;
      && b'.Valid() && id !in b.rows
      && b'.rows == b.rows[id := c]
  {
    if c.appointment !in appointments then Err(NoSuchAppointment(c.appointment))
    else if Recorded(b, c.appointment) then Err(AlreadyRecorded(c.appointment))
    else Ok((Book(b.rows[b.nextId := c], b.nextId + 1), b.nextId))
  }

  /** `create` keeps at most one consultation per appointment. */
  lemma CreateKeepsOnePerAppointment(b: Book, appointments: set<int>, c: Consultation)
    requires b.Valid() && OnePerAppointment(b)
    requires Create(b, appointments, c).Ok?
    ensures OnePerAppointment(Create(b, appointments, c).value.0)
  {
  }

  /** After a successful `create`, a second one for the same appointment
      always fails, whatever its other fields. */
  lemma {:induction false} SecondCreateFails(b: Book, appointments: set<int>, c: Consultation, c': Consultation)
    requires b.Valid()
    requires Create(b, appointments, c).Ok?
    requires c'.appointment == c.appointment
    ensures Create(Create(b, appointments, c).value.0, appointments, c') == Err(AlreadyRecorded(c.appointment))
  {
    var (b', id) := Create(b, appointments, c).value;
    assert b'.rows[id].appointment == c.appointment;
  }

  /** `ConsultaUpdate`: the three optional text fields. */
  datatype Patch = Patch(diagnosis: Option<string>, privateNotes: Option<string>, treatment: Option<string>)

  function Patched(c: Consultation, p: Patch): Consultation {
    c.(diagnosis := if p.diagnosis.Some? then p.diagnosis else c.diagnosis,
       privateNotes := if p.privateNotes.Some? then p.privateNotes else c.privateNotes,
       treatment := if p.treatment.Some? then p.treatment else c.treatment)
  }

  /** `update`: `Ok(None)` for an unknown id; an all-`None` patch is
      rejected; otherwise exactly the given fields change. */
  function Update(b: Book, id: int, p: Patch): (r: Result<Option<Book>, Error>)
    ensures id !in b.rows ==> r == Ok(None)
    ensures id in b.rows && p == Patch(None, None, None) ==> r == Err(NoFieldsToUpdate)
    ensures r.Ok? && r.value.Some? ==> var b' := r.value.value;
      && id in b.rows && p != Patch(None, None, None)
      && b'.rows.Keys == b.rows.Keys && b'.nextId == b.nextId
      && (forall k :: k in b.rows && k != id ==> b'.rows[k] == b.rows[k])
      && b'.rows[id].appointment == b.rows[id].appointment
      && b'.rows[id].at == b.rows[id].at
      && (p.diagnosis.Some? ==> b'.rows[id].diagnosis == p.diagnosis)
      && (p.diagnosis.None? ==> b'.rows[id].diagnosis == b.rows[id].diagnosis)
      && (p.privateNotes.Some? ==> b'.rows[id].privateNotes == p.privateNotes)
      && (p.privateNotes.None? ==> b'.rows[id].privateNotes == b.rows[id].privateNotes)
      && (p.treatment.Some? ==> b'.rows[id].treatment == p.treatment)
      && (p.treatment.None? ==> b'.rows[id].treatment == b.rows[id].treatment)
    ensures id in b.rows && p != Patch(None, None, None) ==> r.Ok? && r.value.Some?
  {
    if id !in b.rows then Ok(None)
    else if p == Patch(None, None, None) then Err(NoFieldsToUpdate)
    else Ok(Some(Book(b.rows[id := Patched(b.rows[id], p)], b.nextId)))
  }

  /** An update never moves a consultation to another appointment, so the
      one-per-appointment rule survives it. */
  lemma UpdateKeepsOnePerAppointment(b: Book, id: int, p: Patch)
    requires OnePerAppointment(b)
    requires Update(b, id, p).Ok? && Update(b, id, p).value.Some?
    ensures OnePerAppointment(Update(b, id, p).value.value)
  {
  }

  /** `delete`: `false` and no change for an unknown id. */
  function Delete(b: Book, id: int): (r: (Book, bool))
    ensures r.1 <==> id in b.rows
    ensures !r.1 ==> r.0 == b
    ensures r.0.rows.Keys == b.rows.Keys - {id}
    ensures forall k :: k in r.0.rows ==> r.0.rows[k] == b.rows[k]
  {
    if id !in b.rows then (b, false)
    else (Book(b.rows - {id}, b.nextId), true)
  }

  /** After a delete the appointment may be recorded again. */
  lemma {:induction false} DeleteFreesAppointment(b: Book, appointments: set<int>, id: int, c: Consultation)
    requires b.Valid() && OnePerAppointment(b)
    requires id in b.rows && c.appointment == b.rows[id].appointment && c.appointment in appointments
    ensures Create(Delete(b, id).0, appointments, c).Ok?
  {
  }

  /** `get_id_consultas_by_fecha_consulta`: the consultations dated on `day`. */
  function IdsOn(b: Book, day: int): (ids: set<int>)
    ensures forall id :: id in ids <==> id in b.rows && Day(b.rows[id].at) == day
  {
    set id | id in b.rows && Day(b.rows[id].at) == day
  }

  /** The inner join: the patient of the consultation's appointment, when
      that appointment exists. */
  predicate OfPatient(c: Consultation, appointments: map<int, Appointments.Appointment>, patient: int) {
    c.appointment in appointments && appointments[c.appointment].patient == patient
  }

  /** `get_by_paciente_id`: the consultations whose appointment belongs to
      the patient. */
  function ByPatient(b: Book, appointments: map<int, Appointments.Appointment>, patient: int): (ids: set<int>)
    ensures forall id :: id in ids ==> id in b.rows
  {
    set id | id in b.rows && OfPatient(b.rows[id], appointments, patient)
  }

  /** Every consultation whose appointment exists is listed for exactly one
      patient, the appointment's, and one whose appointment is gone for none. */
  lemma ByPatientPartitions(b: Book, appointments: map<int, Appointments.Appointment>, id: int, patient: int)
    requires id in b.rows
    ensures id in ByPatient(b, appointments, patient) <==>
      b.rows[id].appointment in appointments && appointments[b.rows[id].appointment].patient == patient
  {
  }

  /** `get_id_pacientes_by_fecha_consulta` over the table's rows: the
      `SELECT DISTINCT` of the patients seen on `day`, in first-seen order. */
  method PatientsOn(rows: seq<Consultation>, appointments: map<int, Appointments.Appointment>, day: int)
    returns (ids: seq<int>)
    ensures Distinct(ids)
    ensures forall p :: p in ids <==>
      exists i :: 0 <= i < |rows| && Day(rows[i].at) == day && OfPatient(rows[i], appointments, p)
  {
    ids := [];
    var i := 0;
    while i < |rows|
      invariant 0 <= i <= |rows|
      invariant Distinct(ids)
      invariant forall p :: p in ids <==>
        exists j :: 0 <= j < i && Day(rows[j].at) == day && OfPatient(rows[j], appointments, p)
    {
      var c := rows[i];
      if Day(c.at) == day && c.appointment in appointments {
        var p := appointments[c.appointment].patient;
        if p !in ids {
          ids := ids + [p];
        }
      }
      i := i + 1;
    }
  }
}

=== FILE: date_utils.dfy ===
/** `dateUtils.js`: the master grid of half-hour rows spanning a doctor's
    availability, and the weekday options of a select box. */
module DateUtils {
  import opened Clock
  import opened Constants
  import WeekCalendar

  const Step: int := 30

  /** Every config carries well-formed "HH:mm" times. */
  predicate WellFormed(configs: seq<WeekCalendar.Config>) {
    forall i :: 0 <= i < |configs| ==> IsTime(configs[i].startTime) && IsTime(configs[i].endTime)
  }

  /** The earliest start among the configs, starting from 23:59. */
  function MinStart(configs: seq<WeekCalendar.Config>): (lo: int)
    requires WellFormed(configs)
    ensures forall i :: 0 <= i < |configs| ==> lo <= ParseHhMm(configs[i].startTime)
    ensures configs != [] ==> exists i :: 0 <= i < |configs| && lo == ParseHhMm(configs[i].startTime)
    ensures 0 <= lo < MinutesPerDay
  {
    if configs == [] then MinutesPerDay - 1
    else
      var rest := MinStart(configs[..|configs| - 1]);
      var last := ParseHhMm(configs[|configs| - 1].startTime);
      if last < rest then last else rest
  }

  /** The latest end among the configs, starting from 00:00. */
  function MaxEnd(configs: seq<WeekCalendar.Config>): (hi: int)
    requires WellFormed(configs)
    ensures forall i :: 0 <= i < |configs| ==> ParseHhMm(configs[i].endTime) <= hi
    ensures configs != [] ==> exists i :: 0 <= i < |configs| && hi == ParseHhMm(configs[i].endTime)
    ensures 0 <= hi < MinutesPerDay
  {
    if configs == [] then 0
    else
      var rest := MaxEnd(configs[..|configs| - 1]);
      var last := ParseHhMm(configs[|configs| - 1].endTime);
      if rest < last then last else rest
  }

  /** One more config moves the bounds by its own start and end. */
  lemma {:induction false} BoundsStep(configs: seq<WeekCalendar.Config>, k: int)
    requires WellFormed(configs) && 0 <= k < |configs|
    ensures WellFormed(configs[..k]) && WellFormed(configs[..k + 1])
    ensures var s := ParseHhMm(configs[k].startTime);
      MinStart(configs[..k + 1]) == if s < MinStart(configs[..k]) then s else MinStart(configs[..k])
    ensures var e := ParseHhMm(configs[k].endTime);
      MaxEnd(configs[..k + 1]) == if MaxEnd(configs[..k]) < e then e else MaxEnd(configs[..k])
  {
    var p := configs[..k + 1];
    assert p[..k] == configs[..k] && p[k] == configs[k] && |p| - 1 == k;
  }

  /** The seeds of the search are the last and the first minute of the day. */
  lemma SeedLabels()
    ensures "23:59" == HhMm(MinutesPerDay - 1) && "00:00" == HhMm(0)
  {
  }

  /** One turn of the `forEach`: the string comparisons keep the labels of
      the least start and the greatest end seen so far. */
  lemma CompareStep(configs: seq<WeekCalendar.Config>, k: int, minStart: string, maxEnd: string)
    requires WellFormed(configs) && 0 <= k < |configs|
    requires WellFormed(configs[..k])
    requires minStart == HhMm(MinStart(configs[..k])) && maxEnd == HhMm(MaxEnd(configs[..k]))
    ensures WellFormed(configs[..k + 1])
    ensures (if StrLess(configs[k].startTime, minStart) then configs[k].startTime else minStart)
      == HhMm(MinStart(configs[..k + 1]))
    ensures (if StrLess(maxEnd, configs[k].endTime) then configs[k].endTime else maxEnd)
      == HhMm(MaxEnd(configs[..k + 1]))
  {
    var c := configs[k];
    BoundsStep(configs, k);
    var lo, hi := MinStart(configs[..k]), MaxEnd(configs[..k]);
    var s, e := ParseHhMm(c.startTime), ParseHhMm(c.endTime);
    FormatParse(c.startTime);
    FormatParse(c.endTime);
    LabelOrder(s, lo);
    LabelOrder(hi, e);
  }

  /** The `forEach` of `generateMasterGrid`: the least start and the
      greatest end, found by comparing the "HH:mm" strings. */
  method Bounds(configs: seq<WeekCalendar.Config>) returns (minStart: string, maxEnd: string)
    requires WellFormed(configs)
    ensures minStart == HhMm(MinStart(configs)) && maxEnd == HhMm(MaxEnd(configs))
  {
    minStart := "23:59";
    maxEnd := "00:00";
    assert configs[..0] == [];
    SeedLabels();
    var k := 0;
    while k < |configs|
      invariant 0 <= k <= |configs| && WellFormed(configs[..k])
      invariant minStart == HhMm(MinStart(configs[..k]))
      invariant maxEnd == HhMm(MaxEnd(configs[..k]))
    {
      var c := configs[k];
      CompareStep(configs, k, minStart, maxEnd);
      if StrLess(c.startTime, minStart) {
        minStart := c.startTime;
      }
      if StrLess(maxEnd, c.endTime) {
        maxEnd := c.endTime;
      }
      k := k + 1;
    }
    assert configs[..|configs|] == configs;
  }

  /** The `while (isBefore(current, end))` loop: the half hours from `lo`
      while before `hi`. */
  method HalfHours(lo: int, hi: int) returns (slots: seq<string>)
    requires 0 <= lo < MinutesPerDay && 0 <= hi < MinutesPerDay
    ensures forall i :: 0 <= i < |slots| ==> lo + Step * i < hi && slots[i] == HhMm(lo + Step * i)
    ensures hi <= lo ==> slots == []
    ensures lo < hi ==> lo + Step * (|slots| - 1) < hi <= lo + Step * |slots|
  {
    var current := lo;
    slots := [];
    while current < hi
      invariant current == lo + Step * |slots|
      invariant |slots| > 0 ==> current - Step < hi
      invariant forall i :: 0 <= i < |slots| ==> lo + Step * i < hi && slots[i] == HhMm(lo + Step * i)
      decreases hi - current
    {
      slots := slots + [HhMm(current)];
      current := current + Step;
    }
  }

  /** `generateMasterGrid`: `[]` without availability; otherwise the half
      hours from the earliest start while before the latest end. */
  method MasterGrid(configs: seq<WeekCalendar.Config>) returns (slots: seq<string>)
    requires WellFormed(configs)
    ensures configs == [] ==> slots == []
    ensures configs != [] ==> forall i :: 0 <= i < |slots| ==>
      MinStart(configs) + Step * i < MaxEnd(configs) && slots[i] == HhMm(MinStart(configs) + Step * i)
    ensures configs != [] && MaxEnd(configs) <= MinStart(configs) ==> slots == []
    ensures configs != [] && MinStart(configs) < MaxEnd(configs) ==>
      MinStart(configs) + Step * (|slots| - 1) < MaxEnd(configs) <= MinStart(configs) + Step * |slots|
  {
    if |configs| == 0 {
      return [];
    }
    var minStart, maxEnd := Bounds(configs);
    ParseFormat(MinStart(configs));
    ParseFormat(MaxEnd(configs));
    slots := HalfHours(ParseHhMm(minStart), ParseHhMm(maxEnd));
  }

  /** A select option: `{ value, label }`, the label as `text`. */
  datatype Choice = Choice(value: int, text: string)

  /** `daysOptions`: each weekday name with its index as the value. */
  function DaysOptions(): (options: seq<Choice>)
    ensures |options| == |Weekdays|
    ensures forall i :: 0 <= i < |options| ==> options[i].value == i && options[i].text == Weekdays[i]
  {
    seq(|Weekdays|, i requires 0 <= i < |Weekdays| => Choice(i, Weekdays[i]))
  }

  /** The option chosen for a value names the weekday with that `getDay`
      number, and no two options share a value. */
  lemma DaysOptionsNameDays(day: int)
    ensures DaysOptions()[JsWeekday(day)].text == Weekdays[JsWeekday(day)]
    ensures forall i, j :: 0 <= i < j < |DaysOptions()| ==> DaysOptions()[i].value != DaysOptions()[j].value
  {
  }
}

=== FILE: doctors.dfy ===
/** `MedicoService`: doctor records, unique by DNI and by licence
    (matrícula), with a partial update that never touches either. */
module Doctors {
  import opened Wrappers

  /** A `Medico` row. */
  datatype Doctor = Doctor(
    dni: string, firstName: string, lastName: string, licence: string,
    phone: Option<string>, specialty: int, user: int)

  datatype Registry = Registry(rows: map<int, Doctor>, nextId: int) {
    predicate Valid() {
      forall id :: id in rows ==> id < nextId
    }
  }

  /** `DuplicateUser` is the failed INSERT on the `UNIQUE` user column,
      reported as a server error. */
  datatype Error =
    | DuplicateDni(dni: string)
    | DuplicateLicence(licence: string)
    | DuplicateUser(user: int)
    | NotFound(id: int)
    | NoFieldsToUpdate

  predicate DniTaken(r: Registry, dni: string) {
    exists id :: id in r.rows && r.rows[id].dni == dni
  }

  predicate LicenceTaken(r: Registry, licence: string) {
    exists id :: id in r.rows && r.rows[id].licence == licence
  }

  predicate UserTaken(r: Registry, user: int) {
    exists id :: id in r.rows && r.rows[id].user == user
  }

  /** `create`: the DNI is checked before the licence; a user already
      linked to a doctor then makes the INSERT itself fail. */
  function Create(r: Registry, d: Doctor): (res: Result<(Registry, int), Error>)
    requires r.Valid()
    ensures DniTaken(r, d.dni) ==> res == Err(DuplicateDni(d.dni))
    ensures !DniTaken(r, d.dni) && LicenceTaken(r, d.licence) ==> res == Err(DuplicateLicence(d.licence))
    ensures !DniTaken(r, d.dni) && !LicenceTaken(r, d.licence) && UserTaken(r, d.user) ==>
      res == Err(DuplicateUser(d.user))
    ensures res.Ok? <==> !DniTaken(r, d.dni) && !LicenceTaken(r, d.licence) && !UserTaken(r, d.user)
    ensures res.Ok? ==> var (r', id) := res.value;
      r'.Valid() && id !in r.rows && r'.rows == r.rows[id := d]
  {
    if DniTaken(r, d.dni) then Err(DuplicateDni(d.dni))
    else if LicenceTaken(r, d.licence) then Err(DuplicateLicence(d.licence))
    else if UserTaken(r, d.user) then Err(DuplicateUser(d.user))
    else Ok((Registry(r.rows[r.nextId := d], r.nextId + 1), r.nextId))
  }

  /** No two doctors share a DNI, a licence or a user. */
  predicate Unique(r: Registry) {
    forall i, j :: i in r.rows && j in r.rows && i != j ==>
      r.rows[i].dni != r.rows[j].dni && r.rows[i].licence != r.rows[j].licence && r.rows[i].user != r.rows[j].user
  }

  lemma {:induction false} CreateKeepsUnique(r: Registry, d: Doctor)
    requires r.Valid() && Unique(r)
    requires Create(r, d).Ok?
    ensures Unique(Create(r, d).value.0)
  {
    var (r', id) := Create(r, d).value;
    forall i, j | i in r'.rows && j in r'.rows && i != j && (i == id || j == id)
      ensures r'.rows[i].dni != r'.rows[j].dni && r'.rows[i].licence != r'.rows[j].licence
      ensures r'.rows[i].user != r'.rows[j].user
    {
      var other := if i == id then j else i;
      assert other in r.rows && r'.rows[other] == r.rows[other];
    }
  }

  /** `MedicoUpdate`: only these four fields; a `None` is skipped. */
  datatype Patch = Patch(firstName: Option<string>, lastName: Option<string>, phone: Option<string>, specialty: Option<int>)

  const EmptyPatch := Patch(None, None, None, None)

  function Patched(d: Doctor, u: Patch): Doctor {
    d.(firstName := u.firstName.GetOr(d.firstName),
       lastName := u.lastName.GetOr(d.lastName),
       phone := if u.phone.Some? then u.phone else d.phone,
       specialty := u.specialty.GetOr(d.specialty))
  }

  /** `update`: not found first, then the empty-patch error. */
  function Update(r: Registry, id: int, u: Patch): (res: Result<Registry, Error>)
    ensures id !in r.rows ==> res == Err(NotFound(id))
    ensures id in r.rows && u == EmptyPatch ==> res == Err(NoFieldsToUpdate)
    ensures id in r.rows && u != EmptyPatch ==> res.Ok?
    ensures res.Ok? ==>
      && id in r.rows
      && res.value.nextId == r.nextId && res.value.rows.Keys == r.rows.Keys
      && (forall k :: k in r.rows && k != id ==> res.value.rows[k] == r.rows[k])
      && res.value.rows[id].dni == r.rows[id].dni
      && res.value.rows[id].licence == r.rows[id].licence
      && res.value.rows[id].user == r.rows[id].user
      && (u.firstName.Some? ==> res.value.rows[id].firstName == u.firstName.value)
      && (u.firstName.None? ==> res.value.rows[id].firstName == r.rows[id].firstName)
      && (u.lastName.Some? ==> res.value.rows[id].lastName == u.lastName.value)
      && (u.lastName.None? ==> res.value.rows[id].lastName == r.rows[id].lastName)
      && (u.phone.Some? ==> res.value.rows[id].phone == u.phone)
      && (u.phone.None? ==> res.value.rows[id].phone == r.rows[id].phone)
      && (u.specialty.Some? ==> res.value.rows[id].specialty == u.specialty.value)
      && (u.specialty.None? ==> res.value.rows[id].specialty == r.rows[id].specialty)
  {
    if id !in r.rows then Err(NotFound(id))
    else if u == EmptyPatch then Err(NoFieldsToUpdate)
    else Ok(Registry(r.rows[id := Patched(r.rows[id], u)], r.nextId))
  }

  /** DNI, licence and user are immutable, so `update` keeps them unique. */
  lemma UpdateKeepsUnique(r: Registry, id: int, u: Patch)
    requires Unique(r)
    requires Update(r, id, u).Ok?
    ensures Unique(Update(r, id, u).value)
  {
  }

  /** `get_by_id`. */
  function GetById(r: Registry, id: int): (res: Result<Doctor, Error>)
    ensures res.Ok? <==> id in r.rows
    ensures res.Ok? ==> res.value == r.rows[id]
    ensures res.Err? ==> res.error == NotFound(id)
  {
    if id in r.rows then Ok(r.rows[id]) else Err(NotFound(id))
  }

  /** `delete`: not found for an unknown id, else exactly that row goes. */
  function Delete(r: Registry, id: int): (res: Result<Registry, Error>)
    ensures res.Ok? <==> id in r.rows
    ensures res.Err? ==> res.error == NotFound(id)
    ensures res.Ok? ==> res.value.rows == r.rows - {id} && res.value.nextId == r.nextId
  {
    if id in r.rows then Ok(Registry(r.rows - {id}, r.nextId)) else Err(NotFound(id))
  }

  /** Once deleted, a doctor's DNI, licence and user can be registered again. */
  lemma {:induction false} DeleteFreesDniAndLicence(r: Registry, id: int, d: Doctor)
    requires r.Valid() && Unique(r) && id in r.rows
    requires d.dni == r.rows[id].dni && d.licence == r.rows[id].licence && d.user == r.rows[id].user
    ensures Create(Delete(r, id).value, d).Ok?
  {
    var r' := Delete(r, id).value;
    assert !DniTaken(r', d.dni) by {
      forall k | k in r'.rows ensures r'.rows[k].dni != d.dni {
        assert k != id;
      }
    }
    assert !LicenceTaken(r', d.licence) by {
      forall k | k in r'.rows ensures r'.rows[k].licence != d.licence {
        assert k != id;
      }
    }
    assert !UserTaken(r', d.user) by {
      forall k | k in r'.rows ensures r'.rows[k].user != d.user {
        assert k != id;
      }
    }
  }

  /** A user already linked to a doctor cannot be linked to a second one,
      even with a fresh DNI and licence. */
  lemma SecondDoctorForUserFails()
    ensures var d1 := Doctor("20111222", "Ana", "Ruiz", "MP-1", None, 1, 42);
      var d2 := Doctor("20333444", "Juan", "Sosa", "MP-2", None, 1, 42);
      var r := Registry(map[0 := d1], 1);
      Create(r, d2) == Err(DuplicateUser(42))
  {
    var d1 := Doctor("20111222", "Ana", "Ruiz", "MP-1", None, 1, 42);
    var r := Registry(map[0 := d1], 1);
    assert r.rows[0] == d1;
  }
}

=== FILE: filter_panels.dfy ===
/** The admin's search panels: each keeps its filter fields, runs the
    filled-in filters one after the other on the full list when "search" is
    pressed, and returns to its initial state on "reset". The doctor and
    patient panels also sort by last name. */
module FilterPanels {
  import opened Wrappers
  import opened Seqs
  import opened Text
  import Clock

  /** What the panels borrow from the browser: `toLowerCase`, the order
      `localeCompare` puts last names in (as an integer rank) and
      `parseInt` (`None` for NaN). */
  datatype Lib = Lib(lower: string -> string, rank: string -> int, parseInt: string -> Option<int>)

  /** `text.toLowerCase().includes(filter.toLowerCase())`. */
  predicate Mentions(lib: Lib, text: string, filter: string) {
    Contains(lib.lower(text), lib.lower(filter))
  }

  /** `${first} ${last}`. */
  function FullName(first: string, last: string): string {
    first + " " + last
  }

  // ---- doctors ----

  datatype Doctor = Doctor(id: int, firstName: string, lastName: string, licenseNumber: string, specialtyId: int)

  datatype DoctorFilters = DoctorFilters(matricula: string, name: string, specialty: string, order: string)

  /** `initialFiltersState` of the doctor panel. */
  const InitialDoctorFilters := DoctorFilters("", "", "", "alpha_asc")

  function LicenseTest(lib: Lib, f: DoctorFilters): Doctor -> bool {
    (d: Doctor) => Mentions(lib, d.licenseNumber, f.matricula)
  }

  function DoctorNameTest(lib: Lib, f: DoctorFilters): Doctor -> bool {
    (d: Doctor) => Mentions(lib, FullName(d.firstName, d.lastName), f.name)
  }

  function SpecialtyTest(lib: Lib, f: DoctorFilters): Doctor -> bool {
    (d: Doctor) => lib.parseInt(f.specialty) == Some(d.specialtyId)
  }

  /** A doctor the search should find: it passes every filter that is filled in. */
  predicate DoctorMatches(lib: Lib, f: DoctorFilters, d: Doctor) {
    && (f.matricula != "" ==> Mentions(lib, d.licenseNumber, f.matricula))
    && (f.name != "" ==> Mentions(lib, FullName(d.firstName, d.lastName), f.name))
    && (f.specialty != "" ==> lib.parseInt(f.specialty) == Some(d.specialtyId))
  }

  function DoctorTest(lib: Lib, f: DoctorFilters): Doctor -> bool {
    (d: Doctor) => DoctorMatches(lib, f, d)
  }

  function DoctorRank(lib: Lib): Doctor -> int {
    (d: Doctor) => lib.rank(d.lastName)
  }

  /** The three filters run one after the other are one filter by all the
      filled-in tests. */
  lemma DoctorStages(lib: Lib, all: seq<Doctor>, f: DoctorFilters)
    ensures Stage(Stage(Stage(all, f.matricula != "", LicenseTest(lib, f)),
                        f.name != "", DoctorNameTest(lib, f)),
                  f.specialty != "", SpecialtyTest(lib, f))
            == Filter(all, DoctorTest(lib, f))
  {
    var t0 := (d: Doctor) => true;
    var t1 := (d: Doctor) => t0(d) && (f.matricula != "" ==> LicenseTest(lib, f)(d));
    var t2 := (d: Doctor) => t1(d) && (f.name != "" ==> DoctorNameTest(lib, f)(d));
    FilterAll(all, t0);
    StageStep(all, t0, f.matricula != "", LicenseTest(lib, f), t1);
    StageStep(all, t1, f.name != "", DoctorNameTest(lib, f), t2);
    StageStep(all, t2, f.specialty != "", SpecialtyTest(lib, f), DoctorTest(lib, f));
  }

  /** `handleSearchClick` of the doctor panel: the matching doctors, each as
      often as in the list, sorted by last name (A-Z for "alpha_asc", Z-A
      otherwise); `Array.prototype.sort` is stable, so doctors of equal
      rank keep their list order. */
  function SearchDoctors(lib: Lib, all: seq<Doctor>, f: DoctorFilters): (r: seq<Doctor>)
    ensures multiset(r) == multiset(Filter(all, DoctorTest(lib, f)))
    ensures forall d :: d in r <==> d in all && DoctorMatches(lib, f, d)
    ensures SortedBy(r, DoctorRank(lib), f.order == "alpha_asc")
    ensures forall v :: Filter(r, KeyIs(DoctorRank(lib), v)) == Filter(Filter(all, DoctorTest(lib, f)), KeyIs(DoctorRank(lib), v))
    ensures f.matricula == "" && f.name == "" && f.specialty == "" ==> multiset(r) == multiset(all)
  {
    var byLicense := Stage(all, f.matricula != "", LicenseTest(lib, f));
    var byName := Stage(byLicense, f.name != "", DoctorNameTest(lib, f));
    var bySpecialty := Stage(byName, f.specialty != "", SpecialtyTest(lib, f));
    DoctorStages(lib, all, f);
    var r := SortBy(bySpecialty, DoctorRank(lib), f.order == "alpha_asc");
    SortByStable(bySpecialty, DoctorRank(lib), f.order == "alpha_asc");
    SameMembers(r, bySpecialty);
    FilterMembers(all, DoctorTest(lib, f));
    assert f.matricula == "" && f.name == "" && f.specialty == "" ==> bySpecialty == all by {
      if f.matricula == "" && f.name == "" && f.specialty == "" {
        FilterAll(all, DoctorTest(lib, f));
      }
    }
    r
  }

  /** The doctor panel's state: filters, results and whether a search ran. */
  datatype DoctorPanel = DoctorPanel(filters: DoctorFilters, results: seq<Doctor>, hasSearched: bool)

  function SearchDoctorsClick(lib: Lib, all: seq<Doctor>, p: DoctorPanel): (q: DoctorPanel)
    ensures q.filters == p.filters && q.hasSearched
    ensures multiset(q.results) == multiset(Filter(all, DoctorTest(lib, p.filters)))
    ensures SortedBy(q.results, DoctorRank(lib), p.filters.order == "alpha_asc")
    ensures q.results == SearchDoctors(lib, all, p.filters)
  {
    p.(results := SearchDoctors(lib, all, p.filters), hasSearched := true)
  }

  /** `handleResetClick`: the initial filters, no results, no search yet. */
  function ResetDoctors(p: DoctorPanel): (q: DoctorPanel)
    ensures q.filters == InitialDoctorFilters && q.results == [] && !q.hasSearched
  {
    DoctorPanel(InitialDoctorFilters, [], false)
  }

  /** Searching right after a reset lists every doctor, A-Z by last name. */
  lemma ResetThenSearchFindsAllDoctors(lib: Lib, all: seq<Doctor>, p: DoctorPanel)
    ensures var q := SearchDoctorsClick(lib, all, ResetDoctors(p));
      multiset(q.results) == multiset(all) && SortedBy(q.results, DoctorRank(lib), true)
  {
  }

  // ---- patients ----

  datatype Patient = Patient(id: int, dni: string, firstName: string, lastName: string, socialWork: Option<int>)

  datatype PatientFilters = PatientFilters(dni: string, name: string, socialWork: string, order: string)

  const InitialPatientFilters := PatientFilters("", "", "", "alpha_asc")

  /** The message shown before any search and after a reset. */
  const InitialPatientMessage := "Busca un paciente para ver en detalle."

  function DniTest(f: PatientFilters): Patient -> bool {
    (p: Patient) => p.dni == f.dni
  }

  function PatientNameTest(lib: Lib, f: PatientFilters): Patient -> bool {
    (p: Patient) => Mentions(lib, FullName(p.firstName, p.lastName), f.name)
  }

  /** `p.socialWork?.socialWorkId === parseInt(filter)`: a patient without
      a social work never matches. */
  function SocialWorkTest(lib: Lib, f: PatientFilters): Patient -> bool {
    (p: Patient) => p.socialWork.Some? && lib.parseInt(f.socialWork) == p.socialWork
  }

  predicate PatientMatches(lib: Lib, f: PatientFilters, p: Patient) {
    && (f.dni != "" ==> p.dni == f.dni)
    && (f.name != "" ==> Mentions(lib, FullName(p.firstName, p.lastName), f.name))
    && (f.socialWork != "" ==> p.socialWork.Some? && lib.parseInt(f.socialWork) == p.socialWork)
  }

  function PatientTest(lib: Lib, f: PatientFilters): Patient -> bool {
    (p: Patient) => PatientMatches(lib, f, p)
  }

  function PatientRank(lib: Lib): Patient -> int {
    (p: Patient) => lib.rank(p.lastName)
  }

  lemma PatientStages(lib: Lib, all: seq<Patient>, f: PatientFilters)
    ensures Stage(Stage(Stage(all, f.dni != "", DniTest(f)),
                        f.name != "", PatientNameTest(lib, f)),
                  f.socialWork != "", SocialWorkTest(lib, f))
            == Filter(all, PatientTest(lib, f))
  {
    var t0 := (p: Patient) => true;
    var t1 := (p: Patient) => t0(p) && (f.dni != "" ==> DniTest(f)(p));
    var t2 := (p: Patient) => t1(p) && (f.name != "" ==> PatientNameTest(lib, f)(p));
    FilterAll(all, t0);
    StageStep(all, t0, f.dni != "", DniTest(f), t1);
    StageStep(all, t1, f.name != "", PatientNameTest(lib, f), t2);
    StageStep(all, t2, f.socialWork != "", SocialWorkTest(lib, f), PatientTest(lib, f));
  }

  /** `handleSearchClick` of the patient panel, without the message. */
  function SearchPatients(lib: Lib, all: seq<Patient>, f: PatientFilters): (r: seq<Patient>)
    ensures multiset(r) == multiset(Filter(all, PatientTest(lib, f)))
    ensures forall p :: p in r <==> p in all && PatientMatches(lib, f, p)
    ensures SortedBy(r, PatientRank(lib), f.order == "alpha_asc")
    ensures forall v :: Filter(r, KeyIs(PatientRank(lib), v)) == Filter(Filter(all, PatientTest(lib, f)), KeyIs(PatientRank(lib), v))
    ensures f.dni == "" && f.name == "" && f.socialWork == "" ==> multiset(r) == multiset(all)
  {
    var byDni := Stage(all, f.dni != "", DniTest(f));
    var byName := Stage(byDni, f.name != "", PatientNameTest(lib, f));
    var bySocialWork := Stage(byName, f.socialWork != "", SocialWorkTest(lib, f));
    PatientStages(lib, all, f);
    var r := SortBy(bySocialWork, PatientRank(lib), f.order == "alpha_asc");
    SortByStable(bySocialWork, PatientRank(lib), f.order == "alpha_asc");
    SameMembers(r, bySocialWork);
    FilterMembers(all, PatientTest(lib, f));
    assert f.dni == "" && f.name == "" && f.socialWork == "" ==> bySocialWork == all by {
      if f.dni == "" && f.name == "" && f.socialWork == "" {
        FilterAll(all, PatientTest(lib, f));
      }
    }
    r
  }

  /** The message after a search of `n` results. */
  function PatientMessage(n: nat): (m: string)
    ensures n == 0 ==> m == "No se encontraron pacientes."
    ensures n > 0 ==> m == NatToString(n) + " paciente(s) encontrado(s)."
  {
    if n == 0 then "No se encontraron pacientes." else NatToString(n) + " paciente(s) encontrado(s)."
  }

  /** The message tells the number of results: different counts give
      different messages. */
  lemma {:induction false} MessageTellsCount(m: nat, n: nat)
    requires PatientMessage(m) == PatientMessage(n)
    ensures m == n
  {
    var suffix := " paciente(s) encontrado(s).";
    if m > 0 && n > 0 {
      var a, b := NatToString(m), NatToString(n);
      assert a + suffix == b + suffix;
      assert |a| == |b|;
      assert a == (a + suffix)[..|a|] == (b + suffix)[..|b|] == b;
      NatToStringInjective(m, n);
    } else {
      MessageHead(m);
      MessageHead(n);
    }
  }

  /** Only the "no results" message starts with 'N'; a count starts with a digit. */
  lemma MessageHead(n: nat)
    ensures PatientMessage(n)[0] == 'N' <==> n == 0
  {
    if n > 0 {
      assert Clock.IsDigitChar(NatToString(n)[0]);
      assert PatientMessage(n)[0] == NatToString(n)[0];
    }
  }

  datatype PatientPanel = PatientPanel(filters: PatientFilters, results: seq<Patient>, message: string)

  function SearchPatientsClick(lib: Lib, all: seq<Patient>, p: PatientPanel): (q: PatientPanel)
    ensures q.filters == p.filters
    ensures multiset(q.results) == multiset(Filter(all, PatientTest(lib, p.filters)))
    ensures SortedBy(q.results, PatientRank(lib), p.filters.order == "alpha_asc")
    ensures q.results == SearchPatients(lib, all, p.filters)
    ensures q.message == PatientMessage(|q.results|)
  {
    var found := SearchPatients(lib, all, p.filters);
    p.(results := found, message := PatientMessage(|found|))
  }

  function ResetPatients(p: PatientPanel): (q: PatientPanel)
    ensures q.filters == InitialPatientFilters && q.results == [] && q.message == InitialPatientMessage
  {
    PatientPanel(InitialPatientFilters, [], InitialPatientMessage)
  }

  /** After a reset, a search lists every patient, and the message counts
      them all. */
  lemma ResetThenSearchFindsAllPatients(lib: Lib, all: seq<Patient>, p: PatientPanel)
    ensures var q := SearchPatientsClick(lib, all, ResetPatients(p));
      multiset(q.results) == multiset(all) && q.message == PatientMessage(|all|)
  {
    var q := SearchPatientsClick(lib, all, ResetPatients(p));
    assert |q.results| == |multiset(q.results)| == |multiset(all)| == |all|;
  }

  // ---- social works ----

  datatype SocialWork = SocialWork(id: int, name: string, cuit: string)

  datatype SocialWorkFilters = SocialWorkFilters(name: string, cuit: string)

  const InitialSocialWorkFilters := SocialWorkFilters("", "")

  function SocialWorkNameTest(lib: Lib, f: SocialWorkFilters): SocialWork -> bool {
    (w: SocialWork) => Mentions(lib, w.name, f.name)
  }

  /** The CUIT filter is case-sensitive: no lower-casing. */
  function CuitTest(f: SocialWorkFilters): SocialWork -> bool {
    (w: SocialWork) => Contains(w.cuit, f.cuit)
  }

  predicate SocialWorkMatches(lib: Lib, f: SocialWorkFilters, w: SocialWork) {
    && (f.name != "" ==> Mentions(lib, w.name, f.name))
    && (f.cuit != "" ==> Contains(w.cuit, f.cuit))
  }

  /** `handleSearchClick` of the social-work panel: the list order is kept. */
  function SearchSocialWorks(lib: Lib, all: seq<SocialWork>, f: SocialWorkFilters): (r: seq<SocialWork>)
    ensures IsSubsequence(r, all)
    ensures forall i :: 0 <= i < |r| ==> SocialWorkMatches(lib, f, r[i])
    ensures forall i :: 0 <= i < |all| && SocialWorkMatches(lib, f, all[i]) ==> all[i] in r
    ensures f.name == "" && f.cuit == "" ==> r == all
  {
    var byName := Stage(all, f.name != "", SocialWorkNameTest(lib, f));
    var r := Stage(byName, f.cuit != "", CuitTest(f));
    SubsequenceTransitive(r, byName, all);
    SubsequenceMembers(r, byName);
    r
  }

  datatype SocialWorkPanel = SocialWorkPanel(filters: SocialWorkFilters, results: seq<SocialWork>, hasSearched: bool)

  function SearchSocialWorksClick(lib: Lib, all: seq<SocialWork>, p: SocialWorkPanel): (q: SocialWorkPanel)
    ensures q.filters == p.filters && q.hasSearched
    ensures IsSubsequence(q.results, all)
    ensures q.results == SearchSocialWorks(lib, all, p.filters)
  {
    p.(results := SearchSocialWorks(lib, all, p.filters), hasSearched := true)
  }

  function ResetSocialWorks(p: SocialWorkPanel): (q: SocialWorkPanel)
    ensures q.filters == InitialSocialWorkFilters && q.results == [] && !q.hasSearched
  {
    SocialWorkPanel(InitialSocialWorkFilters, [], false)
  }

  /** After a reset, a search lists every social work in list order. */
  lemma ResetThenSearchFindsAllSocialWorks(lib: Lib, all: seq<SocialWork>, p: SocialWorkPanel)
    ensures SearchSocialWorksClick(lib, all, ResetSocialWorks(p)).results == all
  {
  }

  // ---- specialties ----

  datatype Specialty = Specialty(id: int, name: string, description: string)

  const InitialSpecialtyFilter := ""

  function SpecialtyNameTest(lib: Lib, name: string): Specialty -> bool {
    (s: Specialty) => Mentions(lib, s.name, name)
  }

  /** `handleSearchClick` of the specialty panel. */
  function SearchSpecialties(lib: Lib, all: seq<Specialty>, name: string): (r: seq<Specialty>)
    ensures IsSubsequence(r, all)
    ensures name != "" ==> forall i :: 0 <= i < |r| ==> Mentions(lib, r[i].name, name)
    ensures forall i :: 0 <= i < |all| && (name != "" ==> Mentions(lib, all[i].name, name)) ==> all[i] in r
    ensures name == "" ==> r == all
  {
    Stage(all, name != "", SpecialtyNameTest(lib, name))
  }

  datatype SpecialtyPanel = SpecialtyPanel(name: string, results: seq<Specialty>, hasSearched: bool)

  function SearchSpecialtiesClick(lib: Lib, all: seq<Specialty>, p: SpecialtyPanel): (q: SpecialtyPanel)
    ensures q.name == p.name && q.hasSearched
    ensures IsSubsequence(q.results, all)
    ensures q.results == SearchSpecialties(lib, all, p.name)
  {
    p.(results := SearchSpecialties(lib, all, p.name), hasSearched := true)
  }

  function ResetSpecialties(p: SpecialtyPanel): (q: SpecialtyPanel)
    ensures q.name == InitialSpecialtyFilter && q.results == [] && !q.hasSearched
  {
    SpecialtyPanel(InitialSpecialtyFilter, [], false)
  }

  /** After a reset, a search lists every specialty in list order. */
  lemma ResetThenSearchFindsAllSpecialties(lib: Lib, all: seq<Specialty>, p: SpecialtyPanel)
    ensures SearchSpecialtiesClick(lib, all, ResetSpecialties(p)).results == all
  {
  }
}

=== FILE: legacy_schemas.dfy ===
/** The older schemas of `utilities.js`: the register form with its own,
    stricter name and telephone patterns, and the login and forgot-password
    forms. */
module LegacySchemas {
  import opened Wrappers
  import opened Patterns
  import opened Rules
  import opened Schemas

  const LegacyRegisterFields: set<string> :=
    {"name", "lastname", "dni", "telephone", "birthDate", "email", "confirmEmail", "password", "confirmPassword"}

  function LegacyRegister(field: string, form: Form, env: Env): (v: Verdict)
    requires field in LegacyRegisterFields
    ensures v != Throws
    ensures field in {"name", "lastname"} ==> (v == Pass <==> IsNameOld(Get(form, field)))
    ensures field == "telephone" ==> (v == Pass <==> IsPhoneOld(Get(form, field)))
    ensures field == "confirmEmail" ==> (v == Pass <==> Get(form, "confirmEmail") == Get(form, "email"))
    ensures field == "confirmPassword" ==> (v == Pass <==> Get(form, "confirmPassword") == Get(form, "password"))
    ensures field == "birthDate" ==> v == Lift(BirthDate(Get(form, field), env))
    ensures field == "dni" ==> v == Lift(Dni(Get(form, field))) && (v == Pass <==> IsDni(Get(form, field)))
    ensures field == "email" ==> v == Lift(Email(Get(form, field))) && (v == Pass <==> IsEmail(Get(form, field)))
    ensures field == "password" ==> v == Lift(Password(Get(form, field))) && (v == Pass <==> IsPassword(Get(form, field)))
  {
    var value := Get(form, field);
    if field == "name" then
      if value == "" then Fail("El nombre es requerido.")
      else if !IsNameOld(value) then Fail("Nombre inválido (solo letras).")
      else Pass
    else if field == "lastname" then
      if value == "" then Fail("El apellido es requerido.")
      else if !IsNameOld(value) then Fail("Apellido inválido (solo letras).")
      else Pass
    else if field == "dni" then Lift(Dni(value))
    else if field == "telephone" then
      if value == "" then Fail("El teléfono es requerido.")
      else if !IsPhoneOld(value) then Fail("Teléfono inválido (10-13 números).")
      else Pass
    else if field == "birthDate" then Lift(BirthDate(value, env))
    else if field == "email" then Lift(Email(value))
    else if field == "confirmEmail" then
      if value != Get(form, "email") then Fail("Los correos no coinciden.") else Pass
    else if field == "password" then Lift(Password(value))
    else
      if value != Get(form, "password") then Fail("Las contraseñas no coinciden.") else Pass
  }

  /** Whatever the older register form accepts, the newer one accepts too,
      field by field; the other fields are judged alike. */
  lemma LegacyRegisterIsStricter(field: string, form: Form, env: Env)
    requires field in RegisterFields
    ensures field in LegacyRegisterFields
    ensures LegacyRegister(field, form, env) == Pass ==> Register(field, form, env) == Pass
    ensures field !in {"name", "telephone"} ==> LegacyRegister(field, form, env) == Register(field, form, env)
  {
    OldPatternsAreNarrower(Get(form, field));
  }

  const LegacyLoginFields: set<string> := {"email", "password", "role"}

  function LegacyLogin(field: string, form: Form): (v: Verdict)
    requires field in LegacyLoginFields
    ensures field == "email" ==> (v == Pass <==> EmailShape(Get(form, field)))
    ensures field != "email" ==> (v == Pass <==> Get(form, field) != "")
  {
    var value := Get(form, field);
    if field == "email" then
      EmailAccepts(value);
      Lift(Email(value))
    else if field == "password" then
      if value == "" then Fail("La contraseña es requerida.") else Pass
    else
      if value == "" then Fail("Debes seleccionar un rol.") else Pass
  }

  /** The older and the newer login and forgot-password forms agree. */
  lemma LoginSchemasAgree(field: string, form: Form)
    requires field in LoginFields
    ensures field in LegacyLoginFields && LegacyLogin(field, form) == Login(field, form)
    ensures field == "email" ==> LegacyForgotPassword(field, form) == ForgotPassword(field, form)
  {
  }

  function LegacyForgotPassword(field: string, form: Form): (v: Verdict)
    requires field in ForgotFields
    ensures v == Pass <==> EmailShape(Get(form, "email"))
  {
    EmailAccepts(Get(form, field));
    Lift(Email(Get(form, field)))
  }
}

=== FILE: mappers.dfy ===
/** `mappers.js`: the renaming of backend records (Spanish field names)
    into the front end's objects and select options. An object is a map
    from key to value; reading a key it lacks gives `undefined`. */
module Mappers {
  import opened Wrappers

  datatype Value = Undefined | Num(n: int) | Str(s: string)

  type Object = map<string, Value>

  /** `item.key`. */
  function Field(o: Object, key: string): Value {
    if key in o then o[key] else Undefined
  }

  /** An object literal `{ target: item.source, ... }` as its list of
      (target, source) pairs. */
  type Renaming = seq<(string, string)>

  function Targets(t: Renaming): set<string> {
    set i | 0 <= i < |t| :: t[i].0
  }

  predicate DistinctTargets(t: Renaming) {
    forall i, j :: 0 <= i < j < |t| ==> t[i].0 != t[j].0
  }

  predicate DistinctSources(t: Renaming) {
    forall i, j :: 0 <= i < j < |t| ==> t[i].1 != t[j].1
  }

  /** The object literal built from `o`: each target key gets the source's
      value, `undefined` included; a later entry for the same key wins. */
  function Project(o: Object, t: Renaming): (r: Object)
    ensures r.Keys == Targets(t)
  {
    if t == [] then map[]
    else
      var n := |t| - 1;
      assert Targets(t) == Targets(t[..n]) + {t[n].0} by {
        assert forall i :: 0 <= i < n ==> t[..n][i] == t[i];
      }
      Project(o, t[..n])[t[n].0 := Field(o, t[n].1)]
  }

  /** The value under a target key is the last entry's source value. */
  lemma {:induction false} ProjectLastWins(o: Object, t: Renaming, i: int)
    requires 0 <= i < |t| && forall j :: i < j < |t| ==> t[j].0 != t[i].0
    ensures Project(o, t)[t[i].0] == Field(o, t[i].1)
  {
    var n := |t| - 1;
    if i < n {
      assert t[..n][i] == t[i];
      forall j | i < j < n ensures t[..n][j].0 != t[..n][i].0 {
        assert t[..n][j] == t[j];
      }
      ProjectLastWins(o, t[..n], i);
    }
  }

  /** With no target repeated, every target key holds its source's value. */
  lemma ProjectFields(o: Object, t: Renaming)
    requires DistinctTargets(t)
    ensures forall i :: 0 <= i < |t| ==> Project(o, t)[t[i].0] == Field(o, t[i].1)
  {
    forall i | 0 <= i < |t| ensures Project(o, t)[t[i].0] == Field(o, t[i].1) {
      ProjectLastWins(o, t, i);
    }
  }

  /** The renaming read backwards. */
  function Invert(t: Renaming): (u: Renaming)
    ensures |u| == |t|
    ensures forall i :: 0 <= i < |t| ==> u[i] == (t[i].1, t[i].0)
  {
    seq(|t|, i requires 0 <= i < |t| => (t[i].1, t[i].0))
  }

  /** With no key renamed twice, renaming back recovers every source field. */
  lemma ProjectRoundTrip(o: Object, t: Renaming)
    requires DistinctTargets(t) && DistinctSources(t)
    ensures var back := Project(Project(o, t), Invert(t));
      back.Keys == set i | 0 <= i < |t| :: t[i].1
    ensures forall i :: 0 <= i < |t| ==> Field(Project(Project(o, t), Invert(t)), t[i].1) == Field(o, t[i].1)
  {
    var p := Project(o, t);
    var u := Invert(t);
    var back := Project(p, u);
    assert Targets(u) == set i | 0 <= i < |t| :: t[i].1 by {
      forall k | k in Targets(u) ensures k in set i | 0 <= i < |t| :: t[i].1 {
        var i :| 0 <= i < |u| && u[i].0 == k;
        assert t[i].1 == k;
      }
      forall k | k in set i | 0 <= i < |t| :: t[i].1 ensures k in Targets(u) {
        var i :| 0 <= i < |t| && t[i].1 == k;
        assert u[i].0 == k;
      }
    }
    ProjectFields(o, t);
    assert DistinctTargets(u);
    ProjectFields(p, u);
    forall i | 0 <= i < |t| ensures Field(back, t[i].1) == Field(o, t[i].1) {
      assert u[i] == (t[i].1, t[i].0);
      assert back[u[i].0] == Field(p, u[i].1);
      assert t[i].0 in p.Keys;
    }
  }

  const SpecialtyRenaming: Renaming :=
    [("specialtyId", "id_especialidad"), ("name", "nombre"), ("description", "descripcion")]

  const SpecialtyOptionRenaming: Renaming := [("value", "id_especialidad"), ("label", "nombre")]

  const SocialWorkRenaming: Renaming := [
    ("socialWorkId", "id_obra_social"), ("name", "nombre"), ("cuit", "cuit"),
    ("address", "direccion"), ("telephone", "telefono"), ("email", "mail")
  ]

  const SocialWorkOptionRenaming: Renaming := [("value", "id_obra_social"), ("label", "nombre")]

  /** `mapSpecialtyFromBackend`; `None` is a `null` or `undefined` item. */
  function MapSpecialty(item: Option<Object>): (r: Object)
    ensures item.None? ==> r == map[]
    ensures item.Some? ==>
      && r.Keys == {"specialtyId", "name", "description"}
      && r["specialtyId"] == Field(item.value, "id_especialidad")
      && r["name"] == Field(item.value, "nombre")
      && r["description"] == Field(item.value, "descripcion")
  {
    if item.None? then map[]
    else
      var t := SpecialtyRenaming;
      assert t[0].0 == "specialtyId" && t[1].0 == "name" && t[2].0 == "description";
      assert Targets(t) == {"specialtyId", "name", "description"};
      assert DistinctTargets(t);
      ProjectFields(item.value, t);
      Project(item.value, t)
  }

  /** `mapSpecialtyOptionFromBackend`. */
  function MapSpecialtyOption(item: Option<Object>): (r: Object)
    ensures item.None? ==> r == map[]
    ensures item.Some? ==>
      && r.Keys == {"value", "label"}
      && r["value"] == Field(item.value, "id_especialidad")
      && r["label"] == Field(item.value, "nombre")
  {
    if item.None? then map[]
    else
      var t := SpecialtyOptionRenaming;
      assert t[0].0 == "value" && t[1].0 == "label";
      assert Targets(t) == {"value", "label"};
      assert DistinctTargets(t);
      ProjectFields(item.value, t);
      Project(item.value, t)
  }

  /** `mapSocialWorkFromBackend`. */
  function MapSocialWork(item: Option<Object>): (r: Object)
    ensures item.None? ==> r == map[]
    ensures item.Some? ==>
      && r.Keys == {"socialWorkId", "name", "cuit", "address", "telephone", "email"}
      && r["socialWorkId"] == Field(item.value, "id_obra_social")
      && r["name"] == Field(item.value, "nombre")
      && r["cuit"] == Field(item.value, "cuit")
      && r["address"] == Field(item.value, "direccion")
      && r["telephone"] == Field(item.value, "telefono")
      && r["email"] == Field(item.value, "mail")
  {
    if item.None? then map[]
    else
      var t := SocialWorkRenaming;
      assert t[0].0 == "socialWorkId" && t[1].0 == "name" && t[2].0 == "cuit";
      assert t[3].0 == "address" && t[4].0 == "telephone" && t[5].0 == "email";
      assert Targets(t) == {"socialWorkId", "name", "cuit", "address", "telephone", "email"};
      assert DistinctTargets(t);
      ProjectFields(item.value, t);
      Project(item.value, t)
  }

  /** `mapSocialWorkOptionFromBackend`. */
  function MapSocialWorkOption(item: Option<Object>): (r: Object)
    ensures item.None? ==> r == map[]
    ensures item.Some? ==>
      && r.Keys == {"value", "label"}
      && r["value"] == Field(item.value, "id_obra_social")
      && r["label"] == Field(item.value, "nombre")
  {
    if item.None? then map[]
    else
      var t := SocialWorkOptionRenaming;
      assert t[0].0 == "value" && t[1].0 == "label";
      assert Targets(t) == {"value", "label"};
      assert DistinctTargets(t);
      ProjectFields(item.value, t);
      Project(item.value, t)
  }

  /** The option of a record carries the id and the name its full mapping
      carries. */
  lemma OptionsAgreeWithRecords(item: Object)
    ensures MapSpecialtyOption(Some(item))["value"] == MapSpecialty(Some(item))["specialtyId"]
    ensures MapSpecialtyOption(Some(item))["label"] == MapSpecialty(Some(item))["name"]
    ensures MapSocialWorkOption(Some(item))["value"] == MapSocialWork(Some(item))["socialWorkId"]
    ensures MapSocialWorkOption(Some(item))["label"] == MapSocialWork(Some(item))["name"]
  {
  }

  /** Mapping a social work and renaming back gives its six backend fields. */
  lemma SocialWorkRoundTrip(item: Object)
    ensures forall i :: 0 <= i < |SocialWorkRenaming| ==>
      Field(Project(MapSocialWork(Some(item)), Invert(SocialWorkRenaming)), SocialWorkRenaming[i].1)
        == Field(item, SocialWorkRenaming[i].1)
  {
    var t := SocialWorkRenaming;
    assert DistinctTargets(t) && DistinctSources(t);
    ProjectRoundTrip(item, t);
  }

  /** Mapping a specialty and renaming back gives its three backend fields. */
  lemma SpecialtyRoundTrip(item: Object)
    ensures forall i :: 0 <= i < |SpecialtyRenaming| ==>
      Field(Project(MapSpecialty(Some(item)), Invert(SpecialtyRenaming)), SpecialtyRenaming[i].1)
        == Field(item, SpecialtyRenaming[i].1)
  {
    var t := SpecialtyRenaming;
    assert DistinctTargets(t) && DistinctSources(t);
    ProjectRoundTrip(item, t);
  }
}

=== FILE: patients.dfy ===
/** `PacienteService`: patient records, unique by DNI and by social-work
    membership, with a whitelisted partial update. */
module Patients {
  import opened Wrappers

  /** A `Paciente` row. An absent or empty optional column is `None`. */
  datatype Patient = Patient(
    dni: string, firstName: string, lastName: string, birthDate: Option<string>,
    phone: Option<string>, socialWork: Option<int>, memberNo: Option<string>)

  datatype Registry = Registry(rows: map<int, Patient>, nextId: int) {
    predicate Valid() {
      forall id :: id in rows ==> id < nextId
    }
  }

  datatype Error = DuplicateDni(dni: string) | DuplicateMembership | NotFound(id: int) | NoFieldsToUpdate

  /** Python truthiness of the two membership values: `0` and `""` are false. */
  predicate HasMembership(p: Patient) {
    && p.socialWork.Some? && p.socialWork.value != 0
    && p.memberNo.Some? && p.memberNo.value != ""
  }

  predicate DniTaken(r: Registry, dni: string) {
    exists id :: id in r.rows && r.rows[id].dni == dni
  }

  predicate MembershipTaken(r: Registry, p: Patient) {
    exists id :: id in r.rows && r.rows[id].socialWork == p.socialWork && r.rows[id].memberNo == p.memberNo
  }

  /** `create`: the DNI check, then the membership check, which is made only
      when both the social work and the member number are present. */
  function Create(r: Registry, p: Patient): (res: Result<(Registry, int), Error>)
    requires r.Valid()
    ensures DniTaken(r, p.dni) ==> res == Err(DuplicateDni(p.dni))
    ensures res.Ok? <==> !DniTaken(r, p.dni) && !(HasMembership(p) && MembershipTaken(r, p))
    ensures !HasMembership(p) ==> (res.Ok? <==> !DniTaken(r, p.dni))
    ensures res.Ok? ==> var (r', id) := res.value;
      r'.Valid() && id !in r.rows && r'.rows == r.rows[id := p]
  {
    if DniTaken(r, p.dni) then Err(DuplicateDni(p.dni))
    else if HasMembership(p) && MembershipTaken(r, p) then Err(DuplicateMembership)
    else Ok((Registry(r.rows[r.nextId := p], r.nextId + 1), r.nextId))
  }

  /** DNIs are unique, and so are complete memberships. */
  predicate Unique(r: Registry) {
    forall i, j :: i in r.rows && j in r.rows && i != j ==>
      && r.rows[i].dni != r.rows[j].dni
      && (HasMembership(r.rows[i]) && HasMembership(r.rows[j]) ==>
            (r.rows[i].socialWork, r.rows[i].memberNo) != (r.rows[j].socialWork, r.rows[j].memberNo))
  }

  lemma {:induction false} CreateKeepsUnique(r: Registry, p: Patient)
    requires r.Valid() && Unique(r)
    requires Create(r, p).Ok?
    ensures Unique(Create(r, p).value.0)
  {
    var (r', id) := Create(r, p).value;
    forall i, j | i in r'.rows && j in r'.rows && i != j && (i == id || j == id)
      ensures r'.rows[i].dni != r'.rows[j].dni
      ensures HasMembership(r'.rows[i]) && HasMembership(r'.rows[j]) ==>
        (r'.rows[i].socialWork, r'.rows[i].memberNo) != (r'.rows[j].socialWork, r'.rows[j].memberNo)
    {
      var other := if i == id then j else i;
      assert other in r.rows && r'.rows[other] == r.rows[other];
    }
  }

  /** Two patients may share a membership as long as one of them lacks a
      member number: only complete pairs are compared. */
  lemma IncompleteMembershipNotChecked()
    ensures var first := Patient("30111222", "Ana", "Paz", None, None, Some(3), None);
      var second := Patient("30111223", "Luis", "Paz", None, None, Some(3), None);
      var r := Create(Registry(map[], 1), first).value.0;
      Create(r, second).Ok?
  {
    var first := Patient("30111222", "Ana", "Paz", None, None, Some(3), None);
    var r := Create(Registry(map[], 1), first).value.0;
    assert r.rows == map[1 := first];
  }

  /** The update payload: the six whitelisted columns. `dni` is not among
      them; a `None` is skipped. */
  datatype Patch = Patch(
    firstName: Option<string>, lastName: Option<string>, birthDate: Option<string>,
    phone: Option<string>, socialWork: Option<int>, memberNo: Option<string>)

  const EmptyPatch := Patch(None, None, None, None, None, None)

  function Patched(p: Patient, u: Patch): Patient {
    Patient(
      p.dni, u.firstName.GetOr(p.firstName), u.lastName.GetOr(p.lastName),
      if u.birthDate.Some? then u.birthDate else p.birthDate,
      if u.phone.Some? then u.phone else p.phone,
      if u.socialWork.Some? then u.socialWork else p.socialWork,
      if u.memberNo.Some? then u.memberNo else p.memberNo)
  }

  /** `update`: not found first, then the empty-patch error. */
  function Update(r: Registry, id: int, u: Patch): (res: Result<Registry, Error>)
    ensures id !in r.rows ==> res == Err(NotFound(id))
    ensures id in r.rows && u == EmptyPatch ==> res == Err(NoFieldsToUpdate)
    ensures res.Ok? ==>
      && id in r.rows && u != EmptyPatch
      && res.value.nextId == r.nextId && res.value.rows.Keys == r.rows.Keys
      && (forall k :: k in r.rows && k != id ==> res.value.rows[k] == r.rows[k])
      && res.value.rows[id].dni == r.rows[id].dni
      && (u.firstName.Some? ==> res.value.rows[id].firstName == u.firstName.value)
      && (u.firstName.None? ==> res.value.rows[id].firstName == r.rows[id].firstName)
      && (u.lastName.Some? ==> res.value.rows[id].lastName == u.lastName.value)
      && (u.lastName.None? ==> res.value.rows[id].lastName == r.rows[id].lastName)
      && (u.birthDate.Some? ==> res.value.rows[id].birthDate == u.birthDate)
      && (u.birthDate.None? ==> res.value.rows[id].birthDate == r.rows[id].birthDate)
      && (u.phone.Some? ==> res.value.rows[id].phone == u.phone)
      && (u.phone.None? ==> res.value.rows[id].phone == r.rows[id].phone)
      && (u.socialWork.Some? ==> res.value.rows[id].socialWork == u.socialWork)
      && (u.socialWork.None? ==> res.value.rows[id].socialWork == r.rows[id].socialWork)
      && (u.memberNo.Some? ==> res.value.rows[id].memberNo == u.memberNo)
      && (u.memberNo.None? ==> res.value.rows[id].memberNo == r.rows[id].memberNo)
    ensures id in r.rows && u != EmptyPatch ==> res.Ok?
  {
    if id !in r.rows then Err(NotFound(id))
    else if u == EmptyPatch then Err(NoFieldsToUpdate)
    else Ok(Registry(r.rows[id := Patched(r.rows[id], u)], r.nextId))
  }

  /** `update` never changes a DNI, so DNI uniqueness survives it. */
  lemma UpdateKeepsDnisUnique(r: Registry, id: int, u: Patch)
    requires forall i, j :: i in r.rows && j in r.rows && i != j ==> r.rows[i].dni != r.rows[j].dni
    requires Update(r, id, u).Ok?
    ensures var r' := Update(r, id, u).value;
      forall i, j :: i in r'.rows && j in r'.rows && i != j ==> r'.rows[i].dni != r'.rows[j].dni
  {
  }

  /** `update` does not repeat the membership check: copying another
      patient's membership is accepted. */
  lemma UpdateCanDuplicateMembership()
    ensures var a := Patient("1", "A", "A", None, None, Some(3), Some("77"));
      var b := Patient("2", "B", "B", None, None, None, None);
      var r := Registry(map[1 := a, 2 := b], 3);
      var res := Update(r, 2, EmptyPatch.(socialWork := Some(3), memberNo := Some("77")));
      Unique(r) && res.Ok? && !Unique(res.value)
  {
    var a := Patient("1", "A", "A", None, None, Some(3), Some("77"));
    var b := Patient("2", "B", "B", None, None, None, None);
    var r := Registry(map[1 := a, 2 := b], 3);
    var r' := Update(r, 2, EmptyPatch.(socialWork := Some(3), memberNo := Some("77"))).value;
    assert r'.rows[1] == a && r'.rows[2].socialWork == Some(3) && r'.rows[2].memberNo == Some("77");
    assert HasMembership(r'.rows[1]) && HasMembership(r'.rows[2]);
  }

  /** `get_by_id`. */
  function GetById(r: Registry, id: int): (res: Result<Patient, Error>)
    ensures res.Ok? <==> id in r.rows
    ensures res.Ok? ==> res.value == r.rows[id]
    ensures res.Err? ==> res.error == NotFound(id)
  {
    if id in r.rows then Ok(r.rows[id]) else Err(NotFound(id))
  }

  /** `delete`: not found for an unknown id, else exactly that row goes. */
  function Delete(r: Registry, id: int): (res: Result<Registry, Error>)
    ensures res.Ok? <==> id in r.rows
    ensures res.Err? ==> res.error == NotFound(id)
    ensures res.Ok? ==> res.value.rows == r.rows - {id} && res.value.nextId == r.nextId
  {
    if id in r.rows then Ok(Registry(r.rows - {id}, r.nextId)) else Err(NotFound(id))
  }

  /** A deleted patient is not found afterwards. */
  lemma DeleteThenGetFails(r: Registry, id: int)
    requires id in r.rows
    ensures GetById(Delete(r, id).value, id) == Err(NotFound(id))
  {
  }
}

=== FILE: patterns.dfy ===
/** The front end's regular expressions, each written as the set of strings
    it accepts: `REGEX` of `constants.js`, the older `REGEX` of
    `utilities.js`, and the CUIT and digit-count tests of the social-work
    schema. `\d` is an ASCII digit and `\s` is `Text.IsSpace`. */
module Patterns {
  import opened Clock
  import opened Text
  import opened Seqs

  predicate IsLower(c: char) {
    'a' <= c <= 'z'
  }

  predicate IsUpper(c: char) {
    'A' <= c <= 'Z'
  }

  /** `[a-zA-ZáéíóúÁÉÍÓÚñÑ\s]`. */
  predicate NameChar(c: char) {
    IsLower(c) || IsUpper(c) || c in "áéíóúÁÉÍÓÚñÑ" || IsSpace(c)
  }

  /** `REGEX.name` (and the identical `REGEX.lastname`): one or more name characters. */
  predicate IsName(s: string) {
    |s| >= 1 && forall i :: 0 <= i < |s| ==> NameChar(s[i])
  }

  /** The older `REGEX.name`: at least two name characters. */
  predicate IsNameOld(s: string) {
    |s| >= 2 && forall i :: 0 <= i < |s| ==> NameChar(s[i])
  }

  /** `REGEX.dni`: `^\d{7,8}$`. */
  predicate IsDni(s: string) {
    7 <= |s| <= 8 && forall i :: 0 <= i < |s| ==> IsDigitChar(s[i])
  }

  /** `[\d\s-]`. */
  predicate PhoneChar(c: char) {
    IsDigitChar(c) || IsSpace(c) || c == '-'
  }

  /** `REGEX.phone`: `^[\d\s-]{10,15}$`. */
  predicate IsPhone(s: string) {
    10 <= |s| <= 15 && forall i :: 0 <= i < |s| ==> PhoneChar(s[i])
  }

  /** The older `REGEX.phone`: `^\d{10,13}$`. */
  predicate IsPhoneOld(s: string) {
    10 <= |s| <= 13 && forall i :: 0 <= i < |s| ==> IsDigitChar(s[i])
  }

  /** The older patterns accept nothing the newer ones reject. */
  lemma OldPatternsAreNarrower(s: string)
    ensures IsNameOld(s) ==> IsName(s)
    ensures IsPhoneOld(s) ==> IsPhone(s)
  {
  }

  /** A one-letter name passes the newer pattern only; a formatted number
      passes the newer phone pattern only. */
  lemma NewerPatternsAreWider()
    ensures IsName("a") && !IsNameOld("a")
    ensures IsPhone("11 4444-5555") && !IsPhoneOld("11 4444-5555")
  {
    assert !IsDigitChar("11 4444-5555"[2]);
  }

  /** `[^\s@]+`: a non-empty run without white space or '@'. */
  predicate IsPlainRun(s: string) {
    |s| >= 1 && forall i :: 0 <= i < |s| ==> !IsSpace(s[i]) && s[i] != '@'
  }

  /** `REGEX.email`, `^[^\s@]+@[^\s@]+\.[^\s@]+$`: some split of the string
      into a run, '@', a run, '.', a run. */
  predicate IsEmail(s: string) {
    exists at, dot :: 0 <= at < dot < |s| && s[at] == '@' && s[dot] == '.' &&
      IsPlainRun(s[..at]) && IsPlainRun(s[at + 1..dot]) && IsPlainRun(s[dot + 1..])
  }

  /** The shape of an accepted address, said without the regex: no white
      space, exactly one '@' and not first, and a '.' after it that is
      neither the first nor the last character of the domain. */
  predicate EmailShape(s: string) {
    && (forall i :: 0 <= i < |s| ==> !IsSpace(s[i]))
    && (exists at :: 0 < at < |s| && s[at] == '@'
         && (forall i :: 0 <= i < |s| && i != at ==> s[i] != '@')
         && (exists dot :: at + 1 < dot < |s| - 1 && s[dot] == '.'))
  }

  lemma EmailShapeIff(s: string)
    ensures IsEmail(s) <==> EmailShape(s)
  {
    if IsEmail(s) {
      EmailHasShape(s);
    }
    if EmailShape(s) {
      ShapeIsEmail(s);
    }
  }

  lemma EmailHasShape(s: string)
    requires IsEmail(s)
    ensures EmailShape(s)
  {
    var at, dot :| 0 <= at < dot < |s| && s[at] == '@' && s[dot] == '.' &&
      IsPlainRun(s[..at]) && IsPlainRun(s[at + 1..dot]) && IsPlainRun(s[dot + 1..]);
    forall i | 0 <= i < |s| && i != at && i != dot ensures !IsSpace(s[i]) && s[i] != '@' {
      if i < at {
        assert s[i] == s[..at][i];
      } else if i < dot {
        assert s[i] == s[at + 1..dot][i - at - 1];
      } else {
        assert s[i] == s[dot + 1..][i - dot - 1];
      }
    }
    assert at + 1 < dot < |s| - 1;
  }

  lemma ShapeIsEmail(s: string)
    requires EmailShape(s)
    ensures IsEmail(s)
  {
    var at :| 0 < at < |s| && s[at] == '@' && (forall i :: 0 <= i < |s| && i != at ==> s[i] != '@')
      && exists dot :: at + 1 < dot < |s| - 1 && s[dot] == '.';
    var dot :| at + 1 < dot < |s| - 1 && s[dot] == '.';
    assert IsPlainRun(s[..at]) && IsPlainRun(s[at + 1..dot]) && IsPlainRun(s[dot + 1..]);
  }

  /** JavaScript's line terminators, which `.` does not match. */
  predicate IsLineTerminator(c: char) {
    c == '\n' || c == '\r' || c == '\U{2028}' || c == '\U{2029}'
  }

  /** The lookahead `(?=.*[...])` at the start: a character of the class
      with no line terminator before it. */
  predicate LookAhead(s: string, p: char -> bool) {
    exists k :: 0 <= k < |s| && p(s[k]) && forall m :: 0 <= m < k ==> !IsLineTerminator(s[m])
  }

  /** `[a-zA-Z\d\S]`. */
  predicate PasswordChar(c: char) {
    IsLower(c) || IsUpper(c) || IsDigitChar(c) || !IsSpace(c)
  }

  /** `REGEX.password`: `^(?=.*[a-z])(?=.*[A-Z])(?=.*\d)[a-zA-Z\d\S]{8,}$`. */
  predicate IsPassword(s: string) {
    && LookAhead(s, IsLower) && LookAhead(s, IsUpper) && LookAhead(s, IsDigitChar)
    && |s| >= 8 && forall i :: 0 <= i < |s| ==> PasswordChar(s[i])
  }

  /** The password pattern asks for eight or more characters, none of them
      white space, among them a lower-case letter, an upper-case letter and
      a digit. */
  lemma PasswordShape(s: string)
    ensures IsPassword(s) <==>
      && |s| >= 8 && (forall i :: 0 <= i < |s| ==> !IsSpace(s[i]))
      && (exists i :: 0 <= i < |s| && IsLower(s[i]))
      && (exists i :: 0 <= i < |s| && IsUpper(s[i]))
      && (exists i :: 0 <= i < |s| && IsDigitChar(s[i]))
  {
    if IsPassword(s) {
      forall i | 0 <= i < |s| ensures !IsSpace(s[i]) {
        assert PasswordChar(s[i]);
      }
    }
    if |s| >= 8 && (forall i :: 0 <= i < |s| ==> !IsSpace(s[i])) {
      forall m | 0 <= m < |s| ensures !IsLineTerminator(s[m]) {
        assert !IsSpace(s[m]);
      }
    }
  }

  /** The social-work CUIT, `^\d{2}-\d{8}-\d{1}$`. */
  predicate IsCuit(s: string) {
    && |s| == 13 && s[2] == '-' && s[11] == '-'
    && forall i :: 0 <= i < |s| && i != 2 && i != 11 ==> IsDigitChar(s[i])
  }

  /** A CUIT carries eleven digits. */
  lemma CuitDigits(s: string)
    requires IsCuit(s)
    ensures |Digits(s)| == 11
  {
    var t := s[..11];
    DigitsSplit(s, 11);
    DigitsSplit(t, 2);
    AllDigits(t[..2]);
    AllDigits(t[3..]);
    AllDigits(s[12..]);
  }

  /** A non-digit splits the digits of a string in two. */
  lemma DigitsSplit(s: string, i: int)
    requires 0 <= i < |s| && !IsDigitChar(s[i])
    ensures Digits(s) == Digits(s[..i]) + Digits(s[i + 1..])
  {
    assert s == s[..i] + [s[i]] + s[i + 1..];
    DigitsIgnoreSeparator(s[..i], s[i + 1..], s[i]);
    FilterAppend(s[..i], s[i + 1..], IsDigitChar);
  }

  /** A string of digits is its own digit string. */
  lemma AllDigits(s: string)
    requires forall i :: 0 <= i < |s| ==> IsDigitChar(s[i])
    ensures |Digits(s)| == |s|
  {
    FilterAll(s, IsDigitChar);
  }

  /** `value.replace(/\D/g, '')`: the digits of the string, in order. */
  function Digits(s: string): (d: string)
    ensures forall i :: 0 <= i < |d| ==> IsDigitChar(d[i])
    ensures IsSubsequence(d, s)
    ensures forall c {:trigger multiset(d)[c]} :: IsDigitChar(c) ==> multiset(d)[c] == multiset(s)[c]
  {
    FilterIsSubsequence(s, IsDigitChar);
    FilterCount(s, IsDigitChar);
    Filter(s, IsDigitChar)
  }

  /** Separators between digits do not change the digits. */
  lemma {:induction false} DigitsIgnoreSeparator(a: string, b: string, sep: char)
    requires !IsDigitChar(sep)
    ensures Digits(a + [sep] + b) == Digits(a + b)
  {
    FilterSkip(a, b, sep, IsDigitChar);
  }
}

=== FILE: reminders.dfy ===
/** The reminder sweep `notificar_recordatorios_turnos`: a step function on
    the appointment book, parameterised by the current time `now`, the id of
    the 'Pendiente' status and the two parties' opt-in flags. */
module Reminders {
  import opened Wrappers
  import opened Clock
  import opened Appointments
  import opened Seqs

  /** The WHERE clause. `pending` is the sub-select for 'Pendiente'; when it
      finds no row it is NULL and no appointment matches. The window is
      `BETWEEN now AND now + 1 day`, both ends included. */
  predicate Due(a: Appointment, now: int, pending: Option<int>) {
    && pending == Some(a.status)
    && !a.reminded
    && now <= a.start <= now + MinutesPerDay
  }

  function DueIds(s: Store, now: int, pending: Option<int>): set<int> {
    set id | id in s.rows && Due(s.rows[id], now, pending)
  }

  datatype Recipient = ToPatient | ToDoctor

  /** A reminder e-mail about one appointment. */
  datatype Mail = Mail(to: Recipient, appointment: int)

  /** The party addressed by `m` has opted in to reminders. */
  predicate Wants(s: Store, m: Mail, patientOptIn: int -> bool, doctorOptIn: int -> bool) {
    && m.appointment in s.rows
    && match m.to
       case ToPatient => patientOptIn(s.rows[m.appointment].patient)
       case ToDoctor => doctorOptIn(s.rows[m.appointment].doctor)
  }

  /** The effect of one sweep: the book afterwards, the returned count, and
      the e-mails attempted. */
  datatype Outcome = Outcome(store: Store, count: nat, mails: set<Mail>)

  function Flagged(a: Appointment): Appointment {
    a.(reminded := true)
  }

  /** The sweep, declaratively: every due appointment is flagged, the count
      is the number due, and each due appointment yields one e-mail to each
      opted-in party. */
  function Sweep(s: Store, now: int, pending: Option<int>, patientOptIn: int -> bool, doctorOptIn: int -> bool): (o: Outcome)
    ensures o.store.nextId == s.nextId && o.store.rows.Keys == s.rows.Keys
    ensures o.count == |DueIds(s, now, pending)|
    ensures forall id :: id in s.rows ==>
      && o.store.rows[id].reminded == (s.rows[id].reminded || Due(s.rows[id], now, pending))
      && o.store.rows[id] == s.rows[id].(reminded := o.store.rows[id].reminded)
    ensures forall m :: m in o.mails <==> m.appointment in DueIds(s, now, pending) && Wants(s, m, patientOptIn, doctorOptIn)
  {
    var due := DueIds(s, now, pending);
    var rows := map id | id in s.rows :: if id in due then Flagged(s.rows[id]) else s.rows[id];
    var mails := set id, to | id in due && to in {ToPatient, ToDoctor} && Wants(s, Mail(to, id), patientOptIn, doctorOptIn) :: Mail(to, id);
    assert forall m :: m in mails <==> m.appointment in due && Wants(s, m, patientOptIn, doctorOptIn) by {
      forall m: Mail | m.appointment in due && Wants(s, m, patientOptIn, doctorOptIn) ensures m in mails {
        assert m == Mail(m.to, m.appointment);
      }
    }
    Outcome(Store(rows, s.nextId), |due|, mails)
  }

  /** A flag once set is never reset, and nothing but the flag changes. */
  lemma FlagsNeverReset(s: Store, now: int, pending: Option<int>, patientOptIn: int -> bool, doctorOptIn: int -> bool, id: int)
    requires id in s.rows && s.rows[id].reminded
    ensures Sweep(s, now, pending, patientOptIn, doctorOptIn).store.rows[id] == s.rows[id]
  {
  }

  /** A second sweep at the same `now` finds nothing due and changes nothing. */
  lemma {:induction false} SweepTwice(s: Store, now: int, pending: Option<int>, patientOptIn: int -> bool, doctorOptIn: int -> bool)
    ensures var s' := Sweep(s, now, pending, patientOptIn, doctorOptIn).store;
      var o := Sweep(s', now, pending, patientOptIn, doctorOptIn);
      o.count == 0 && o.store == s' && o.mails == {}
  {
    var s' := Sweep(s, now, pending, patientOptIn, doctorOptIn).store;
    assert DueIds(s', now, pending) == {} by {
      forall id | id in s'.rows ensures !Due(s'.rows[id], now, pending) {
        assert s'.rows[id].reminded || !Due(s.rows[id], now, pending);
        assert s'.rows[id] == s.rows[id].(reminded := s'.rows[id].reminded);
      }
    }
    var o := Sweep(s', now, pending, patientOptIn, doctorOptIn);
    assert o.store.rows == s'.rows;
    assert forall m :: m !in o.mails;
  }

  /** With no 'Pendiente' status row, nothing is ever due. */
  lemma NoPendingStatusNoReminders(s: Store, now: int, patientOptIn: int -> bool, doctorOptIn: int -> bool)
    ensures Sweep(s, now, None, patientOptIn, doctorOptIn).count == 0
  {
    assert forall id :: id !in DueIds(s, now, None);
  }

  /** Both ends of the window are included: an appointment starting exactly
      now, or exactly one day from now, is reminded. */
  lemma {:induction false} WindowInclusive(s: Store, now: int, pending: int, patientOptIn: int -> bool, doctorOptIn: int -> bool, id: int)
    requires id in s.rows && s.rows[id].status == pending && !s.rows[id].reminded
    requires s.rows[id].start == now || s.rows[id].start == now + MinutesPerDay
    ensures Sweep(s, now, Some(pending), patientOptIn, doctorOptIn).store.rows[id].reminded
  {
  }

  /** Only the flag changes, so the sweep keeps the book free of double
      bookings. */
  lemma {:induction false} SweepKeepsNoDoubleBooking(s: Store, now: int, pending: Option<int>, patientOptIn: int -> bool, doctorOptIn: int -> bool)
    requires NoDoubleBooking(s)
    ensures NoDoubleBooking(Sweep(s, now, pending, patientOptIn, doctorOptIn).store)
  {
    var s' := Sweep(s, now, pending, patientOptIn, doctorOptIn).store;
    forall i, j | i in s'.rows && j in s'.rows && i != j
      ensures var a, b := s'.rows[i], s'.rows[j];
        (a.doctor == b.doctor || a.patient == b.patient) ==> !Overlap(a.start, a.end, b.start, b.end)
    {
      assert s'.rows[i] == s.rows[i].(reminded := s'.rows[i].reminded);
      assert s'.rows[j] == s.rows[j].(reminded := s'.rows[j].reminded);
    }
  }

  /** Some attempt in `sent` was addressed as `m`. */
  predicate Lists(sent: seq<(Mail, bool)>, m: Mail) {
    exists k :: 0 <= k < |sent| && sent[k].0 == m
  }

  lemma ListsAppend(a: seq<(Mail, bool)>, b: seq<(Mail, bool)>, m: Mail)
    ensures Lists(a + b, m) <==> Lists(a, m) || Lists(b, m)
  {
    if Lists(a, m) {
      var k :| 0 <= k < |a| && a[k].0 == m;
      assert (a + b)[k].0 == m;
    }
    if Lists(b, m) {
      var k :| 0 <= k < |b| && b[k].0 == m;
      assert (a + b)[|a| + k].0 == m;
    }
    if Lists(a + b, m) && !Lists(a, m) {
      var k :| 0 <= k < |a + b| && (a + b)[k].0 == m;
      assert b[k - |a|].0 == m;
    }
  }

  /** The body of the loop for one appointment: the patient, then the
      doctor, each only when opted in. */
  method NotifyParties(s: Store, id: int, patientOptIn: int -> bool, doctorOptIn: int -> bool, send: Mail -> bool)
    returns (sent: seq<(Mail, bool)>)
    requires id in s.rows
    ensures forall m :: Lists(sent, m) <==> m.appointment == id && Wants(s, m, patientOptIn, doctorOptIn)
  {
    var row := s.rows[id];
    sent := [];
    if patientOptIn(row.patient) {
      var toPatient := Mail(ToPatient, id);
      sent := sent + [(toPatient, send(toPatient))];
    }
    if doctorOptIn(row.doctor) {
      var toDoctor := Mail(ToDoctor, id);
      sent := sent + [(toDoctor, send(toDoctor))];
    }
    forall m: Mail | m.appointment == id && Wants(s, m, patientOptIn, doctorOptIn)
      ensures Lists(sent, m)
    {
      if m.to == ToPatient {
        assert sent[0].0 == m;
      } else {
        assert sent[|sent| - 1].0 == m;
      }
    }
  }

  /** The loop of `notificar_recordatorios_turnos` over the selected rows:
      e-mail each opted-in party (the send's result is recorded but never
      consulted), then set the flag through `update`. Returns the number of
      rows selected. */
  method RunSweep(s: Store, now: int, pending: Option<int>, selected: seq<int>,
                  patientOptIn: int -> bool, doctorOptIn: int -> bool, send: Mail -> bool)
    returns (s': Store, count: nat, sent: seq<(Mail, bool)>)
    requires Distinct(selected)
    requires forall id :: id in selected <==> id in DueIds(s, now, pending)
    ensures s' == Sweep(s, now, pending, patientOptIn, doctorOptIn).store
    ensures count == Sweep(s, now, pending, patientOptIn, doctorOptIn).count
    ensures forall m :: m in Sweep(s, now, pending, patientOptIn, doctorOptIn).mails <==> Lists(sent, m)
  {
    s' := s;
    sent := [];
    var i := 0;
    while i < |selected|
      invariant 0 <= i <= |selected|
      invariant s'.nextId == s.nextId && s'.rows.Keys == s.rows.Keys
      invariant forall id :: id in s.rows ==>
        s'.rows[id] == if id in selected[..i] then Flagged(s.rows[id]) else s.rows[id]
      invariant forall m :: Lists(sent, m) <==> m.appointment in selected[..i] && Wants(s, m, patientOptIn, doctorOptIn)
    {
      var id := selected[i];
      assert id in selected;
      var out := NotifyParties(s, id, patientOptIn, doctorOptIn, send);
      forall m ensures Lists(sent + out, m) <==> Lists(sent, m) || Lists(out, m) {
        ListsAppend(sent, out, m);
      }
      sent := sent + out;
      s' := Store(s'.rows[id := Flagged(s'.rows[id])], s'.nextId);
      assert selected[..i + 1] == selected[..i] + [id];
      i := i + 1;
    }
    SweepResult(s, now, pending, selected, patientOptIn, doctorOptIn, s', sent);
    count := |selected|;
  }

  /** What the loop leaves behind is the declarative sweep. */
  lemma SweepResult(s: Store, now: int, pending: Option<int>, selected: seq<int>,
                    patientOptIn: int -> bool, doctorOptIn: int -> bool, s': Store, sent: seq<(Mail, bool)>)
    requires Distinct(selected)
    requires forall id :: id in selected <==> id in DueIds(s, now, pending)
    requires s'.nextId == s.nextId && s'.rows.Keys == s.rows.Keys
    requires forall id :: id in s.rows ==>
      s'.rows[id] == if id in selected[..|selected|] then Flagged(s.rows[id]) else s.rows[id]
    requires forall m :: Lists(sent, m) <==> m.appointment in selected[..|selected|] && Wants(s, m, patientOptIn, doctorOptIn)
    ensures s' == Sweep(s, now, pending, patientOptIn, doctorOptIn).store
    ensures |selected| == Sweep(s, now, pending, patientOptIn, doctorOptIn).count
    ensures forall m :: m in Sweep(s, now, pending, patientOptIn, doctorOptIn).mails <==> Lists(sent, m)
  {
    var o := Sweep(s, now, pending, patientOptIn, doctorOptIn);
    assert selected[..|selected|] == selected;
    var chosen := set x | x in selected;
    assert forall x :: x in chosen <==> x in DueIds(s, now, pending);
    assert chosen == DueIds(s, now, pending);
    DistinctCard(selected);
    forall id | id in s.rows ensures s'.rows[id] == o.store.rows[id] {
      assert id in selected <==> Due(s.rows[id], now, pending);
    }
    assert s'.rows == o.store.rows;
  }

  /** The flag write of the loop is `update` with the one column
      `recordatorio_notificado`. */
  lemma FlagWriteIsUpdate(s: Store, id: int)
    requires id in s.rows && StartsUnique(s)
    ensures Update(s, id, EmptyPatch.(reminded := Some(true))) == Ok(Some(Store(s.rows[id := Flagged(s.rows[id])], s.nextId)))
  {
  }

  datatype SweepError = UnexpectedError

  /** The sweep as written: the patient record is a dictionary, so reading
      `p.usuario` raises, which is re-raised as a `ValueError` before any
      e-mail or flag, as soon as one appointment is due. */
  function SweepAsWritten(s: Store, now: int, pending: Option<int>): (r: (Store, Result<nat, SweepError>))
    ensures r.0 == s
    ensures r.1.Ok? <==> DueIds(s, now, pending) == {}
  {
    if DueIds(s, now, pending) == {} then (s, Ok(0))
    else (s, Err(UnexpectedError))
  }

  /** As written, an appointment due in one hour is never reminded, while
      the corrected sweep flags it and reports one. */
  lemma SweepAsWrittenFails(patientOptIn: int -> bool, doctorOptIn: int -> bool)
    ensures var s := Store(map[1 := Appointment(660, 690, 1, 5, 7, None, false)], 2);
      && SweepAsWritten(s, 600, Some(1)) == (s, Err(UnexpectedError))
      && Sweep(s, 600, Some(1), patientOptIn, doctorOptIn).count == 1
      && Sweep(s, 600, Some(1), patientOptIn, doctorOptIn).store.rows[1].reminded
  {
    var s := Store(map[1 := Appointment(660, 690, 1, 5, 7, None, false)], 2);
    assert DueIds(s, 600, Some(1)) == {1};
  }

  /** When nothing is due the two versions agree. */
  lemma SweepAsWrittenAgreesWhenIdle(s: Store, now: int, pending: Option<int>, patientOptIn: int -> bool, doctorOptIn: int -> bool)
    requires DueIds(s, now, pending) == {}
    ensures var o := Sweep(s, now, pending, patientOptIn, doctorOptIn);
      SweepAsWritten(s, now, pending) == (o.store, Ok(o.count))
  {
    var o := Sweep(s, now, pending, patientOptIn, doctorOptIn);
    assert o.store.rows == s.rows;
  }
}

=== FILE: rules.dfy ===
/** `commonRules`: the atomic field rules the form schemas are built from.
    A rule answers `None` (the `null` of a valid value) or the message to
    show. A form is a map from field name to the text typed in it; a field
    left out reads as the empty string, which JavaScript treats as false,
    like `undefined`. */
module Rules {
  import opened Wrappers
  import opened Text
  import opened Patterns

  type Form = map<string, string>

  /** `formData[key]`, with a missing field read as "". */
  function Get(form: Form, key: string): string {
    if key in form then form[key] else ""
  }

  /** What the page cannot compute itself: today's date (midnight, as a day
      number) and the day number of `new Date(year, month - 1, day)` for the
      "yyyy-MM-dd" text of a date input; `None` is the invalid date that
      `split("-").map(Number)` makes of malformed text. */
  datatype Env = Env(today: int, dateOf: string -> Option<int>)

  /** `commonRules.name`. */
  function Name(v: string): (r: Option<string>)
    ensures v == "" ==> r == Some("Este campo es requerido.")
    ensures r.None? <==> IsName(v)
    ensures v != "" && r.Some? ==> r == Some("Inválido (solo letras).")
  {
    if v == "" then Some("Este campo es requerido.")
    else if !IsName(v) then Some("Inválido (solo letras).")
    else None
  }

  /** `commonRules.dni`: seven or eight digits. */
  function Dni(v: string): (r: Option<string>)
    ensures v == "" ==> r == Some("El DNI es requerido.")
    ensures r.None? <==> 7 <= |v| <= 8 && forall i :: 0 <= i < |v| ==> Clock.IsDigitChar(v[i])
    ensures v != "" && r.Some? ==> r == Some("DNI inválido (7-8 números).")
  {
    if v == "" then Some("El DNI es requerido.")
    else if !IsDni(v) then Some("DNI inválido (7-8 números).")
    else None
  }

  /** `commonRules.telephone`: 10 to 15 digits, spaces and dashes. */
  function Telephone(v: string): (r: Option<string>)
    ensures v == "" ==> r == Some("El teléfono es requerido.")
    ensures r.None? <==> 10 <= |v| <= 15 && forall i :: 0 <= i < |v| ==> PhoneChar(v[i])
    ensures v != "" && r.Some? ==> r == Some("Teléfono inválido (10-13 números).")
  {
    if v == "" then Some("El teléfono es requerido.")
    else if !IsPhone(v) then Some("Teléfono inválido (10-13 números).")
    else None
  }

  /** `commonRules.email`. */
  function Email(v: string): (r: Option<string>)
    ensures v == "" ==> r == Some("El correo es requerido.")
    ensures r.None? <==> IsEmail(v)
    ensures v != "" && r.Some? ==> r == Some("Formato de correo inválido.")
  {
    if v == "" then Some("El correo es requerido.")
    else if !IsEmail(v) then Some("Formato de correo inválido.")
    else None
  }

  /** The e-mail rule accepts exactly the addresses with one '@', no white
      space, a non-empty local part and an inner '.' in the domain. */
  lemma EmailAccepts(v: string)
    ensures Email(v).None? <==> EmailShape(v)
  {
    EmailShapeIff(v);
  }

  /** `commonRules.password`. */
  function Password(v: string): (r: Option<string>)
    ensures v == "" ==> r == Some("La contraseña es requerida.")
    ensures r.None? <==> IsPassword(v)
    ensures v != "" && r.Some? ==> r == Some("Mín. 8 caracteres, 1 mayús., 1 minús. y 1 núm.")
  {
    if v == "" then Some("La contraseña es requerida.")
    else if !IsPassword(v) then Some("Mín. 8 caracteres, 1 mayús., 1 minús. y 1 núm.")
    else None
  }

  /** The password rule accepts exactly eight or more non-space characters
      with a lower-case letter, an upper-case letter and a digit. */
  lemma PasswordAccepts(v: string)
    ensures Password(v).None? <==>
      && |v| >= 8 && (forall i :: 0 <= i < |v| ==> !IsSpace(v[i]))
      && (exists i :: 0 <= i < |v| && IsLower(v[i]))
      && (exists i :: 0 <= i < |v| && IsUpper(v[i]))
      && (exists i :: 0 <= i < |v| && Clock.IsDigitChar(v[i]))
  {
    PasswordShape(v);
  }

  /** `commonRules.simpleRequired(fieldName)`. */
  function SimpleRequired(fieldName: string, v: string): (r: Option<string>)
    ensures r.None? <==> v != ""
    ensures r.Some? ==> r.value == "El " + fieldName + " es requerido."
  {
    if v == "" then Some("El " + fieldName + " es requerido.") else None
  }

  /** `commonRules.birthDate`: a date after today is refused; an invalid
      date compares false and passes. */
  function BirthDate(v: string, env: Env): (r: Option<string>)
    ensures v == "" ==> r == Some("La fecha es requerida.")
    ensures r == Some("La fecha no puede ser futura.") <==>
      v != "" && env.dateOf(v).Some? && env.dateOf(v).value > env.today
    ensures r.None? <==> v != "" && (env.dateOf(v).None? || env.dateOf(v).value <= env.today)
  {
    if v == "" then Some("La fecha es requerida.")
    else match env.dateOf(v)
      case None => None
      case Some(d) => if d > env.today then Some("La fecha no puede ser futura.") else None
  }

  /** Today's date is a valid birth date; tomorrow's is not. */
  lemma BirthDateBoundary(v: string, w: string, env: Env)
    requires v != "" && env.dateOf(v) == Some(env.today)
    requires w != "" && env.dateOf(w) == Some(env.today + 1)
    ensures BirthDate(v, env).None? && BirthDate(w, env).Some?
  {
  }

  /** Every format rule asks for the value before judging its format: the
      empty value gets the "required" message, never the format one. */
  lemma RequiredComesFirst(env: Env)
    ensures Name("") == Some("Este campo es requerido.")
    ensures Dni("") == Some("El DNI es requerido.")
    ensures Telephone("") == Some("El teléfono es requerido.")
    ensures Email("") == Some("El correo es requerido.")
    ensures Password("") == Some("La contraseña es requerida.")
    ensures BirthDate("", env) == Some("La fecha es requerida.")
  {
  }
}

=== FILE: schedule_panel.dfy ===
/** The admin's weekly-availability editor: a temporary list of windows in
    which each weekday may hold at most one window. The form's field rules
    are an abstract predicate `valid`: the `adminDoctorScheduleSchema` the
    code imports is exported by no module (see `AddSlotAsWritten`); the
    fresh id `Date.now() + Math.random()` is the parameter `freshId`. */
module SchedulePanel {
  import opened Wrappers
  import opened Seqs

  /** An entry of `schedule`; the times are kept as the form's strings. */
  datatype Slot = Slot(id: int, dayOfWeek: int, startTime: string, endTime: string, duration: string)

  /** The form's weekday select: the empty "Seleccionar día" option or a
      weekday number 0..6. */
  datatype FormDay = NoDay | Day(n: int)

  datatype Form = Form(dayOfWeek: FormDay, startTime: string, endTime: string, duration: string)

  /** `initialFormState`. */
  const InitialForm := Form(NoDay, "", "", "30")

  /** `Number(formData.dayOfWeek)`: the empty string becomes 0. */
  function DayNumber(d: FormDay): int {
    match d
    case NoDay => 0
    case Day(n) => n
  }

  /** `String(s.dayOfWeek) === String(formData.dayOfWeek)`. */
  predicate SameDay(s: Slot, d: FormDay) {
    d.Day? && s.dayOfWeek == d.n
  }

  datatype Outcome = Invalid | DayTaken | Added

  /** `handleAddSlot`: the new schedule, the new form and what happened. */
  function AddSlot(schedule: seq<Slot>, form: Form, valid: Form -> bool, freshId: int)
    : (r: (seq<Slot>, Form, Outcome))
    ensures !valid(form) ==> r == (schedule, form, Invalid)
    ensures valid(form) && (exists i :: 0 <= i < |schedule| && SameDay(schedule[i], form.dayOfWeek)) ==>
      r == (schedule, form, DayTaken)
    ensures r.2 == Added <==> valid(form) && forall i :: 0 <= i < |schedule| ==> !SameDay(schedule[i], form.dayOfWeek)
    ensures r.2 == Added ==>
      && r.0 == schedule + [Slot(freshId, DayNumber(form.dayOfWeek), form.startTime, form.endTime, form.duration)]
      && r.1 == InitialForm
  {
    if !valid(form) then (schedule, form, Invalid)
    else if exists i :: 0 <= i < |schedule| && SameDay(schedule[i], form.dayOfWeek) then (schedule, form, DayTaken)
    else
      (schedule + [Slot(freshId, DayNumber(form.dayOfWeek), form.startTime, form.endTime, form.duration)], InitialForm, Added)
  }

  /** `handleAddSlot` as written: the editor imports `adminDoctorScheduleSchema`
      from the validations module, which exports no such name. `schema` is
      what that import binds, `None` when it is `undefined`: then
      `Object.keys(undefined)` throws before the form is read or any state
      is set, and the result is `None`. With a bound schema the handler is
      `AddSlot`. */
  function AddSlotAsWritten(schedule: seq<Slot>, form: Form, schema: Option<Form -> bool>, freshId: int)
    : (r: Option<(seq<Slot>, Form, Outcome)>)
    ensures schema.None? ==> r.None?
    ensures schema.Some? ==> r.Some? && r.value == AddSlot(schedule, form, schema.value, freshId)
  {
    if schema.None? then None else Some(AddSlot(schedule, form, schema.value, freshId))
  }

  /** With the missing export, even a well-formed window for a free
      weekday is never added, while the intended handler adds it. */
  lemma AddSlotAsWrittenFails()
    ensures var form := Form(Day(1), "09:00", "17:00", "30");
      && AddSlotAsWritten([], form, None, 1).None?
      && AddSlot([], form, (f: Form) => f.dayOfWeek.Day?, 1).2 == Added
      && AddSlot([], form, (f: Form) => f.dayOfWeek.Day?, 1).0 == [Slot(1, 1, "09:00", "17:00", "30")]
  {
  }

  /** `handleDeleteSlot`: every entry with that id goes; the rest keep their order. */
  function DeleteSlot(schedule: seq<Slot>, id: int): (r: seq<Slot>)
    ensures forall i :: 0 <= i < |r| ==> r[i].id != id
    ensures forall i :: 0 <= i < |schedule| && schedule[i].id != id ==> schedule[i] in r
    ensures IsSubsequence(r, schedule)
  {
    FilterIsSubsequence(schedule, (s: Slot) => s.id != id);
    Filter(schedule, (s: Slot) => s.id != id)
  }

  /** No weekday has two windows. */
  predicate OnePerWeekday(schedule: seq<Slot>) {
    forall i, j :: 0 <= i < j < |schedule| ==> schedule[i].dayOfWeek != schedule[j].dayOfWeek
  }

  /** A window added for a chosen weekday keeps one window per weekday. */
  lemma {:induction false} AddKeepsOnePerWeekday(schedule: seq<Slot>, form: Form, valid: Form -> bool, freshId: int)
    requires OnePerWeekday(schedule) && form.dayOfWeek.Day?
    ensures OnePerWeekday(AddSlot(schedule, form, valid, freshId).0)
  {
    var r := AddSlot(schedule, form, valid, freshId);
    if r.2 == Added {
      var s := r.0;
      forall i, j | 0 <= i < j < |s| ensures s[i].dayOfWeek != s[j].dayOfWeek {
        if j == |schedule| {
          assert !SameDay(schedule[i], form.dayOfWeek);
        } else {
          assert s[i] == schedule[i] && s[j] == schedule[j];
        }
      }
    }
  }

  /** With the weekday left empty the clash test finds nothing, and
      `Number("")` is 0: a validator that lets the empty weekday through
      adds a second Sunday window. */
  lemma EmptyDayAddsSecondSunday()
    ensures var schedule := [Slot(1, 0, "09:00", "12:00", "30")];
      var r := AddSlot(schedule, Form(NoDay, "14:00", "18:00", "30"), (f: Form) => true, 2);
      OnePerWeekday(schedule) && r.2 == Added && !OnePerWeekday(r.0)
  {
    var schedule := [Slot(1, 0, "09:00", "12:00", "30")];
    var r := AddSlot(schedule, Form(NoDay, "14:00", "18:00", "30"), (f: Form) => true, 2);
    assert r.0[0].dayOfWeek == r.0[1].dayOfWeek;
  }

  /** A subsequence of a list with one window per weekday has one too. */
  lemma {:induction false} SubsequenceKeepsOnePerWeekday(a: seq<Slot>, b: seq<Slot>)
    requires IsSubsequence(a, b) && OnePerWeekday(b)
    ensures OnePerWeekday(a)
    decreases |b|
  {
    if a != [] && b != [] {
      var b' := b[1..];
      assert OnePerWeekday(b') by {
        forall i, j | 0 <= i < j < |b'| ensures b'[i].dayOfWeek != b'[j].dayOfWeek {
          assert b'[i] == b[i + 1] && b'[j] == b[j + 1];
        }
      }
      if a[0] == b[0] && IsSubsequence(a[1..], b') {
        SubsequenceKeepsOnePerWeekday(a[1..], b');
        SubsequenceMembers(a[1..], b');
        forall i, j | 0 <= i < j < |a| ensures a[i].dayOfWeek != a[j].dayOfWeek {
          if i == 0 {
            assert a[j] == a[1..][j - 1] && a[1..][j - 1] in a[1..];
            assert a[j] in b';
            var k :| 0 <= k < |b'| && b'[k] == a[j];
            assert b[k + 1] == a[j];
          } else {
            assert a[i] == a[1..][i - 1] && a[j] == a[1..][j - 1];
          }
        }
      } else {
        SubsequenceKeepsOnePerWeekday(a, b');
      }
    }
  }

  /** Deleting keeps one window per weekday. */
  lemma DeleteKeepsOnePerWeekday(schedule: seq<Slot>, id: int)
    requires OnePerWeekday(schedule)
    ensures OnePerWeekday(DeleteSlot(schedule, id))
  {
    SubsequenceKeepsOnePerWeekday(DeleteSlot(schedule, id), schedule);
  }

  /** The windows drawn in the column of weekday `d`. */
  function Column(schedule: seq<Slot>, d: int): (r: seq<Slot>)
    ensures forall i :: 0 <= i < |r| ==> r[i].dayOfWeek == d && r[i] in schedule
    ensures forall i :: 0 <= i < |schedule| && schedule[i].dayOfWeek == d ==> schedule[i] in r
  {
    Filter(schedule, (s: Slot) => s.dayOfWeek == d)
  }

  /** With one window per weekday every column draws at most one window. */
  lemma {:induction false} ColumnAtMostOne(schedule: seq<Slot>, d: int)
    requires OnePerWeekday(schedule)
    ensures |Column(schedule, d)| <= 1
  {
    var c := Column(schedule, d);
    FilterIsSubsequence(schedule, (s: Slot) => s.dayOfWeek == d);
    SubsequenceKeepsOnePerWeekday(c, schedule);
  }
}

=== FILE: schemas.dfy ===
/** The form schemas: for each form, the rule run on each of its fields
    (`adminSchemas.js`, `shiftSchemas.js`, `authSchemas.js`). A field's
    rule sees its own value and the whole form. */
module Schemas {
  import opened Wrappers
  import opened Text
  import opened Patterns
  import opened Rules

  /** A rule's answer inside a schema. `Throws` is the TypeError raised by a
      rule that calls an undefined function. */
  datatype Verdict = Pass | Fail(message: string) | Throws

  function Lift(o: Option<string>): (v: Verdict)
    ensures v == Pass <==> o.None?
    ensures o.Some? ==> v == Fail(o.value)
  {
    if o.None? then Pass else Fail(o.value)
  }

  // ---- medicationValidationSchema ----

  const MedicationFields: set<string> := {"name", "dosage", "instructions"}

  function Medication(field: string, form: Form): (v: Verdict)
    requires field in MedicationFields
    ensures field == "instructions" ==> v == Pass
    ensures v != Throws
  {
    if field == "name" then Lift(SimpleRequired("nombre", Get(form, field)))
    else if field == "dosage" then Lift(SimpleRequired("dosis", Get(form, field)))
    else Pass
  }

  predicate MedicationPasses(form: Form) {
    forall f :: f in MedicationFields ==> Medication(f, form) == Pass
  }

  /** A medication form passes iff it names the drug and its dosage. */
  lemma MedicationAccepts(form: Form)
    ensures MedicationPasses(form) <==> Get(form, "name") != "" && Get(form, "dosage") != ""
  {
    assert Medication("name", form) == Pass <==> Get(form, "name") != "";
    assert Medication("dosage", form) == Pass <==> Get(form, "dosage") != "";
  }

  // ---- adminCreatePatientSchema ----

  const PatientFields: set<string> :=
    {"firstName", "lastName", "dni", "telephone", "birthDate", "email", "membershipNumber", "socialWorkId"}

  /** `lastName` calls `registerValidationSchema.lastname`, which is the
      `commonRules.lastname` that `commonRules` does not define. */
  function CreatePatient(field: string, form: Form, env: Env): (v: Verdict)
    requires field in PatientFields
    ensures field == "lastName" <==> v == Throws
    ensures field == "firstName" ==> v == Lift(Name(Get(form, field))) && (v == Pass <==> IsName(Get(form, field)))
    ensures field == "dni" ==> v == Lift(Dni(Get(form, field))) && (v == Pass <==> IsDni(Get(form, field)))
    ensures field == "telephone" ==> v == Lift(Telephone(Get(form, field))) && (v == Pass <==> IsPhone(Get(form, field)))
    ensures field == "birthDate" ==> v == Lift(BirthDate(Get(form, field), env))
    ensures field == "email" ==> v == Lift(Email(Get(form, field))) && (v == Pass <==> IsEmail(Get(form, field)))
    ensures field == "membershipNumber" ==>
      (v == Pass <==> !(Get(form, "socialWorkId") != "" && Get(form, "membershipNumber") == ""))
    ensures field == "socialWorkId" ==>
      (v == Pass <==> !(Get(form, "socialWorkId") == "" && Get(form, "membershipNumber") != ""))
  {
    var value := Get(form, field);
    if field == "firstName" then Lift(Name(value))
    else if field == "lastName" then Throws
    else if field == "dni" then Lift(Dni(value))
    else if field == "telephone" then Lift(Telephone(value))
    else if field == "birthDate" then Lift(BirthDate(value, env))
    else if field == "email" then Lift(Email(value))
    else if field == "membershipNumber" then
      if Get(form, "socialWorkId") != "" && value == "" then Fail("El N° de afiliado es requerido si tiene obra social.")
      else Pass
    else
      if value == "" && Get(form, "membershipNumber") != "" then Fail("Seleccione una obra social.")
      else Pass
  }

  /** The membership number and the social work pass together iff both are
      given or both are left empty. */
  lemma PatientMembershipPair(form: Form, env: Env)
    ensures CreatePatient("membershipNumber", form, env) == Pass && CreatePatient("socialWorkId", form, env) == Pass
      <==> (Get(form, "membershipNumber") == "" <==> Get(form, "socialWorkId") == "")
  {
  }

  // ---- adminCreateDoctorSchema ----

  const DoctorFields: set<string> :=
    {"firstName", "lastName", "dni", "telephone", "email", "licenseNumber", "specialtyId"}

  function CreateDoctor(field: string, form: Form): (v: Verdict)
    requires field in DoctorFields
    ensures field == "lastName" <==> v == Throws
    ensures field in {"licenseNumber", "specialtyId"} ==> (v == Pass <==> Get(form, field) != "")
    ensures field in {"firstName", "dni", "telephone", "email"} && Get(form, field) == "" ==> v.Fail?
    ensures field == "firstName" ==> v == Lift(Name(Get(form, field))) && (v == Pass <==> IsName(Get(form, field)))
    ensures field == "dni" ==> v == Lift(Dni(Get(form, field))) && (v == Pass <==> IsDni(Get(form, field)))
    ensures field == "telephone" ==> v == Lift(Telephone(Get(form, field))) && (v == Pass <==> IsPhone(Get(form, field)))
    ensures field == "email" ==> v == Lift(Email(Get(form, field))) && (v == Pass <==> IsEmail(Get(form, field)))
  {
    var value := Get(form, field);
    if field == "firstName" then Lift(Name(value))
    else if field == "lastName" then Throws
    else if field == "dni" then Lift(Dni(value))
    else if field == "telephone" then Lift(Telephone(value))
    else if field == "email" then Lift(Email(value))
    else if field == "licenseNumber" then Lift(SimpleRequired("número de matrícula", value))
    else Lift(SimpleRequired("especialidad", value))
  }

  // ---- adminCreateSocialWorkSchema ----

  const SocialWorkFields: set<string> := {"name", "cuit", "telephone", "address", "email"}

  function CreateSocialWork(field: string, form: Form): (v: Verdict)
    requires field in SocialWorkFields
    ensures v != Throws
    ensures field == "name" ==> (v == Pass <==> |Get(form, field)| >= 3)
    ensures field == "address" ==> (v == Pass <==> |Get(form, field)| >= 5)
    ensures field == "cuit" ==> (v == Pass <==> IsCuit(Get(form, field)))
    ensures field == "telephone" ==> (v == Pass <==> |Digits(Get(form, field))| >= 10)
    ensures field == "email" ==> (v == Pass <==> EmailShape(Get(form, field)))
  {
    var value := Get(form, field);
    if field == "name" then
      if value == "" then Fail("El nombre es requerido.")
      else if |value| < 3 then Fail("El nombre debe tener al menos 3 caracteres.")
      else Pass
    else if field == "cuit" then
      if value == "" then Fail("El CUIT es requerido.")
      else if !IsCuit(value) then Fail("Formato inválido (XX-XXXXXXXX-X).")
      else Pass
    else if field == "telephone" then
      if value == "" then Fail("El teléfono es requerido.")
      else if |Digits(value)| < 10 then Fail("Mínimo 10 dígitos numéricos.")
      else Pass
    else if field == "address" then
      if value == "" then Fail("La dirección es requerida.")
      else if |value| < 5 then Fail("Mínimo 5 caracteres.")
      else Pass
    else
      EmailAccepts(value);
      Lift(Email(value))
  }

  /** Dashes and spaces in a social work's telephone do not matter: a
      separator added between digits keeps the verdict. */
  lemma SocialWorkPhoneIgnoresSeparators(form: Form, a: string, b: string, sep: char)
    requires !Clock.IsDigitChar(sep) && a + b != ""
    ensures CreateSocialWork("telephone", form["telephone" := a + [sep] + b]) ==
            CreateSocialWork("telephone", form["telephone" := a + b])
  {
    DigitsIgnoreSeparator(a, b, sep);
    assert Get(form["telephone" := a + [sep] + b], "telephone") == a + [sep] + b;
    assert Get(form["telephone" := a + b], "telephone") == a + b;
  }

  /** A well-formed CUIT passes; the same digits without dashes do not. */
  lemma CuitNeedsDashes(form: Form)
    ensures CreateSocialWork("cuit", form["cuit" := "30-54678923-1"]) == Pass
    ensures CreateSocialWork("cuit", form["cuit" := "30546789231"]).Fail?
  {
    assert Get(form["cuit" := "30-54678923-1"], "cuit") == "30-54678923-1";
    assert Get(form["cuit" := "30546789231"], "cuit") == "30546789231";
  }

  // ---- adminCreateSpecialtySchema ----

  const SpecialtyFields: set<string> := {"name", "description"}

  function CreateSpecialty(field: string, form: Form): (v: Verdict)
    requires field in SpecialtyFields
    ensures field == "name" ==> (v == Pass <==> |Get(form, field)| >= 3)
    ensures field == "description" ==> (v == Pass <==> |Get(form, field)| >= 10)
    ensures v != Throws
  {
    var value := Get(form, field);
    if field == "name" then
      if value == "" then Fail("El nombre es requerido.")
      else if |value| < 3 then Fail("Mínimo 3 caracteres.")
      else Pass
    else
      if value == "" then Fail("La descripción es requerida.")
      else if |value| < 10 then Fail("Mínimo 10 caracteres.")
      else Pass
  }

  // ---- newShiftSchema ----

  const NewShiftFields: set<string> := {"specialty", "doctor", "date", "time", "reason"}

  /** The reason rule: refused when empty or white space only, then when
      shorter than five characters, white space included. */
  function Reason(v: string): (r: Option<string>)
    ensures r.None? <==> !AllSpace(v) && |v| >= 5
    ensures AllSpace(v) ==> r == Some("El motivo de consulta es obligatorio.")
  {
    if v == "" || Trim(v) == "" then Some("El motivo de consulta es obligatorio.")
    else if |v| < 5 then Some("El motivo es muy corto (mínimo 5 caracteres).")
    else None
  }

  function NewShift(field: string, form: Form): (v: Verdict)
    requires field in NewShiftFields
    ensures field != "reason" ==> (v == Pass <==> Get(form, field) != "")
    ensures field == "reason" ==> v == Lift(Reason(Get(form, field)))
  {
    var value := Get(form, field);
    if field == "specialty" then Lift(SimpleRequired("especialidad", value))
    else if field == "doctor" then Lift(SimpleRequired("médico", value))
    else if field == "date" then Lift(SimpleRequired("fecha", value))
    else if field == "time" then Lift(SimpleRequired("horario", value))
    else Lift(Reason(value))
  }

  /** `reason.replace(/\s/g, "")`: the reason without its white space. */
  function Visible(v: string): (w: string)
    ensures |w| <= |v|
    ensures forall i :: 0 <= i < |w| ==> !IsSpace(w[i])
    ensures Seqs.IsSubsequence(w, v)
    ensures forall c {:trigger multiset(w)[c]} :: !IsSpace(c) ==> multiset(w)[c] == multiset(v)[c]
  {
    var keep := (c: char) => !IsSpace(c);
    Seqs.FilterIsSubsequence(v, keep);
    Seqs.FilterCount(v, keep);
    Seqs.Filter(v, keep)
  }

  /** The confirm button's test, five characters that are not white space,
      is enough for the schema. */
  lemma {:induction false} ConfirmableReasonPasses(v: string)
    requires |Visible(v)| >= 5
    ensures Reason(v).None?
  {
    var w := Visible(v);
    assert w[0] in v && !IsSpace(w[0]);
    var i :| 0 <= i < |v| && v[i] == w[0];
  }

  /** The schema accepts reasons the confirm button refuses: "a b c" has
      five characters but only three visible ones. */
  lemma SpacedReasonPassesSchemaOnly()
    ensures Reason("a b c").None? && |Visible("a b c")| < 5
  {
    assert !AllSpace("a b c") by {
      assert !IsSpace("a b c"[0]);
    }
    assert |Visible("a b c")| == 3;
  }

  // ---- registerValidationSchema ----

  /** The schema's `lastname` entry is `commonRules.lastname`, which is
      undefined: the register schema has no rule for it. */
  const RegisterFields: set<string> :=
    {"name", "dni", "telephone", "birthDate", "email", "confirmEmail", "password", "confirmPassword"}

  function Register(field: string, form: Form, env: Env): (v: Verdict)
    requires field in RegisterFields
    ensures field == "confirmEmail" ==> (v == Pass <==> Get(form, "confirmEmail") == Get(form, "email"))
    ensures field == "confirmPassword" ==> (v == Pass <==> Get(form, "confirmPassword") == Get(form, "password"))
    ensures field == "password" ==> (v == Pass <==> IsPassword(Get(form, "password")))
    ensures field == "name" ==> v == Lift(Name(Get(form, field))) && (v == Pass <==> IsName(Get(form, field)))
    ensures field == "dni" ==> v == Lift(Dni(Get(form, field))) && (v == Pass <==> IsDni(Get(form, field)))
    ensures field == "telephone" ==> v == Lift(Telephone(Get(form, field))) && (v == Pass <==> IsPhone(Get(form, field)))
    ensures field == "birthDate" ==> v == Lift(BirthDate(Get(form, field), env))
    ensures field == "email" ==> v == Lift(Email(Get(form, field))) && (v == Pass <==> IsEmail(Get(form, field)))
    ensures v != Throws
  {
    var value := Get(form, field);
    if field == "name" then Lift(Name(value))
    else if field == "dni" then Lift(Dni(value))
    else if field == "telephone" then Lift(Telephone(value))
    else if field == "birthDate" then Lift(BirthDate(value, env))
    else if field == "email" then Lift(Email(value))
    else if field == "confirmEmail" then
      if value != Get(form, "email") then Fail("Los correos no coinciden.") else Pass
    else if field == "password" then Lift(Password(value))
    else
      if value != Get(form, "password") then Fail("Las contraseñas no coinciden.") else Pass
  }

  /** A register form whose e-mail passes and whose confirmation matches it
      passes both; an empty pair fails on the e-mail, not the confirmation. */
  lemma ConfirmEmailFollowsEmail(form: Form, env: Env)
    requires Get(form, "confirmEmail") == Get(form, "email")
    ensures Register("confirmEmail", form, env) == Pass
    ensures Register("email", form, env) == Pass <==> EmailShape(Get(form, "email"))
  {
    EmailAccepts(Get(form, "email"));
  }

  // ---- loginValidationSchema and forgotPasswordValidationSchema ----

  const LoginFields: set<string> := {"email", "password", "role"}

  /** The login password is only required: its format is not checked. */
  function Login(field: string, form: Form): (v: Verdict)
    requires field in LoginFields
    ensures field == "email" ==> (v == Pass <==> IsEmail(Get(form, field)))
    ensures field != "email" ==> (v == Pass <==> Get(form, field) != "")
  {
    var value := Get(form, field);
    if field == "email" then Lift(Email(value))
    else if field == "password" then
      if value == "" then Fail("La contraseña es requerida.") else Pass
    else
      if value == "" then Fail("Debes seleccionar un rol.") else Pass
  }

  /** A password the register form refuses still passes the login form. */
  lemma LoginAcceptsAnyPassword(form: Form)
    requires Get(form, "password") == "abc"
    ensures Login("password", form) == Pass && !IsPassword(Get(form, "password"))
  {
  }

  const ForgotFields: set<string> := {"email"}

  function ForgotPassword(field: string, form: Form): (v: Verdict)
    requires field in ForgotFields
    ensures v == Lift(Email(Get(form, "email")))
  {
    Lift(Email(Get(form, field)))
  }

  /** The forgot-password form is the login form's e-mail rule. */
  lemma ForgotIsLoginEmail(form: Form)
    ensures ForgotPassword("email", form) == Login("email", form)
  {
  }

  // ---- securityValidationSchema ----

  const SecurityFields: set<string> := {"currentPassword", "newPassword", "confirmPassword"}

  function Security(field: string, form: Form): (v: Verdict)
    requires field in SecurityFields
    ensures field == "currentPassword" ==> (v == Pass <==> Get(form, field) != "")
    ensures field == "newPassword" ==> (v == Pass <==> IsPassword(Get(form, field)))
    ensures field == "confirmPassword" ==> (v == Pass <==> Get(form, "confirmPassword") == Get(form, "newPassword"))
  {
    var value := Get(form, field);
    if field == "currentPassword" then
      if value == "" then Fail("La contraseña actual es requerida.") else Pass
    else if field == "newPassword" then Lift(Password(value))
    else
      if value != Get(form, "newPassword") then Fail("Las contraseñas no coinciden.") else Pass
  }

  predicate SecurityPasses(form: Form) {
    forall f :: f in SecurityFields ==> Security(f, form) == Pass
  }

  /** A password change passes iff the current password is given and the new
      one is well formed and typed twice alike. */
  lemma SecurityAccepts(form: Form)
    ensures SecurityPasses(form) <==>
      && Get(form, "currentPassword") != ""
      && IsPassword(Get(form, "newPassword"))
      && Get(form, "confirmPassword") == Get(form, "newPassword")
  {
    assert Security("currentPassword", form) == Pass <==> Get(form, "currentPassword") != "";
    assert Security("newPassword", form) == Pass <==> IsPassword(Get(form, "newPassword"));
    assert Security("confirmPassword", form) == Pass <==> Get(form, "confirmPassword") == Get(form, "newPassword");
  }

  // ---- getEditValidationSchema ----

  /** The fields of the profile-edit schema: the telephone always; the
      social work and the membership number for a patient. */
  function EditFields(role: string): (fields: set<string>)
    ensures "telephone" in fields
    ensures "membershipNumber" in fields <==> role == "Patient"
    ensures "socialWork" in fields <==> role == "Patient"
    ensures fields <= {"telephone", "socialWork", "membershipNumber"}
  {
    if role == "Patient" then {"telephone", "socialWork", "membershipNumber"} else {"telephone"}
  }

  /** `getEditValidationSchema(role, particularId)[field]`. `particularId`
      is the id of the "Particular" social work, or `None` for `null`; the
      loose `==` is modelled on the id's text. */
  function Edit(role: string, particularId: Option<string>, field: string, form: Form): (v: Verdict)
    requires field in EditFields(role)
    ensures field == "telephone" ==> v == Lift(Telephone(Get(form, "telephone")))
    ensures field == "socialWork" ==>
      (v.Fail? <==> Get(form, "socialWork") == "" && Get(form, "membershipNumber") != "")
    ensures field == "membershipNumber" ==>
      (v.Fail? <==> Get(form, "socialWork") != "" && particularId != Some(Get(form, "socialWork"))
                    && Get(form, "membershipNumber") == "")
  {
    var value := Get(form, field);
    if field == "telephone" then Lift(Telephone(value))
    else if field == "socialWork" then
      if value == "" && Get(form, "membershipNumber") != "" then
        Fail("Debes seleccionar una obra social si tienes un N° de afiliado.")
      else Pass
    else
      var isParticular := Some(Get(form, "socialWork")) == particularId;
      if Get(form, "socialWork") != "" && !isParticular && value == "" then
        Fail("El N° de afiliado es requerido para esta obra social.")
      else Pass
  }

  /** For a patient, the social work and membership rules pass together iff
      a membership number comes with a social work, and a social work other
      than "Particular" comes with a membership number. */
  lemma EditPatientMembership(particularId: Option<string>, form: Form)
    ensures Edit("Patient", particularId, "socialWork", form) == Pass &&
            Edit("Patient", particularId, "membershipNumber", form) == Pass
      <==> && (Get(form, "membershipNumber") != "" ==> Get(form, "socialWork") != "")
           && ((Get(form, "socialWork") != "" && Some(Get(form, "socialWork")) != particularId)
               ==> Get(form, "membershipNumber") != "")
  {
  }
}

=== FILE: seqs.dfy ===
/** Sequence helpers used by the front-end list pipelines: `Array.filter`,
    `String.includes`, and `Array.sort` with a key comparator. */
module Seqs {

  /** `Array.prototype.filter`: keeps the elements satisfying `p`, in order. */
  function Filter<T(==)>(s: seq<T>, p: T -> bool): (r: seq<T>)
    ensures |r| <= |s|
    ensures forall i :: 0 <= i < |r| ==> r[i] in s && p(r[i])
    ensures forall i :: 0 <= i < |s| && p(s[i]) ==> s[i] in r
  {
    if s == [] then []
    else if p(s[0]) then [s[0]] + Filter(s[1..], p)
    else Filter(s[1..], p)
  }

  /** An element is kept exactly when it occurs and satisfies `p`. */
  lemma FilterMembers<T>(s: seq<T>, p: T -> bool)
    ensures forall x :: x in Filter(s, p) <==> x in s && p(x)
  {
    forall x | x in s && p(x) ensures x in Filter(s, p) {
      var i :| 0 <= i < |s| && s[i] == x;
    }
  }

  /** Lists with the same multiset have the same members. */
  lemma SameMembers<T>(a: seq<T>, b: seq<T>)
    requires multiset(a) == multiset(b)
    ensures forall x :: x in a <==> x in b
  {
    forall x ensures x in a <==> x in b {
      assert x in a <==> x in multiset(a);
      assert x in b <==> x in multiset(b);
    }
  }

  /** An element the filter rejects can be dropped before filtering. */
  lemma FilterSkip<T>(a: seq<T>, b: seq<T>, x: T, p: T -> bool)
    requires !p(x)
    ensures Filter(a + [x] + b, p) == Filter(a + b, p)
  {
    FilterAppend(a + [x], b, p);
    FilterAppend(a, [x], p);
    FilterAppend(a, b, p);
    assert Filter([x], p) == [];
  }

  /** `a` is obtained from `b` by deleting elements: original order kept. */
  predicate IsSubsequence<T(==)>(a: seq<T>, b: seq<T>)
    decreases |b|
  {
    if a == [] then true
    else if b == [] then false
    else (a[0] == b[0] && IsSubsequence(a[1..], b[1..])) || IsSubsequence(a, b[1..])
  }

  /** Every list is a subsequence of itself. */
  lemma {:induction false} SubsequenceOfItself<T>(s: seq<T>)
    ensures IsSubsequence(s, s)
    decreases |s|
  {
    if s != [] {
      SubsequenceOfItself(s[1..]);
    }
  }

  /** Every element of a subsequence occurs in the whole list. */
  lemma {:induction false} SubsequenceMembers<T>(a: seq<T>, b: seq<T>)
    requires IsSubsequence(a, b)
    ensures forall x :: x in a ==> x in b
    decreases |b|
  {
    if a != [] && b != [] {
      if a[0] == b[0] && IsSubsequence(a[1..], b[1..]) {
        SubsequenceMembers(a[1..], b[1..]);
        forall x | x in a ensures x in b {
          if x != a[0] {
            assert x in a[1..];
          }
        }
      } else {
        SubsequenceMembers(a, b[1..]);
      }
    }
  }

  lemma {:induction false} FilterIsSubsequence<T>(s: seq<T>, p: T -> bool)
    ensures IsSubsequence(Filter(s, p), s)
    decreases |s|
  {
    if s != [] {
      FilterIsSubsequence(s[1..], p);
      if p(s[0]) {
        var r := Filter(s, p);
        assert r[0] == s[0] && r[1..] == Filter(s[1..], p);
      } else {
        var r := Filter(s, p);
        if r != [] {
          assert r == Filter(s[1..], p);
        }
      }
    }
  }

  /** `Filter` keeps every occurrence of each element it passes. */
  lemma {:induction false} FilterCount<T>(s: seq<T>, p: T -> bool)
    ensures forall x :: p(x) ==> multiset(Filter(s, p))[x] == multiset(s)[x]
    decreases |s|
  {
    if s != [] {
      FilterCount(s[1..], p);
      assert s == [s[0]] + s[1..];
    }
  }

  /** A filter whose predicate holds everywhere keeps the whole list. */
  lemma {:induction false} FilterAll<T>(s: seq<T>, p: T -> bool)
    requires forall i :: 0 <= i < |s| ==> p(s[i])
    ensures Filter(s, p) == s
    decreases |s|
  {
    if s != [] {
      FilterAll(s[1..], p);
      assert [s[0]] + s[1..] == s;
    }
  }

  /** Two filters in a row keep exactly the elements passing both. */
  lemma {:induction false} FilterFilter<T>(s: seq<T>, p: T -> bool, q: T -> bool)
    ensures Filter(Filter(s, p), q) == Filter(s, x => p(x) && q(x))
    decreases |s|
  {
    if s != [] {
      FilterFilter(s[1..], p, q);
      if p(s[0]) {
        assert Filter(s, p) == [s[0]] + Filter(s[1..], p);
        assert Filter(s, p)[1..] == Filter(s[1..], p);
      }
    }
  }

  /** Filtering a concatenation filters each part. */
  lemma {:induction false} FilterAppend<T>(a: seq<T>, b: seq<T>, p: T -> bool)
    ensures Filter(a + b, p) == Filter(a, p) + Filter(b, p)
  {
    if a != [] {
      FilterAppend(a[1..], b, p);
      assert (a + b)[0] == a[0] && (a + b)[1..] == a[1..] + b;
    } else {
      assert a + b == b;
    }
  }

  /** Deleting elements twice is deleting elements once. */
  lemma {:induction false} SubsequenceTransitive<T>(a: seq<T>, b: seq<T>, c: seq<T>)
    requires IsSubsequence(a, b) && IsSubsequence(b, c)
    ensures IsSubsequence(a, c)
    decreases |c|
  {
    if a != [] && b != [] && c != [] {
      if b[0] == c[0] && IsSubsequence(b[1..], c[1..]) {
        if a[0] == b[0] && IsSubsequence(a[1..], b[1..]) {
          SubsequenceTransitive(a[1..], b[1..], c[1..]);
        } else {
          SubsequenceTransitive(a, b[1..], c[1..]);
        }
      } else {
        SubsequenceTransitive(a, b, c[1..]);
      }
    }
  }

  /** Two tests that agree everywhere keep the same elements. */
  lemma {:induction false} FilterExt<T>(s: seq<T>, p: T -> bool, q: T -> bool)
    requires forall x :: p(x) == q(x)
    ensures Filter(s, p) == Filter(s, q)
  {
    if s != [] {
      FilterExt(s[1..], p, q);
    }
  }

  /** Filtering by `p` and then by `q` is filtering once by their conjunction. */
  lemma {:induction false} FilterThen<T>(s: seq<T>, p: T -> bool, q: T -> bool, pq: T -> bool)
    requires forall x :: pq(x) == (p(x) && q(x))
    ensures Filter(Filter(s, p), q) == Filter(s, pq)
  {
    if s != [] {
      FilterThen(s[1..], p, q, pq);
      if p(s[0]) {
        assert Filter(s, p) == [s[0]] + Filter(s[1..], p);
        assert Filter(s, p)[1..] == Filter(s[1..], p);
      }
    }
  }

  /** A search step that runs only when its field is filled in:
      `if (field) list = list.filter(p)`. */
  function Stage<T(==)>(s: seq<T>, active: bool, p: T -> bool): (r: seq<T>)
    ensures !active ==> r == s
    ensures IsSubsequence(r, s)
  {
    if active then
      FilterIsSubsequence(s, p);
      Filter(s, p)
    else
      SubsequenceOfItself(s);
      s
  }

  /** One more step of a search is one filter on the original list, by the
      earlier tests and the new one if it runs. */
  lemma StageStep<T>(all: seq<T>, acc: T -> bool, active: bool, p: T -> bool, next: T -> bool)
    requires forall x :: next(x) == (acc(x) && (active ==> p(x)))
    ensures Stage(Filter(all, acc), active, p) == Filter(all, next)
  {
    if active {
      FilterThen(all, acc, p, next);
    } else {
      FilterExt(all, acc, next);
    }
  }

  /** `hay.includes(needle)` on UTF-16 strings, here on code points. */
  predicate Contains(hay: string, needle: string) {
    exists i :: 0 <= i <= |hay| && OccursAt(hay, needle, i)
  }

  /** `needle` is found in `hay` starting at index `i`. */
  predicate OccursAt(hay: string, needle: string, i: nat) {
    i + |needle| <= |hay| && hay[i..i + |needle|] == needle
  }

  lemma EmptyIsContained(hay: string)
    ensures Contains(hay, "")
  {
    assert OccursAt(hay, "", 0);
  }

  /** The order a comparator `(a, b) => key(a) - key(b)` (or its reverse) asks for. */
  predicate InOrder(x: int, y: int, ascending: bool) {
    if ascending then x <= y else y <= x
  }

  predicate SortedBy<T>(s: seq<T>, key: T -> int, ascending: bool) {
    forall i, j :: 0 <= i < j < |s| ==> InOrder(key(s[i]), key(s[j]), ascending)
  }

  function Insert<T>(x: T, s: seq<T>, key: T -> int, ascending: bool): seq<T>
    decreases |s|
  {
    if s == [] then [x]
    else if InOrder(key(x), key(s[0]), ascending) then [x] + s
    else [s[0]] + Insert(x, s[1..], key, ascending)
  }

  /** Prepending an element that comes before every element keeps a list sorted. */
  lemma ConsSorted<T>(h: T, t: seq<T>, key: T -> int, ascending: bool)
    requires SortedBy(t, key, ascending)
    requires forall j :: 0 <= j < |t| ==> InOrder(key(h), key(t[j]), ascending)
    ensures SortedBy([h] + t, key, ascending)
  {
    var r := [h] + t;
    forall i, j | 0 <= i < j < |r|
      ensures InOrder(key(r[i]), key(r[j]), ascending)
    {
      assert r[j] == t[j - 1];
      if i > 0 {
        assert r[i] == t[i - 1];
      }
    }
  }

  lemma {:induction false} InsertKeepsOrder<T>(x: T, s: seq<T>, key: T -> int, ascending: bool)
    requires SortedBy(s, key, ascending)
    ensures multiset(Insert(x, s, key, ascending)) == multiset(s) + multiset{x}
    ensures SortedBy(Insert(x, s, key, ascending), key, ascending)
    decreases |s|
  {
    if s == [] {
    } else if InOrder(key(x), key(s[0]), ascending) {
      forall j | 0 <= j < |s|
        ensures InOrder(key(x), key(s[j]), ascending)
      {
        if j > 0 {
          assert InOrder(key(s[0]), key(s[j]), ascending);
        }
      }
      ConsSorted(x, s, key, ascending);
    } else {
      var tail := Insert(x, s[1..], key, ascending);
      InsertKeepsOrder(x, s[1..], key, ascending);
      assert s == [s[0]] + s[1..];
      forall j | 0 <= j < |tail|
        ensures InOrder(key(s[0]), key(tail[j]), ascending)
      {
        assert tail[j] in multiset(tail);
        if tail[j] != x {
          assert tail[j] in multiset(s[1..]);
          var k :| 0 <= k < |s[1..]| && s[1..][k] == tail[j];
          assert s[k + 1] == tail[j];
        }
      }
      assert SortedBy(s[1..], key, ascending) by {
        forall a, b | 0 <= a < b < |s[1..]|
          ensures InOrder(key(s[1..][a]), key(s[1..][b]), ascending)
        {
          assert s[1..][a] == s[a + 1] && s[1..][b] == s[b + 1];
        }
      }
      ConsSorted(s[0], tail, key, ascending);
    }
  }

  /** `Array.prototype.sort` with a comparator on an integer key. */
  function SortBy<T>(s: seq<T>, key: T -> int, ascending: bool): (r: seq<T>)
    ensures multiset(r) == multiset(s)
    ensures |r| == |s|
    ensures SortedBy(r, key, ascending)
    decreases |s|
  {
    if s == [] then []
    else
      var rest := SortBy(s[1..], key, ascending);
      InsertKeepsOrder(s[0], rest, key, ascending);
      var r := Insert(s[0], rest, key, ascending);
      assert s == [s[0]] + s[1..];
      assert |r| == |multiset(r)|;
      r
  }

  /** The elements whose key is `v`. */
  function KeyIs<T>(key: T -> int, v: int): T -> bool {
    (x: T) => key(x) == v
  }

  /** `Insert` passes only elements of a different key, so among the
      elements of one key `x` comes first. */
  lemma {:induction false} InsertFilter<T>(x: T, t: seq<T>, key: T -> int, ascending: bool, v: int)
    ensures Filter(Insert(x, t, key, ascending), KeyIs(key, v))
      == (if key(x) == v then [x] else []) + Filter(t, KeyIs(key, v))
    decreases |t|
  {
    var p := KeyIs(key, v);
    if t == [] {
      assert Insert(x, t, key, ascending) == [x];
      assert Filter([x], p) == (if key(x) == v then [x] else []);
    } else if InOrder(key(x), key(t[0]), ascending) {
      var r := [x] + t;
      assert r[0] == x && r[1..] == t;
    } else {
      InsertFilter(x, t[1..], key, ascending, v);
      var r := [t[0]] + Insert(x, t[1..], key, ascending);
      assert r[0] == t[0] && r[1..] == Insert(x, t[1..], key, ascending);
      assert key(x) == v ==> key(t[0]) != v;
    }
  }

  /** `SortBy` is stable: the elements of any one key keep their order. */
  lemma {:induction false} SortByStable<T>(s: seq<T>, key: T -> int, ascending: bool)
    ensures forall v :: Filter(SortBy(s, key, ascending), KeyIs(key, v)) == Filter(s, KeyIs(key, v))
    decreases |s|
  {
    if s != [] {
      SortByStable(s[1..], key, ascending);
      var rest := SortBy(s[1..], key, ascending);
      forall v ensures Filter(SortBy(s, key, ascending), KeyIs(key, v)) == Filter(s, KeyIs(key, v)) {
        InsertFilter(s[0], rest, key, ascending, v);
      }
    }
  }

  /** No element occurs twice. */
  predicate Distinct<T(==)>(xs: seq<T>) {
    forall i, j :: 0 <= i < j < |xs| ==> xs[i] != xs[j]
  }

  /** A list without repeats has as many elements as its set. */
  lemma {:induction false} DistinctCard<T>(xs: seq<T>)
    requires Distinct(xs)
    ensures |set x | x in xs| == |xs|
  {
    if xs != [] {
      var rest := xs[1..];
      DistinctCard(rest);
      assert (set x | x in xs) == (set x | x in rest) + {xs[0]};
      assert forall k :: 0 <= k < |rest| ==> rest[k] == xs[k + 1];
      assert xs[0] !in rest;
    }
  }
}

=== FILE: text.dfy ===
/** String helpers the front end gets from JavaScript itself: the decimal
    form of a count (template literals), the `\s` character class and
    `String.prototype.trim`. */
module Text {
  import opened Clock

  /** The decimal digits of `n` with no leading zero (`${n}`). */
  function NatToString(n: nat): (s: string)
    ensures |s| > 0
    ensures forall i :: 0 <= i < |s| ==> IsDigitChar(s[i])
    decreases n
  {
    if n < 10 then [Digit(n)] else NatToString(n / 10) + [Digit(n % 10)]
  }

  /** The value of a string of decimal digits. */
  function ParseNat(s: string): nat
    requires forall i :: 0 <= i < |s| ==> IsDigitChar(s[i])
  {
    if s == [] then 0
    else
      assert IsDigitChar(s[|s| - 1]);
      ParseNat(s[..|s| - 1]) * 10 + DigitValue(s[|s| - 1])
  }

  /** Reading the decimal form back gives the number. */
  lemma {:induction false} ParseNatToString(n: nat)
    ensures ParseNat(NatToString(n)) == n
    decreases n
  {
    var s := NatToString(n);
    if n >= 10 {
      ParseNatToString(n / 10);
      assert s[..|s| - 1] == NatToString(n / 10);
    }
    DigitRoundTrip(n % 10);
  }

  /** Different counts are written differently. */
  lemma NatToStringInjective(m: nat, n: nat)
    requires NatToString(m) == NatToString(n)
    ensures m == n
  {
    ParseNatToString(m);
    ParseNatToString(n);
  }

  /** JavaScript's `\s`: white space and line terminators. */
  predicate IsSpace(c: char) {
    || c == ' ' || c == '\t' || c == '\n' || c == '\r' || c == '\U{000B}' || c == '\U{000C}'
    || c == '\U{00A0}' || c == '\U{1680}' || ('\U{2000}' <= c <= '\U{200A}')
    || c == '\U{2028}' || c == '\U{2029}' || c == '\U{202F}' || c == '\U{205F}'
    || c == '\U{3000}' || c == '\U{FEFF}'
  }

  predicate AllSpace(s: string) {
    forall i :: 0 <= i < |s| ==> IsSpace(s[i])
  }

  /** `s.trim()`: the white space at both ends removed. */
  function Trim(s: string): (t: string)
    ensures |t| <= |s|
    ensures t == [] <==> AllSpace(s)
    ensures t != [] ==> !IsSpace(t[0]) && !IsSpace(t[|t| - 1])
    decreases |s|
  {
    if s == [] then []
    else if IsSpace(s[0]) then Trim(s[1..])
    else if IsSpace(s[|s| - 1]) then Trim(s[..|s| - 1])
    else s
  }
}

=== FILE: user_roles.dfy ===
/** `UsuarioRolService`: the user-role join table. */
module UserRoles {
  import opened Wrappers
  import opened Seqs

  /** A `UsuarioRol` row: (id_usuario, id_rol). */
  datatype Grant = Grant(user: int, role: int)

  datatype Error = UnknownUser(user: int) | UnknownRole(role: int) | AlreadyGranted(user: int, role: int)

  /** `create`: the user must exist, then the role, then the pair must be
      new; the row is appended to the table. */
  function Create(grants: seq<Grant>, users: set<int>, roles: set<int>, g: Grant): (r: Result<seq<Grant>, Error>)
    ensures g.user !in users ==> r == Err(UnknownUser(g.user))
    ensures g.user in users && g.role !in roles ==> r == Err(UnknownRole(g.role))
    ensures r.Ok? <==> g.user in users && g.role in roles && g !in grants
    ensures r.Ok? ==> r.value == grants + [g]
  {
    if g.user !in users then Err(UnknownUser(g.user))
    else if g.role !in roles then Err(UnknownRole(g.role))
    else if g in grants then Err(AlreadyGranted(g.user, g.role))
    else Ok(grants + [g])
  }

  /** `create` keeps the table free of repeated pairs. */
  lemma {:induction false} CreateKeepsDistinct(grants: seq<Grant>, users: set<int>, roles: set<int>, g: Grant)
    requires Distinct(grants)
    requires Create(grants, users, roles, g).Ok?
    ensures Distinct(Create(grants, users, roles, g).value)
  {
    var r := grants + [g];
    forall i, j | 0 <= i < j < |r| ensures r[i] != r[j] {
      if j == |grants| {
        assert r[i] == grants[i];
      }
    }
  }

  /** Granting the same pair twice fails the second time. */
  lemma SecondGrantFails(grants: seq<Grant>, users: set<int>, roles: set<int>, g: Grant)
    requires Create(grants, users, roles, g).Ok?
    ensures Create(Create(grants, users, roles, g).value, users, roles, g) == Err(AlreadyGranted(g.user, g.role))
  {
    var r := Create(grants, users, roles, g).value;
    assert r[|grants|] == g;
  }

  /** `delete`: `false` and no change when the pair is absent; otherwise
      that pair's row is removed and the others keep their order. */
  function Delete(grants: seq<Grant>, g: Grant): (r: (seq<Grant>, bool))
    ensures r.1 <==> g in grants
    ensures !r.1 ==> r.0 == grants
    ensures g !in r.0
    ensures forall x :: x in grants && x != g ==> x in r.0
    ensures IsSubsequence(r.0, grants)
  {
    if g !in grants then
      SubsequenceOfItself(grants);
      (grants, false)
    else
      var rest := Filter(grants, x => x != g);
      FilterIsSubsequence(grants, x => x != g);
      (rest, true)
  }

  /** `get_by_usuario_id`: that user's rows, in table order. */
  function ForUser(grants: seq<Grant>, user: int): (r: seq<Grant>)
    ensures forall i :: 0 <= i < |r| ==> r[i].user == user && r[i] in grants
    ensures forall i :: 0 <= i < |grants| && grants[i].user == user ==> grants[i] in r
  {
    Filter(grants, (x: Grant) => x.user == user)
  }

  /** A grant just made is listed for its user. */
  lemma CreatedGrantListed(grants: seq<Grant>, users: set<int>, roles: set<int>, g: Grant)
    requires Create(grants, users, roles, g).Ok?
    ensures g in ForUser(Create(grants, users, roles, g).value, g.user)
  {
    var r := Create(grants, users, roles, g).value;
    assert r[|grants|] == g;
  }
}

=== FILE: week_calendar.dfy ===
/** The read-only week calendar: its fixed half-hour rows, the working-hour
    shading taken from a doctor's availability, and which event a cell shows. */
module WeekCalendar {
  import opened Wrappers
  import opened Clock

  const DefaultStart: int := 8
  const DefaultEnd: int := 20
  const Interval: int := 30

  /** `startOfWeek(currentDate, { weekStartsOn: 1 })`: the Monday of the week. */
  function WeekStart(day: int): (monday: int)
    ensures monday <= day < monday + 7
    ensures JsWeekday(monday) == 1
  {
    day - day % 7
  }

  /** `weekDays`: Monday to Sunday of the week holding `day`. */
  function WeekDays(day: int): (days: seq<int>)
    ensures |days| == 7 && day in days
    ensures forall i :: 0 <= i < 7 ==> days[i] == WeekStart(day) + i
    ensures forall i :: 0 <= i < 7 ==> JsWeekday(days[i]) == (i + 1) % 7
  {
    var monday := WeekStart(day);
    var days := seq(7, i => monday + i);
    assert days[day - monday] == day;
    days
  }

  /** Labels of half-hour-spaced minutes of one day increase as strings. */
  lemma SpacedLabelsIncrease(slots: seq<string>, first: int)
    requires 0 <= first && first + 30 * |slots| <= MinutesPerDay
    requires forall i :: 0 <= i < |slots| ==> slots[i] == HhMm(first + 30 * i)
    ensures forall i, j :: 0 <= i < j < |slots| ==> StrLess(slots[i], slots[j])
  {
    forall i, j | 0 <= i < j < |slots| ensures StrLess(slots[i], slots[j]) {
      LabelOrder(first + 30 * i, first + 30 * j);
    }
  }

  /** ... and stay below the label of any later minute. */
  lemma SpacedLabelsBelow(slots: seq<string>, first: int, end: int)
    requires 0 <= first && first + 30 * |slots| <= end < MinutesPerDay
    requires forall i :: 0 <= i < |slots| ==> slots[i] == HhMm(first + 30 * i)
    ensures forall i :: 0 <= i < |slots| ==> StrLess(slots[i], HhMm(end))
  {
    forall i | 0 <= i < |slots| ensures StrLess(slots[i], HhMm(end)) {
      LabelOrder(first + 30 * i, end);
    }
  }

  const MsPerMinute: int := 60000

  /** `timeSlots`: from 08:00 while before 20:00, every 30 minutes. `current`
      and `end` come from two separate `new Date()` reads; `setHours` and
      `setMinutes` keep each read's seconds and milliseconds, given here as
      `firstMs` and `secondMs`, the milliseconds past the minute of each
      read. When the first is smaller, 20:00 of the first read is still
      before 20:00 of the second and a 25th label "20:00" is pushed. */
  method TimeSlots(firstMs: int, secondMs: int) returns (slots: seq<string>)
    requires 0 <= firstMs < MsPerMinute && 0 <= secondMs < MsPerMinute
    ensures |slots| == if firstMs < secondMs then 25 else 24
    ensures forall i :: 0 <= i < |slots| ==> slots[i] == HhMm(DefaultStart * MinutesPerHour + Interval * i)
    ensures forall i, j :: 0 <= i < j < |slots| ==> StrLess(slots[i], slots[j])
    ensures forall i :: 0 <= i < 24 ==> StrLess(slots[i], HhMm(DefaultEnd * MinutesPerHour))
    ensures |slots| == 25 ==> slots[24] == HhMm(DefaultEnd * MinutesPerHour)
  {
    slots := [];
    var first := DefaultStart * MinutesPerHour;
    var minute := first;
    var current := first * MsPerMinute + firstMs;
    var end := DefaultEnd * MinutesPerHour * MsPerMinute + secondMs;
    while current < end
      invariant |slots| <= 25 && minute == first + Interval * |slots|
      invariant current == minute * MsPerMinute + firstMs
      invariant |slots| == 25 ==> firstMs < secondMs
      invariant forall i :: 0 <= i < |slots| ==> slots[i] == HhMm(first + Interval * i)
      decreases end - current
    {
      slots := slots + [HhMm(minute)];
      minute := minute + Interval;
      current := current + Interval * MsPerMinute;
    }
    SpacedLabelsIncrease(slots, first);
    SpacedLabelsBelow(slots[..24], first, DefaultEnd * MinutesPerHour);
  }

  /** One entry of `doctorAvailability`: a weekday (0 = Sunday) and its hours
      as "HH:mm" strings. */
  datatype Config = Config(dayOfWeek: int, startTime: string, endTime: string)

  /** `doctorAvailability.find(d => d.dayOfWeek === dayIndex)`. */
  function FindConfig(configs: seq<Config>, weekday: int): (r: Option<Config>)
    ensures r.None? <==> forall i :: 0 <= i < |configs| ==> configs[i].dayOfWeek != weekday
    ensures r.Some? ==> r.value in configs && r.value.dayOfWeek == weekday
  {
    if configs == [] then None
    else if configs[0].dayOfWeek == weekday then Some(configs[0])
    else FindConfig(configs[1..], weekday)
  }

  /** The config at index `k` is the one found when no earlier one has its weekday. */
  lemma {:induction false} FindFirstConfig(configs: seq<Config>, weekday: int, k: int)
    requires 0 <= k < |configs| && configs[k].dayOfWeek == weekday
    requires forall j :: 0 <= j < k ==> configs[j].dayOfWeek != weekday
    ensures FindConfig(configs, weekday) == Some(configs[k])
  {
    if k > 0 {
      FindFirstConfig(configs[1..], weekday, k - 1);
    }
  }

  /** `isWorkingHour(dayDate, timeStr)`: `timeStr >= startTime && timeStr < endTime`
      on strings, for the first config of the day's `getDay`. */
  function IsWorkingHour(configs: seq<Config>, day: int, time: string): (r: bool)
    ensures configs == [] ==> r
    ensures configs != [] && (forall i :: 0 <= i < |configs| ==> configs[i].dayOfWeek != JsWeekday(day)) ==> !r
    ensures configs != [] && r ==> exists i :: 0 <= i < |configs| && configs[i].dayOfWeek == JsWeekday(day)
  {
    if |configs| == 0 then true
    else
      match FindConfig(configs, JsWeekday(day))
      case None => false
      case Some(c) => !StrLess(time, c.startTime) && StrLess(time, c.endTime)
  }

  /** Working hours are half-open: for labelled times the string test is the
      minute test `start <= m < end`. */
  lemma {:induction false} WorkingHoursHalfOpen(configs: seq<Config>, day: int, k: int, s: int, e: int, m: int)
    requires 0 <= s < MinutesPerDay && 0 <= e < MinutesPerDay && 0 <= m < MinutesPerDay
    requires 0 <= k < |configs| && configs[k] == Config(JsWeekday(day), HhMm(s), HhMm(e))
    requires forall j :: 0 <= j < k ==> configs[j].dayOfWeek != JsWeekday(day)
    ensures IsWorkingHour(configs, day, HhMm(m)) <==> s <= m < e
  {
    FindFirstConfig(configs, JsWeekday(day), k);
    LabelOrder(m, s);
    LabelOrder(m, e);
  }

  /** Only the first config of a weekday counts: a second one for Monday
      that covers 15:00 does not make 15:00 a working hour. */
  lemma FirstConfigOnly()
    ensures var configs := [Config(1, "09:00", "12:00"), Config(1, "14:00", "18:00")];
      !IsWorkingHour(configs, 0, "15:00")
  {
    var configs := [Config(1, "09:00", "12:00"), Config(1, "14:00", "18:00")];
    FindFirstConfig(configs, 1, 0);
    assert "15:00" == HhMm(900) && "09:00" == HhMm(540) && "12:00" == HhMm(720);
    LabelOrder(900, 720);
  }

  /** A calendar event; `startTime || date` is its start. */
  datatype Event = Event(start: int, title: string)

  /** `findEventInSlot`: the first event starting in the cell. */
  function FindEvent(events: seq<Event>, day: int, time: string): (r: Option<Event>)
    ensures r.None? <==> forall i :: 0 <= i < |events| ==> !StartsAt(events[i].start, day, time)
    ensures r.Some? ==> r.value in events && StartsAt(r.value.start, day, time)
  {
    if events == [] then None
    else if StartsAt(events[0].start, day, time) then Some(events[0])
    else FindEvent(events[1..], day, time)
  }

  /** What a cell renders: an event button, a working-hour cell or an
      off-hours cell. */
  datatype Cell = EventCell(event: Event) | WorkingCell | OffCell

  /** The rendering order: an event first, then the working-hour test. */
  function CellAt(events: seq<Event>, configs: seq<Config>, day: int, time: string): (r: Cell)
    ensures r.EventCell? <==> exists i :: 0 <= i < |events| && StartsAt(events[i].start, day, time)
    ensures r.EventCell? ==> r.event in events && StartsAt(r.event.start, day, time)
    ensures r == WorkingCell <==> !r.EventCell? && IsWorkingHour(configs, day, time)
  {
    match FindEvent(events, day, time)
    case Some(e) => EventCell(e)
    case None => if IsWorkingHour(configs, day, time) then WorkingCell else OffCell
  }

  /** The cell of minute `m` shows an event iff some event starts at exactly
      that minute of that day, working hours or not. */
  lemma {:induction false} EventShownIff(events: seq<Event>, configs: seq<Config>, day: int, m: int)
    requires 0 <= m < MinutesPerDay
    ensures CellAt(events, configs, day, HhMm(m)).EventCell? <==>
      exists i :: 0 <= i < |events| && events[i].start == At(day, m)
  {
    forall i | 0 <= i < |events| ensures StartsAt(events[i].start, day, HhMm(m)) <==> events[i].start == At(day, m) {
      StartsAtMinute(events[i].start, day, m);
    }
  }

  /** An event outside the working hours is still shown. */
  lemma EventBeatsOffHours()
    ensures var c := CellAt([Event(At(0, 21 * 60), "late")], [Config(1, "09:00", "17:00")], 0, HhMm(21 * 60));
      c == EventCell(Event(At(0, 21 * 60), "late")) && !IsWorkingHour([Config(1, "09:00", "17:00")], 0, HhMm(21 * 60))
  {
    assert StartsAt(At(0, 21 * 60), 0, HhMm(21 * 60));
    FindFirstConfig([Config(1, "09:00", "17:00")], 1, 0);
    assert "17:00" == HhMm(1020);
    LabelOrder(21 * 60, 1020);
  }
}

=== FILE: weekly_slots.dfy ===
/** The patient's (and doctor's) weekly slot grid: the fixed half-hour
    labels, the classification of one cell, and the one-slot selection that
    a click toggles. The clock read `new Date()` is the parameter `now`. */
module WeeklySlots {
  import opened Wrappers
  import opened Clock

  /** `TIME_SLOTS`: the labels of the grid's rows. */
  const TimeSlots: seq<Label> := [
    "09:00", "09:30", "10:00", "10:30",
    "11:00", "11:30", "12:00", "12:30",
    "13:00", "13:30", "14:00", "14:30",
    "15:00", "15:30", "16:00", "16:30",
    "17:00", "17:30", "18:00"
  ]

  const FirstSlot: int := 9 * MinutesPerHour
  const SlotStep: int := 30

  /** Row `i` is labelled with the time `i` half hours after 09:00. */
  lemma SlotLabel(i: int)
    requires 0 <= i < |TimeSlots|
    ensures TimeSlots[i] == HhMm(FirstSlot + SlotStep * i)
  {
    if i == 0 { assert TimeSlots[i] == "09:00" == HhMm(540); }
    else if i == 1 { assert TimeSlots[i] == "09:30" == HhMm(570); }
    else if i == 2 { assert TimeSlots[i] == "10:00" == HhMm(600); }
    else if i == 3 { assert TimeSlots[i] == "10:30" == HhMm(630); }
    else if i == 4 { assert TimeSlots[i] == "11:00" == HhMm(660); }
    else if i == 5 { assert TimeSlots[i] == "11:30" == HhMm(690); }
    else if i == 6 { assert TimeSlots[i] == "12:00" == HhMm(720); }
    else if i == 7 { assert TimeSlots[i] == "12:30" == HhMm(750); }
    else if i == 8 { assert TimeSlots[i] == "13:00" == HhMm(780); }
    else if i == 9 { assert TimeSlots[i] == "13:30" == HhMm(810); }
    else if i == 10 { assert TimeSlots[i] == "14:00" == HhMm(840); }
    else if i == 11 { assert TimeSlots[i] == "14:30" == HhMm(870); }
    else if i == 12 { assert TimeSlots[i] == "15:00" == HhMm(900); }
    else if i == 13 { assert TimeSlots[i] == "15:30" == HhMm(930); }
    else if i == 14 { assert TimeSlots[i] == "16:00" == HhMm(960); }
    else if i == 15 { assert TimeSlots[i] == "16:30" == HhMm(990); }
    else if i == 16 { assert TimeSlots[i] == "17:00" == HhMm(1020); }
    else if i == 17 { assert TimeSlots[i] == "17:30" == HhMm(1050); }
    else { assert i == 18 && TimeSlots[i] == "18:00" == HhMm(1080); }
  }

  /** The labels are the half hours from 09:00 to 18:00. */
  lemma TimeSlotsAreHalfHours()
    ensures |TimeSlots| == 19
    ensures forall i :: 0 <= i < |TimeSlots| ==> TimeSlots[i] == HhMm(FirstSlot + SlotStep * i)
    ensures TimeSlots[0] == "09:00" && TimeSlots[18] == "18:00"
  {
    forall i | 0 <= i < |TimeSlots| ensures TimeSlots[i] == HhMm(FirstSlot + SlotStep * i) {
      SlotLabel(i);
    }
  }

  /** The labels are strictly increasing as strings, the order the grid
      relies on to read top to bottom. */
  lemma TimeSlotsIncrease()
    ensures forall i, j :: 0 <= i < j < |TimeSlots| ==> StrLess(TimeSlots[i], TimeSlots[j])
  {
    forall i, j | 0 <= i < j < |TimeSlots| ensures StrLess(TimeSlots[i], TimeSlots[j]) {
      SlotLabel(i);
      SlotLabel(j);
      LabelOrder(FirstSlot + SlotStep * i, FirstSlot + SlotStep * j);
    }
  }

  /** `weekDays`: the seven days from the day after the selected week's
      first day (the calendar's weeks start on Sunday). */
  function WeekDays(from: int): (days: seq<int>)
    ensures |days| == 7
    ensures forall i :: 0 <= i < 7 ==> days[i] == from + 1 + i
  {
    seq(7, i => from + 1 + i)
  }

  /** For a week that starts on a Sunday the columns run Monday to Sunday. */
  lemma WeekStartsMonday(from: int)
    requires JsWeekday(from) == 0
    ensures forall i :: 0 <= i < 7 ==> JsWeekday(WeekDays(from)[i]) == (i + 1) % 7
  {
  }

  /** An existing shift as the grid sees it: its start and its status name. */
  datatype Shift = Shift(start: int, status: string)

  /** The selected slot: `{ date, time }`. */
  datatype Choice = Choice(day: int, time: string)

  /** `status` of `getSlotInfo`; the doctor's occupied cell carries the
      status name as its caption (`label`) and the shift as its data. */
  datatype SlotInfo =
    | Expired
    | Empty
    | OccupiedDoctor(caption: string, data: Shift)
    | Occupied
    | Selected
    | Available

  /** `existingShifts.find(...)`: the first shift in the cell. */
  function FindShift(shifts: seq<Shift>, day: int, time: string): (r: Option<Shift>)
    ensures r.None? <==> forall i :: 0 <= i < |shifts| ==> !StartsAt(shifts[i].start, day, time)
    ensures r.Some? ==> r.value in shifts && StartsAt(r.value.start, day, time)
  {
    if shifts == [] then None
    else if StartsAt(shifts[0].start, day, time) then Some(shifts[0])
    else FindShift(shifts[1..], day, time)
  }

  /** Any role other than "doctor" gets the patient's view. */
  predicate DoctorView(role: string) {
    role == "doctor"
  }

  /** `getSlotInfo(dayDate, timeString)` for the cell at minute `m` of `day`. */
  function GetSlotInfo(shifts: seq<Shift>, selection: Option<Choice>, role: string, now: int, day: int, m: int)
    : (r: SlotInfo)
    requires 0 <= m < MinutesPerDay
    ensures At(day, m) < now <==> r == Expired
    ensures r == Empty <==> At(day, m) >= now && DoctorView(role) && forall i :: 0 <= i < |shifts| ==> !StartsAt(shifts[i].start, day, HhMm(m))
    ensures r.OccupiedDoctor? ==> DoctorView(role) && r.data in shifts && StartsAt(r.data.start, day, HhMm(m)) && r.caption == r.data.status
    ensures r == Occupied ==> !DoctorView(role) && exists i :: 0 <= i < |shifts| && StartsAt(shifts[i].start, day, HhMm(m)) && shifts[i].status != "Cancelado"
    ensures r == Selected ==> !DoctorView(role) && selection == Some(Choice(day, HhMm(m)))
    ensures DoctorView(role) ==> r in {Expired, Empty} || r.OccupiedDoctor?
    ensures !DoctorView(role) ==> r in {Expired, Occupied, Selected, Available}
    ensures DoctorView(role) && At(day, m) >= now && FindShift(shifts, day, HhMm(m)).Some? ==>
      r == OccupiedDoctor(FindShift(shifts, day, HhMm(m)).value.status, FindShift(shifts, day, HhMm(m)).value)
    ensures !DoctorView(role) && At(day, m) >= now ==>
      (r == Occupied <==> FindShift(shifts, day, HhMm(m)).Some? && FindShift(shifts, day, HhMm(m)).value.status != "Cancelado")
    ensures !DoctorView(role) && At(day, m) >= now && r != Occupied ==>
      (r == Selected <==> selection == Some(Choice(day, HhMm(m))))
  {
    var time := HhMm(m);
    if At(day, m) < now then Expired
    else
      var found := FindShift(shifts, day, time);
      if DoctorView(role) then
        if found.None? then Empty else OccupiedDoctor(found.value.status, found.value)
      else if found.Some? && found.value.status != "Cancelado" then Occupied
      else if selection.Some? && selection.value.day == day && selection.value.time == time then Selected
      else Available
  }

  /** `handleSlotClick`: the selection after a click on a cell whose
      information is `info`. */
  function Click(selection: Option<Choice>, role: string, day: int, m: int, info: SlotInfo): (r: Option<Choice>)
    requires 0 <= m < MinutesPerDay
    ensures DoctorView(role) || info in {Occupied, Expired} ==> r == selection
    ensures r.Some? && r != selection ==> r == Some(Choice(day, HhMm(m)))
    ensures r.None? && selection.Some? ==> selection == Some(Choice(day, HhMm(m)))
    ensures !DoctorView(role) && info !in {Occupied, Expired} ==>
      r == (if selection == Some(Choice(day, HhMm(m))) then None else Some(Choice(day, HhMm(m))))
  {
    if DoctorView(role) then selection
    else if info == Occupied || info == Expired then selection
    else if selection.Some? && selection.value.day == day && selection.value.time == HhMm(m) then None
    else Some(Choice(day, HhMm(m)))
  }

  /** An expired cell is expired for every role, shift list and selection. */
  lemma ExpiredWins(shifts: seq<Shift>, selection: Option<Choice>, role: string, now: int, day: int, m: int)
    requires 0 <= m < MinutesPerDay && At(day, m) < now
    ensures GetSlotInfo(shifts, selection, role, now, day, m) == Expired
    ensures Click(selection, role, day, m, GetSlotInfo(shifts, selection, role, now, day, m)) == selection
  {
  }

  /** In the patient's view a cell whose only shifts are cancelled is free:
      it can be selected, unlike on the server, where a cancelled
      appointment still blocks the slot. */
  lemma CancelledIsSelectable(shifts: seq<Shift>, role: string, now: int, day: int, m: int)
    requires 0 <= m < MinutesPerDay && At(day, m) >= now && !DoctorView(role)
    requires forall i :: 0 <= i < |shifts| && StartsAt(shifts[i].start, day, HhMm(m)) ==> shifts[i].status == "Cancelado"
    ensures GetSlotInfo(shifts, None, role, now, day, m) == Available
    ensures Click(None, role, day, m, GetSlotInfo(shifts, None, role, now, day, m)) == Some(Choice(day, HhMm(m)))
  {
  }

  /** Only the first shift in a cell is looked at: a cancelled shift listed
      before a pending one in the same cell leaves the cell available. */
  lemma FirstShiftDecides()
    ensures var shifts := [Shift(600, "Cancelado"), Shift(600, "Pendiente")];
      GetSlotInfo(shifts, None, "patient", 0, 0, 600) == Available
  {
    assert StartsAt(600, 0, HhMm(600));
  }

  /** Selecting a free cell and clicking it again restores the selection
      that was there before the first click, when there was none. */
  lemma SelectThenDeselect(shifts: seq<Shift>, role: string, now: int, day: int, m: int)
    requires 0 <= m < MinutesPerDay && At(day, m) >= now && !DoctorView(role)
    requires GetSlotInfo(shifts, None, role, now, day, m) == Available
    ensures var s1 := Click(None, role, day, m, GetSlotInfo(shifts, None, role, now, day, m));
      && s1 == Some(Choice(day, HhMm(m)))
      && GetSlotInfo(shifts, s1, role, now, day, m) == Selected
      && Click(s1, role, day, m, GetSlotInfo(shifts, s1, role, now, day, m)) == None
  {
  }

  /** A click on another free cell moves the selection there. */
  lemma ClickMovesSelection(shifts: seq<Shift>, selection: Option<Choice>, role: string, now: int, day: int, m: int)
    requires 0 <= m < MinutesPerDay && !DoctorView(role)
    requires GetSlotInfo(shifts, selection, role, now, day, m) == Available
    ensures Click(selection, role, day, m, GetSlotInfo(shifts, selection, role, now, day, m)) == Some(Choice(day, HhMm(m)))
  {
  }

  /** At most one cell of the grid shows as selected. */
  lemma {:induction false} AtMostOneSelected(shifts: seq<Shift>, selection: Option<Choice>, role: string, now: int,
                                             day: int, m: int, day': int, m': int)
    requires 0 <= m < MinutesPerDay && 0 <= m' < MinutesPerDay
    requires GetSlotInfo(shifts, selection, role, now, day, m) == Selected
    requires GetSlotInfo(shifts, selection, role, now, day', m') == Selected
    ensures day == day' && m == m'
  {
    LabelOrder(m, m');
  }

  /** The `disabled` attribute of a cell's button. */
  predicate Disabled(role: string, info: SlotInfo) {
    (role == "patient" && info == Occupied) || info == Expired
  }

  /** Clicking a disabled button, were it delivered, would change nothing. */
  lemma DisabledClickIgnored(selection: Option<Choice>, role: string, day: int, m: int, info: SlotInfo)
    requires 0 <= m < MinutesPerDay && Disabled(role, info)
    ensures Click(selection, role, day, m, info) == selection
  {
  }

  /** The rendered buttons, column by column: the column at index 6 returns
      `null` for every label, so the week's last day has no buttons. */
  method Buttons(from: int) returns (cells: seq<(int, int)>)
    ensures |cells| == 6 * |TimeSlots|
    ensures forall k :: 0 <= k < |cells| ==>
      cells[k] == (from + 1 + k / |TimeSlots|, FirstSlot + SlotStep * (k % |TimeSlots|))
    ensures forall k :: 0 <= k < |cells| ==> cells[k].0 != WeekDays(from)[6]
  {
    var days := WeekDays(from);
    cells := [];
    var index := 0;
    while index < 7
      invariant 0 <= index <= 7
      invariant |cells| == (if index < 7 then index else 6) * |TimeSlots|
      invariant forall k :: 0 <= k < |cells| ==>
        cells[k] == (from + 1 + k / |TimeSlots|, FirstSlot + SlotStep * (k % |TimeSlots|))
    {
      var timeIndex := 0;
      while timeIndex < |TimeSlots|
        invariant 0 <= timeIndex <= |TimeSlots|
        invariant |cells| == index * |TimeSlots| + (if index == 6 then 0 else timeIndex)
        invariant forall k :: 0 <= k < |cells| ==>
          cells[k] == (from + 1 + k / |TimeSlots|, FirstSlot + SlotStep * (k % |TimeSlots|))
      {
        if index != 6 {
          cells := cells + [(days[index], FirstSlot + SlotStep * timeIndex)];
        }
        timeIndex := timeIndex + 1;
      }
      index := index + 1;
    }
  }
}

=== FILE: wrappers.dfy ===
/** Failure-carrying values shared by every module of the model: the
    source signals "not found" with None/False and rejections with raised
    exceptions, which become `None` and `Err` here. */
module Wrappers {

  datatype Option<+T> = None | Some(value: T) {
    predicate IsNone() { None? }

    function GetOr(default: T): T {
      match this
      case Some(v) => v
      case None => default
    }
  }

  datatype Result<+T, +E> = Ok(value: T) | Err(error: E) {
    predicate IsFailure() { Err? }

    function PropagateFailure<U>(): Result<U, E>
      requires Err?
    {
      Err(error)
    }

    function Extract(): T
      requires Ok?
    {
      value
    }
  }
}
